=== FILE: README.md ===
# FinTrack ledger — a Dafny model

This project models the logic core of FinTrack, a personal-finance web app, in Dafny.

**The store.** The app keeps one ledger store holding:
- categories, budgets, expenses and incomes;
- savings goals, investment calculations and financial forecasts;
- an append-only history of financial-health scores.

The store's mutators are modelled as pure functions from one snapshot to the next. Fresh ids and the clock are parameters. Two behaviours matter most:
- Every expense or income mutation ends by appending one health-score record for the current month.
- Adding an expense also charges the first budget of its category and month.

**The pages.** Each page's data preparation is modelled as a pure fold over the store's sequences:
- the budget page's budget-versus-actual cards and its "copy last month" button;
- the dashboard's six-month chart, category pie, net worth and score card;
- the savings page's twelve-month trend, lifetime ratio and tips;
- the one-time expenses page's filtered list, planned/unplanned totals and save dialog;
- the expense tracker's filtered and sorted lists and its save dialogs;
- the savings-goals page's progress, months-to-goal, totals, add and delete.

**Number and date conventions.**
- Amounts are exact `real`s.
- `Math.round(x)` is `Floor(x + 1/2)`, and `Math.ceil(x)` is `-Floor(-x)`.
- Dates are strings, and "in month M" is a prefix test against the `YYYY-MM` key.
- The current month is a `(year, month)` parameter.

Modules, one per file:

| module | file | what it holds |
|---|---|---|
| `Wrappers` | wrappers.dfy | `Option` |
| `Numeric` | numeric.dfy | `Round`, `Ceil`, `Min`, `Max` with their JavaScript meaning |
| `Text` | text.dfy | prefix test, `substring`, decimal printing and parsing, `padStart(2, '0')` |
| `Collections` | collections.dfy | `find`, `filter`, sums, keyed replace/remove, group-by in first-occurrence order |
| `Sorting` | sorting.dfy | the lists' comparator, a stable sort, `handleSort` |
| `Entities` | entities.dfy | the store's records and their `Partial<T>` patches |
| `Ledger` | ledger.dfy | month filters, month and lifetime totals, category lookup |
| `Store` | store.dfy | the store state, every mutator, the health score |
| `Actions` | actions.dfy | the store as a state machine over actions |
| `Utils` | utils.dfy | `calculatePercentage`, `getFinancialHealthStatus`, month keys, `getMonthRange` |
| `BudgetOverview` | budget_overview.dfy | budget page |
| `Dashboard` | dashboard.dfy | dashboard page |
| `SavingsOverview` | savings_overview.dfy | savings page |
| `OneTimeExpenses` | one_time_expenses.dfy | one-time expenses page |
| `ExpenseTracker` | expense_tracker.dfy | expense and income tracker page |
| `SavingsGoals` | savings_goals.dfy | savings-goals page |

## Model

| member | source | states |
|---|---|---|
| Numeric.Round | src/lib/utils.ts:30 | `Math.round`: the integer nearest to x, with halves rounded up (towards +infinity) |
| Collections.ReplaceKey | src/lib/store.ts:205-207 | the keyed `map` of every `updateX`: same length and order; records with another key are untouched, records with the key get the patch; an absent key changes nothing |
| Collections.RemoveKey | src/lib/store.ts:214 | the keyed `filter` of every `deleteX`: no record with the key remains, every record with another key stays, and an absent key changes nothing |
| Collections.RemoveKeyAppend | src/lib/store.ts:214 | deleting by key distributes over concatenation, so the records kept stay in their original relative order |
| Collections.RemoveUndoesAppend | src/lib/store.ts:174-177 | removing a record just appended under a key not yet present gives the original list back |
| Collections.AppendFreshKeepsUnique | src/lib/store.ts:175 | appending a record with a fresh id keeps ids distinct |
| Entities.ExpensePatchLaws | src/lib/store.ts:206 | the spread `{ ...e, ...patch }`: an empty patch is the identity, a patch applied twice equals once, and every one of the ten fields the patch omits keeps its value |
| Ledger.MonthKeyOf | src/lib/store.ts:182 | the month key of a stored date: its first seven characters, a prefix of the date (the whole string when shorter); this equals `new Date(date).toISOString().substring(0, 7)` on `YYYY-MM-DD` dates and UTC timestamps |
| Store.SavingsRatio | src/lib/store.ts:362-364 | the month's savings ratio is 0 without income; otherwise ratio × income = income − expenses, and it lies in [0, 1] when 0 ≤ expenses ≤ income |
| Store.BudgetAdherence | src/lib/store.ts:367-376 | adherence never exceeds 1; it is 1 with no budgets or a non-positive total; otherwise, for a positive total, it is 1 exactly when spent·2 ≤ total and else satisfies (r − 0.5)·total = total − spent, i.e. min(1, (total − spent)/total + 0.5) |
| Store.HealthScoreFor | src/lib/store.ts:352-394 | the score is round((s·0.4 + b·0.3 + 0.8·0.15 + 0.6·0.15)·100); debt and investment ratios are fixed at 0.8 and 0.6; with no income the savings ratio is 0; with no budgets adherence is 1; the savings ratio is that of the month's income and expense totals and the adherence is that of the month's budgets |
| Store.RecordHealthScore | src/lib/store.ts:346-399 | `calculateFinancialHealthScore` appends exactly one record, the score of the current month, keeps every earlier record as a prefix and changes nothing else |
| Store.ScoreExample | src/lib/store.ts:383-385 | income 5000 and spending 3750 in the month, with no budgets, give a savings ratio of 0.25 and a score of 61 |
| Store.ScoreBounds | src/lib/store.ts:382-385 | with non-negative spending the score is at most 91; with spending within income and budgets not overspent it is at least 36 |
| Store.ScoreCanBeNegative | src/lib/store.ts:382-385 | the "0-100" score is not clamped: spending three times the month's income gives a negative score |
| Store.ChargedBudget | src/lib/store.ts:181-186 | the budget found for an expense is the first one with its category and the month of its date; none is looked up for an empty category, and none is found exactly when no budget matches |
| Store.ChargeBudgets | src/lib/store.ts:180-197 | the charge keeps the budget list's length and ids; without a match every budget is unchanged, otherwise each budget either keeps or adds the amount to `spent` |
| Store.ChargeFirstMatchOnly | src/lib/store.ts:188-193 | with unique budget ids, only the first matching budget's `spent` rises, by exactly the amount |
| Store.ChargeKeepsOtherMonths | src/lib/store.ts:182-191 | charging an expense never alters the budgets of any other month |
| Store.AddExpense | src/lib/store.ts:174-201 | appends the draft under the fresh id, applies the budget charge, appends the score of the resulting state, and leaves every other collection alone |
| Store.AddExpenseMonthTotal | src/lib/store.ts:174-178 | adding an expense raises the current month's expense total by its amount exactly when its date is in that month |
| Store.AddExpenseOtherMonthKeepsScore | src/lib/store.ts:180-200 | an expense dated in another month records the same score as the state before it |
| Store.UpdateExpense | src/lib/store.ts:203-210 | length and order kept, only records carrying the id change and only by the patch, an absent id changes no expense; budgets are not touched; one score is appended |
| Store.UpdateExpenseIdempotent | src/lib/store.ts:203-208 | repeating the same update leaves the expenses as one update did |
| Store.UpdateExpenseNoChange | src/lib/store.ts:203-208 | an empty patch leaves the expenses as they were |
| Store.DeleteExpense | src/lib/store.ts:212-217 | removes exactly the expenses with the id and keeps every other; budgets keep their `spent`; one score is appended |
| Store.DeleteUndoesAddExpense | src/lib/store.ts:174-217 | deleting an expense just added restores the expense list but not the budget charge, and leaves two more score records |
| Store.AddIncome | src/lib/store.ts:220-226 | appends the draft under the fresh id and one score; nothing else changes |
| Store.UpdateIncome | src/lib/store.ts:228-235 | only incomes with the id change, by the patch; an absent id changes no income; one score is appended |
| Store.DeleteIncome | src/lib/store.ts:237-242 | removes exactly the incomes with the id; one score is appended |
| Store.DeleteUndoesAddIncome | src/lib/store.ts:220-242 | deleting an income just added restores the whole state except the history, which grew by two |
| Store.AddBudget | src/lib/store.ts:245-250 | appends the draft under the fresh id; the history and every other collection stay as they were |
| Store.UpdateBudget | src/lib/store.ts:252-258 | only budgets with the id change, by the patch; an absent id changes nothing; no score is recorded |
| Store.DeleteBudget | src/lib/store.ts:260-265 | removes exactly the budgets with the id; no score is recorded |
| Store.AddCategory | src/lib/store.ts:267-272 | appends the draft under the fresh id; nothing else changes |
| Store.UpdateCategory | src/lib/store.ts:274-280 | only categories with the id change, by the patch; an absent id changes nothing |
| Store.DeleteCategory | src/lib/store.ts:282-287 | removes exactly the categories with the id; budgets and expenses that refer to it stay |
| Store.AddSavingsGoal | src/lib/store.ts:289-294 | appends the draft under the fresh id; nothing else changes |
| Store.UpdateSavingsGoal | src/lib/store.ts:296-302 | only goals with the id change, by the patch; an absent id changes nothing |
| Store.DeleteSavingsGoal | src/lib/store.ts:304-309 | removes exactly the goals with the id |
| Store.AddInvestmentCalculation | src/lib/store.ts:311-316 | appends the record under the fresh id, stamped with the current time; nothing else changes |
| Store.DeleteInvestmentCalculation | src/lib/store.ts:318-323 | removes exactly the calculations with the id |
| Store.AddFinancialForecast | src/lib/store.ts:325-330 | appends the record under the fresh id, stamped with the current time; nothing else changes |
| Store.DeleteFinancialForecast | src/lib/store.ts:332-337 | removes exactly the forecasts with the id |
| Store.UpdateUser | src/lib/store.ts:339-343 | the profile takes the patch's fields; nothing else changes |
| Store.DeleteUndoesAddElsewhere | src/lib/store.ts:245-337 | for budgets, categories, goals, calculations and forecasts, deleting what was just added under a fresh id restores the state exactly |
| Actions.InitialStateContents | src/lib/store.ts:140-171 | a new store holds the default user (id "1", currency "$") and the eight default categories with ids "1" to "8", and every other collection is empty |
| Actions.InitialWellFormed | src/lib/store.ts:140-171 | the initial store has distinct ids in every collection |
| Actions.StepKeepsWellFormed | src/lib/store.ts:174-343 | any mutation whose adds use fresh ids, and whose update patches do not set `id`, keeps every collection's ids distinct |
| Actions.RunKeepsWellFormed | src/lib/store.ts:174-343 | a whole session of such mutations (fresh ids on add, no `id` in an update patch) keeps ids distinct |
| Actions.StepHistory | src/lib/store.ts:396-398 | expense and income mutations grow the history by one, all other mutations leave it alone; earlier records are never altered |
| Actions.RunHistory | src/lib/store.ts:396-398 | over a session the history grows by the number of expense and income mutations and keeps its old records as a prefix |
| Utils.CalculatePercentage | src/lib/utils.ts:28-31 | 0 for a zero target; never above 100; equals the rounded percentage whenever that is at most 100; 100 once current reaches the target |
| Utils.PercentageInRange | src/lib/utils.ts:28-31 | for a positive target and non-negative current the result lies in [0, 100] |
| Utils.PercentageMonotonic | src/lib/utils.ts:30 | for a fixed positive target the percentage never falls as current grows |
| Utils.GetFinancialHealthStatus | src/lib/utils.ts:84-89 | Excellent iff ≥ 80, Good iff in [60, 80), Fair iff in [40, 60), Needs Attention iff < 40 |
| Utils.StatusMonotonic | src/lib/utils.ts:84-89 | a higher score never lands in a worse band |
| Utils.MonthKey | src/lib/utils.ts:41-44 | `getCurrentMonth`'s key: the year's digits, a dash, then two digits whose first is '1' exactly for months 10 to 12 |
| Utils.MonthKeyPadsMonth | src/lib/utils.ts:41-44 | the month key is the year, a dash and the month number zero-padded to two digits |
| Utils.MonthKeyRoundTrip | src/lib/utils.ts:41-44 | a month key parses back to its year and month |
| Utils.MonthKeyInjective | src/lib/utils.ts:41-44 | distinct months have distinct keys |
| Utils.MonthRange | src/lib/utils.ts:46-58 | `getMonthRange(n)` has n entries and ends with the current month |
| Utils.MonthRangeConsecutive | src/lib/utils.ts:46-58 | the entries are consecutive calendar months in ascending order, entry i being n−1−i months before now; they are distinct |
| Utils.MonthRangeEntry | src/lib/utils.ts:50-54 | entry i reads back as the month n−1−i months before now |
| BudgetOverview.MonthBudgetOf | src/pages/BudgetOverview.tsx:45-49 | the budget a card shows belongs to the month and category; there is none exactly when no budget of the month has the category |
| BudgetOverview.RowFor | src/pages/BudgetOverview.tsx:48-66 | a card's spending is the category's expense total for the month, independent of `Budget.spent`; without a budget the id is "" and the amount 0; with amount 0 the progress is 0 and it is not over budget; otherwise over budget iff spent > amount, progress in [0, 100] and equal to calculatePercentage(spent, amount) |
| BudgetOverview.Rows | src/pages/BudgetOverview.tsx:48 | one card per category, in category order |
| BudgetOverview.RowsSpentAddUp | src/pages/BudgetOverview.tsx:52-54 | with distinct category ids and every expense of the month filed under a known category, the cards' spending adds up to the month's expense total |
| BudgetOverview.OverallProgress | src/pages/BudgetOverview.tsx:134-136 | overall progress is spent/budget × 100 for a positive total budget and 0 otherwise |
| BudgetOverview.OverBudgetIffProgressAbove100 | src/pages/BudgetOverview.tsx:136-137 | with a positive total budget, the page is over budget exactly when overall progress exceeds 100 |
| BudgetOverview.IsOverallOverBudget | src/pages/BudgetOverview.tsx:137 | the page is over budget when the cards' spending exceeds their budgets; with a positive total that is progress above 100 (OverBudgetIffProgressAbove100) |
| BudgetOverview.HandleAddBudget | src/pages/BudgetOverview.tsx:71-90 | ignored without a category or a positive amount; an edit changes only the amount of the edited budget; an add creates a budget of the selected month with nothing spent |
| BudgetOverview.HandleDeleteBudget | src/pages/BudgetOverview.tsx:101-105 | an empty id deletes nothing; otherwise the budgets with the id go and every other stays |
| BudgetOverview.DeleteUndoesAddBudget | src/pages/BudgetOverview.tsx:71-105 | adding a budget under an unused id and then deleting it restores the state from before the add |
| BudgetOverview.Copies | src/pages/BudgetOverview.tsx:117-131 | each copy repeats a last-month budget's category and amount in the selected month with nothing spent, for a category that had no budget there when the button was pressed; there is exactly one copy per uncovered last-month budget, and the k-th copy comes from the k-th uncovered one, in candidate order, under its own id |
| BudgetOverview.UncoveredIndices | src/pages/BudgetOverview.tsx:117-131 | the positions of last month's budgets the `forEach` copies: strictly increasing, each one uncovered in the selected month, and every uncovered position present |
| BudgetOverview.CopiesInOrder | src/pages/BudgetOverview.tsx:117-131 | the `forEach`'s appended budgets: as many as uncovered candidates, the k-th a zero-spent copy of the k-th uncovered candidate |
| BudgetOverview.CopyLastMonth | src/pages/BudgetOverview.tsx:107-132 | the copy only appends budgets of the selected month with nothing spent; existing budgets are kept as a prefix |
| BudgetOverview.CopyCovers | src/pages/BudgetOverview.tsx:117-131 | after a copy, every category budgeted last month has a budget in the selected month |
| BudgetOverview.CopySameMonthAddsNothing | src/pages/BudgetOverview.tsx:117-123 | copying into the month being copied from adds nothing |
| BudgetOverview.CopyKeepsLastMonth | src/pages/BudgetOverview.tsx:114-131 | last month's budgets are the same after the copy |
| BudgetOverview.CopyTwiceAddsNothing | src/pages/BudgetOverview.tsx:117-123 | pressing the button a second time adds nothing |
| Dashboard.MonthRowFor | src/pages/Dashboard.tsx:52-67 | a chart point carries the month's income and expense totals, savings being their difference, and the "MM" part of the key |
| Dashboard.MonthlyRows | src/pages/Dashboard.tsx:51-69 | six points, one per month of `getMonthRange(6)`, in the same order |
| Dashboard.CurrentStats | src/pages/Dashboard.tsx:73-85 | the cards show the current month's income, spending and their difference |
| Dashboard.ChartEndsWithCurrentMonth | src/pages/Dashboard.tsx:51-85 | the chart's last point agrees with the current-month cards |
| Dashboard.ChartLabels | src/pages/Dashboard.tsx:63-64 | for four-digit years each point's label is the two-digit number of its calendar month |
| Dashboard.SliceFor | src/pages/Dashboard.tsx:98-104 | a slice's value is its category's total in the month; an unknown category is shown as "Other" in grey |
| Dashboard.Breakdown | src/pages/Dashboard.tsx:79-105 | one slice per distinct category id among the month's expenses; the i-th slice is that id's name, colour and expense total for the month |
| Dashboard.BreakdownAddsUp | src/pages/Dashboard.tsx:79-105 | the slices add up to the month's expense total, unknown categories included |
| Dashboard.NetWorth | src/pages/Dashboard.tsx:110-113 | lifetime income minus lifetime spending plus what the goals hold; with no incomes or expenses it is the goals' saved total, and NetWorthMoves gives its change per record |
| Dashboard.NetWorthMoves | src/pages/Dashboard.tsx:110-113 | net worth is lifetime income minus lifetime spending plus goal savings: adding an expense lowers it by the amount, adding an income raises it |
| Dashboard.DisplayedScore | src/pages/Dashboard.tsx:116-119 | the score card shows the last history record's score, 0 before any |
| Dashboard.ScoreBadge | src/pages/Dashboard.tsx:205-211 | the health badge appears exactly for a positive score, with that score's status |
| Dashboard.Refresh | src/pages/Dashboard.tsx:42-44 | opening the dashboard records a score only when the history is empty, and leaves it non-empty |
| Dashboard.RefreshShowsScore | src/pages/Dashboard.tsx:42-44 | after opening, the score shown is the one just recorded (or the latest one); opening again changes nothing |
| Dashboard.PreviewOf | src/pages/Dashboard.tsx:289-301 | a goal preview's progress is at most 100, is 0 for a zero target, its remaining amount plus the saved amount is the target, and its progress is calculatePercentage(current, target) |
| Dashboard.GoalsPreview | src/pages/Dashboard.tsx:288 | the preview shows the first three goals, or all when fewer |
| Dashboard.ViewAllWhenTruncated | src/pages/Dashboard.tsx:307-311 | "view all" is offered exactly when the preview leaves goals out |
| SavingsOverview.SavingsRowFor | src/pages/SavingsOverview.tsx:25-42 | a trend entry carries the month's income and expense totals, savings being their difference, and the "MM" and "YYYY" parts of the key |
| SavingsOverview.MonthlySavings | src/pages/SavingsOverview.tsx:24-43 | twelve entries, one per month of `getMonthRange(12)`, in order |
| SavingsOverview.AverageMonthlySavings | src/pages/SavingsOverview.tsx:197-199 | the average times the number of months is the sum of savings; 0 without months |
| SavingsOverview.TotalSavings | src/pages/SavingsOverview.tsx:48-51 | lifetime savings plus lifetime spending is lifetime income |
| SavingsOverview.SavingsRatio | src/pages/SavingsOverview.tsx:54 | 0 without lifetime income, otherwise savings as a percentage of income |
| SavingsOverview.SavingsVsSpending | src/pages/SavingsOverview.tsx:58-61 | the "Savings" slice is the savings when non-negative and 0 otherwise, never negative; the "Spending" slice is lifetime spending |
| SavingsOverview.BandOf | src/pages/SavingsOverview.tsx:162-166 | Excellent iff ≥ 20, Good iff in [10, 20), Needs improvement iff < 10 |
| SavingsOverview.MonthRate | src/pages/SavingsOverview.tsx:335-337 | a month's rate is its savings as a percentage of its income, 0 without income |
| SavingsOverview.TopCategoryId | src/pages/SavingsOverview.tsx:91-104 | a top category exists exactly when something was spent, and is one of the spent categories |
| SavingsOverview.TopTip | src/pages/SavingsOverview.tsx:103-109 | the top-category tip is given exactly when the top category id names a known category |
| SavingsOverview.AssembleTips | src/pages/SavingsOverview.tsx:67-109 | the tip list has the two fixed tips first, holds each optional tip exactly when it is given, and ends with the category tip when there is one; it has exactly 2 + one per given tip entries, with the rate tip at position 2 and the declining tip right after it |
| SavingsOverview.Tips | src/pages/SavingsOverview.tsx:67-109 | the two fixed tips first; the low-rate tip iff the ratio is below 10; the great-rate tip iff it is at least 20; the declining tip iff the last three months fall strictly; the category tip last when given, absent otherwise; no other tips, the rate tip third and the declining tip right after it |
| SavingsOverview.RateTipsExclusive | src/pages/SavingsOverview.tsx:75-79 | the two rate tips never appear together |
| SavingsOverview.TopCategoryIsMaximal | src/pages/SavingsOverview.tsx:91-104 | the top category's lifetime spending is at least that of every other category |
| SavingsOverview.DecliningTrend | src/pages/SavingsOverview.tsx:82-88 | the last three entries' savings fall strictly; the declining tip is given exactly then (Tips) |
| SavingsOverview.DecliningReadsLastQuarter | src/pages/SavingsOverview.tsx:82-88 | the declining tip reads the savings of the last three of the twelve months |
| OneTimeExpenses.Shown | src/pages/OneTimeExpenses.tsx:51-62 | a record is shown iff it is a one-time expense passing the planned filter (when set) and the category filter (when set) |
| OneTimeExpenses.Listed | src/pages/OneTimeExpenses.tsx:51-74 | the list is a permutation of the filtered one-time expenses, sorted by the chosen field and direction, with membership both ways |
| OneTimeExpenses.NoFiltersListsAll | src/pages/OneTimeExpenses.tsx:51-62 | with no filters every one-time expense is listed |
| OneTimeExpenses.PlannedTotal | src/pages/OneTimeExpenses.tsx:78-80 | the one-time expenses marked planned, summed; with UnplannedTotal it partitions one-time spending (PlannedPlusUnplanned) |
| OneTimeExpenses.UnplannedTotal | src/pages/OneTimeExpenses.tsx:82-84 | the one-time expenses not marked planned, summed |
| OneTimeExpenses.PlannedPlusUnplanned | src/pages/OneTimeExpenses.tsx:78-84 | planned plus unplanned totals are all one-time spending |
| OneTimeExpenses.CategoryRow | src/pages/OneTimeExpenses.tsx:87-108 | a bar holds its category's planned and unplanned one-time totals, named after the category or "Other" |
| OneTimeExpenses.Chart | src/pages/OneTimeExpenses.tsx:87-115 | one bar per category id among the one-time expenses, the i-th carrying that id's name and its planned and unplanned totals, then a "Total" bar with the planned and unplanned totals |
| OneTimeExpenses.ChartColumnsAddUp | src/pages/OneTimeExpenses.tsx:87-115 | summed over the category bars, the planned and unplanned columns equal the totals of the "Total" bar |
| OneTimeExpenses.HandleSave | src/pages/OneTimeExpenses.tsx:129-157 | ignored without a positive amount or a category; otherwise appends exactly the record the form describes (fresh id, the form's amount, date, category, notes, planned flag and receipt, one-time, not recurring, no frequency), or gives the edited record those same form fields and flags while keeping its id and stored frequency; every other expense is unchanged |
| OneTimeExpenses.AddedIsListed | src/pages/OneTimeExpenses.tsx:144-153 | a newly added one-time expense appears in the unfiltered list |
| Sorting.Sort | src/pages/ExpenseTracker.tsx:74-85 | the sorted list is a permutation of its input ordered by the comparator: date string or amount, ascending or descending |
| Sorting.SortUnknownFieldKeepsOrder | src/pages/ExpenseTracker.tsx:84 | a field the comparator does not know compares every pair equal, and the stable sort keeps the order |
| Sorting.InsertKeepsTies | src/pages/ExpenseTracker.tsx:74-85 | inserting an element puts it ahead of the elements it ties with and keeps the order among them |
| Sorting.SortKeepsTies | src/pages/ExpenseTracker.tsx:74-85 | the sort is stable: for any element, the ones tying with it come out in their input order |
| Sorting.HandleSort | src/pages/ExpenseTracker.tsx:108-115 | the same field flips the direction, a new field is selected with direction "desc" |
| Sorting.HandleSortTwice | src/pages/OneTimeExpenses.tsx:120-127 | clicking the same column twice restores the sort state |
| ExpenseTracker.ListedExpenses | src/pages/ExpenseTracker.tsx:64-85 | the expense list is a sorted permutation of the expenses in the chosen month (if any) and category (if any), with membership both ways |
| ExpenseTracker.ListedIncomes | src/pages/ExpenseTracker.tsx:88-106 | the income list is a sorted permutation of the incomes in the chosen month; no category filter applies |
| ExpenseTracker.NoFiltersListAll | src/pages/ExpenseTracker.tsx:64-94 | without a month or category every expense is listed, and every income whatever the category |
| ExpenseTracker.ListedMonthTotal | src/pages/ExpenseTracker.tsx:64-73 | under the month filter alone the listed expenses add up to the month's expense total |
| ExpenseTracker.SavedFrequency | src/pages/ExpenseTracker.tsx:127 | the frequency is present exactly when the record is recurring |
| ExpenseTracker.HandleAddExpense | src/pages/ExpenseTracker.tsx:117-145 | ignored without a positive amount or a category; editing on the expenses tab gives the edited expense the form's amount, date, category, notes, recurring flag, frequency (only when recurring), one-time and planned flags, keeping its id and receipt, and leaves every other expense alone; otherwise exactly the form's expense is appended under the fresh id; incomes are untouched |
| ExpenseTracker.HandleAddIncome | src/pages/ExpenseTracker.tsx:147-171 | ignored without a positive amount or a source; editing on the income tab gives the edited income the form's amount, date, source, notes, recurring flag and frequency (only when recurring), keeping its id, and leaves every other income alone; otherwise exactly the form's income is appended under the fresh id; expenses and budgets are untouched |
| ExpenseTracker.AddedExpenseFrequency | src/pages/ExpenseTracker.tsx:132-141 | an added expense carries a frequency exactly when it is recurring |
| ExpenseTracker.EditedExpenseFrequency | src/pages/ExpenseTracker.tsx:121-130 | an edited expense carries a frequency exactly when it is recurring |
| ExpenseTracker.AddedIncomeFrequency | src/pages/ExpenseTracker.tsx:160-167 | an added income carries a frequency exactly when it is recurring |
| ExpenseTracker.EditedIncomeFrequency | src/pages/ExpenseTracker.tsx:151-158 | an edited income carries a frequency exactly when it is recurring |
| SavingsGoals.GetCategoryInfo | src/pages/SavingsGoals.tsx:75-77 | the category shown is the one with the id, or the last one ("other") for an unknown id |
| SavingsGoals.CalculateProgress | src/pages/SavingsGoals.tsx:79-81 | finite progress never exceeds 100; a non-zero target gives a finite value equal to the percentage saved when below 100; for a positive target it is 100 iff the target is reached; 0/0 is NaN |
| SavingsGoals.ProgressMonotonic | src/pages/SavingsGoals.tsx:79-81 | for a positive target more saved never shows less progress |
| SavingsGoals.CalculateMonthsToGoal | src/pages/SavingsGoals.tsx:83-86 | infinite iff the contribution is not positive; otherwise that many months cover the gap and one fewer does not |
| SavingsGoals.MonthsToGoalIsLeast | src/pages/SavingsGoals.tsx:83-86 | no smaller number of months covers the gap |
| SavingsGoals.MonthsLabelOf | src/pages/SavingsGoals.tsx:397-399 | "No monthly contribution" iff infinite, "Less than 1 month" iff at most one month, otherwise the months to go |
| SavingsGoals.ProjectedOffset | src/pages/SavingsGoals.tsx:88-92 | the projected date is absent exactly when months-to-goal is infinite, that is when the contribution is not positive |
| SavingsGoals.TotalSavingsGoals | src/pages/SavingsGoals.tsx:129 | the goals' targets summed; 30000 for the demo goals, and an added goal raises it by its target (AddGoalTotals) |
| SavingsGoals.TotalCurrentSavings | src/pages/SavingsGoals.tsx:130 | the goals' saved amounts summed; 16800 for the demo goals, unchanged by an added goal |
| SavingsGoals.TotalMonthlyContributions | src/pages/SavingsGoals.tsx:131 | the goals' monthly contributions summed; 1600 for the demo goals, raised by an added goal's contribution |
| SavingsGoals.InitialGoalsSummary | src/pages/SavingsGoals.tsx:27-61 | the demo goals total 30000 targeted, 16800 saved, 1600 a month; the first needs 7 months and the second shows 36 % |
| SavingsGoals.HandleAddGoal | src/pages/SavingsGoals.tsx:94-123 | ignored when name, category, target or contribution is empty; otherwise exactly one goal is appended, with the new id, the form's name, category and priority, the parsed target and contribution, nothing saved, starting today and due on the picked date or a year out; the others unchanged |
| SavingsGoals.HandleDeleteGoal | src/pages/SavingsGoals.tsx:125-127 | removes exactly the goals with the id and keeps the others |
| SavingsGoals.AddGoalTotals | src/pages/SavingsGoals.tsx:129-131 | adding a goal raises the target and monthly totals by its amounts and leaves the saved total as it was |
| SavingsGoals.DeleteUndoesAddGoal | src/pages/SavingsGoals.tsx:94-127 | deleting a goal just added under an unused id gives the list back |

## Left out

- Ledger.MonthKeyOf: the source re-parses the date with `new Date(...)` before `toISOString()`. The model does not: an invalid date, which throws a RangeError there, and a timestamp with a non-UTC offset, which `toISOString` shifts to UTC, both get the first seven characters of the stored string instead.

- Investment calculators (`calculateFutureValue` and its siblings in src/lib/utils.ts:60-82, and the calculator page): floating-point `Math.pow` with fractional exponents, outside the ledger.
- The wall clock and `Date`. "Now", the current month `(year, month)`, last month, today, a year from now and every ISO timestamp are parameters.
- Month boundaries use `toISOString()` (UTC) in the store and the budget page, but local time in `getCurrentMonth`/`getMonthRange`. The model takes one month key per use and does not relate the two clocks.
- Utils.MonthRange: `setMonth` day overflow on the 29th to 31st, which can skip a month, is not modelled. Month arithmetic is exact calendar arithmetic on `(year, month)`.
- Id generation (`generateId`, `Date.now()` for goals): fresh ids are parameters. Freshness is a precondition only where a property needs it (the undo lemmas, `Actions.Admissible`).
- `parseFloat` of the goal form's text fields: the parsed numbers are parameters next to the raw strings. The guard reads the strings, as the page does.
- Persistence (`persist`, localStorage), React state and effects, dialogs, toasts, charts, `formatCurrency`/`formatDate`, and every class name and colour, including `getPriorityColor`.
- The goal date projection (`addMonths` and the `isOnTrack` comparison): only the month offset and its absence are modelled.
- Sorting.Sort: `localeCompare` on dates is modelled as code-unit lexicographic order. This agrees with it on ISO `YYYY-MM-DD` strings, not on arbitrary text.
- OneTimeExpenses.Chart: `Object.entries` lists integer-like category ids first, in ascending numeric order. The model keeps first-occurrence order, so the bars may come in a different order; the Total bar and each bar's contents agree.
- Dashboard.Breakdown: `Object.entries` lists integer-like keys first. The model keeps first-occurrence order, which the totals do not depend on.
- SavingsOverview.TopCategoryId: this uses the same first-occurrence order. With ties, the top category may therefore be a different one of the equally large categories than the page picks.
- SavingsGoals.CalculateProgress: division is exact. IEEE rounding is not modelled; the infinities and NaN of a zero target are.
- Store.ScoreBounds: the bounds need non-negative spending (and within-budget spending for the lower bound), because the source does not clamp the score.
- Reports, Settings, sample data, layout, routing and bootstrapping: these files hold demo data and UI plumbing, not ledger logic.

=== FILE: actions.dfy ===
/** The store as a state machine: every mutator is one kind of action, and
    a session is a sequence of them. Ids stay unique across a session as
    long as each add uses an id not yet present and no update rewrites an
    id; the score history only ever grows, one entry per income or expense
    action and per explicit recalculation. */
module Actions {
  import opened Collections
  import opened Entities
  import opened Store

  datatype Action =
    | AddExpenseAction(expense: Expense, freshId: string, now: string)
    | UpdateExpenseAction(id: string, expensePatch: ExpensePatch, now: string)
    | DeleteExpenseAction(id: string, now: string)
    | AddIncomeAction(income: Income, freshId: string, now: string)
    | UpdateIncomeAction(id: string, incomePatch: IncomePatch, now: string)
    | DeleteIncomeAction(id: string, now: string)
    | AddBudgetAction(budget: Budget, freshId: string)
    | UpdateBudgetAction(id: string, budgetPatch: BudgetPatch)
    | DeleteBudgetAction(id: string)
    | AddCategoryAction(category: Category, freshId: string)
    | UpdateCategoryAction(id: string, categoryPatch: CategoryPatch)
    | DeleteCategoryAction(id: string)
    | AddSavingsGoalAction(goal: SavingsGoal, freshId: string)
    | UpdateSavingsGoalAction(id: string, goalPatch: SavingsGoalPatch)
    | DeleteSavingsGoalAction(id: string)
    | AddCalculationAction(calculation: InvestmentCalculation, freshId: string, now: string)
    | DeleteCalculationAction(id: string)
    | AddForecastAction(forecast: FinancialForecast, freshId: string, now: string)
    | DeleteForecastAction(id: string)
    | UpdateUserAction(userPatch: UserPatch)
    | CalculateScoreAction(now: string)

  function Step(s: AppState, a: Action): AppState {
    match a
    case AddExpenseAction(e, newId, now) => AddExpense(s, e, newId, now)
    case UpdateExpenseAction(id, p, now) => UpdateExpense(s, id, p, now)
    case DeleteExpenseAction(id, now) => DeleteExpense(s, id, now)
    case AddIncomeAction(i, newId, now) => AddIncome(s, i, newId, now)
    case UpdateIncomeAction(id, p, now) => UpdateIncome(s, id, p, now)
    case DeleteIncomeAction(id, now) => DeleteIncome(s, id, now)
    case AddBudgetAction(b, newId) => AddBudget(s, b, newId)
    case UpdateBudgetAction(id, p) => UpdateBudget(s, id, p)
    case DeleteBudgetAction(id) => DeleteBudget(s, id)
    case AddCategoryAction(c, newId) => AddCategory(s, c, newId)
    case UpdateCategoryAction(id, p) => UpdateCategory(s, id, p)
    case DeleteCategoryAction(id) => DeleteCategory(s, id)
    case AddSavingsGoalAction(g, newId) => AddSavingsGoal(s, g, newId)
    case UpdateSavingsGoalAction(id, p) => UpdateSavingsGoal(s, id, p)
    case DeleteSavingsGoalAction(id) => DeleteSavingsGoal(s, id)
    case AddCalculationAction(c, newId, now) => AddInvestmentCalculation(s, c, newId, now)
    case DeleteCalculationAction(id) => DeleteInvestmentCalculation(s, id)
    case AddForecastAction(f, newId, now) => AddFinancialForecast(s, f, newId, now)
    case DeleteForecastAction(id) => DeleteFinancialForecast(s, id)
    case UpdateUserAction(p) => UpdateUser(s, p)
    case CalculateScoreAction(now) => RecordHealthScore(s, now)
  }

  /** The actions of a session, applied in order. */
  function Run(s: AppState, actions: seq<Action>): AppState
    decreases |actions|
  {
    if |actions| == 0 then s else Step(Run(s, actions[..|actions| - 1]), actions[|actions| - 1])
  }

  /** Every keyed collection has distinct ids. */
  predicate WellFormed(s: AppState) {
    && UniqueKeys(s.categories, CategoryId)
    && UniqueKeys(s.budgets, BudgetId)
    && UniqueKeys(s.expenses, ExpenseId)
    && UniqueKeys(s.incomes, IncomeId)
    && UniqueKeys(s.savingsGoals, SavingsGoalId)
    && UniqueKeys(s.investmentCalculations, CalculationId)
    && UniqueKeys(s.financialForecasts, ForecastId)
  }

  /** The id discipline the callers keep: adds use an id not yet present,
      and no update rewrites an id. */
  predicate Admissible(s: AppState, a: Action) {
    match a
    case AddExpenseAction(_, newId, _) => newId !in KeysOf(s.expenses, ExpenseId)
    case UpdateExpenseAction(_, p, _) => p.id.None?
    case AddIncomeAction(_, newId, _) => newId !in KeysOf(s.incomes, IncomeId)
    case UpdateIncomeAction(_, p, _) => p.id.None?
    case AddBudgetAction(_, newId) => newId !in KeysOf(s.budgets, BudgetId)
    case UpdateBudgetAction(_, p) => p.id.None?
    case AddCategoryAction(_, newId) => newId !in KeysOf(s.categories, CategoryId)
    case UpdateCategoryAction(_, p) => p.id.None?
    case AddSavingsGoalAction(_, newId) => newId !in KeysOf(s.savingsGoals, SavingsGoalId)
    case UpdateSavingsGoalAction(_, p) => p.id.None?
    case AddCalculationAction(_, newId, _) => newId !in KeysOf(s.investmentCalculations, CalculationId)
    case AddForecastAction(_, newId, _) => newId !in KeysOf(s.financialForecasts, ForecastId)
    case _ => true
  }

  /** Every action of the session is admissible in the state it meets. */
  predicate AdmissibleRun(s: AppState, actions: seq<Action>)
    decreases |actions|
  {
    |actions| == 0
    || (AdmissibleRun(s, actions[..|actions| - 1])
        && Admissible(Run(s, actions[..|actions| - 1]), actions[|actions| - 1]))
  }

  /** The actions that end by recording a health score. */
  predicate RecordsScore(a: Action) {
    || a.AddExpenseAction? || a.UpdateExpenseAction? || a.DeleteExpenseAction?
    || a.AddIncomeAction? || a.UpdateIncomeAction? || a.DeleteIncomeAction?
    || a.CalculateScoreAction?
  }

  function ScoringActions(actions: seq<Action>): (n: nat)
    ensures n <= |actions|
    decreases |actions|
  {
    if |actions| == 0 then 0
    else ScoringActions(actions[..|actions| - 1]) + (if RecordsScore(actions[|actions| - 1]) then 1 else 0)
  }

  // ---------------------------------------------------------------- lemmas

  /** The eight default categories have distinct ids, and every other
      collection starts empty. */
  lemma InitialWellFormed()
    ensures WellFormed(InitialState)
  {
    var ks := KeysOf(DefaultCategories, CategoryId);
    assert ks == ["1", "2", "3", "4", "5", "6", "7", "8"];
  }

  /** The store a new user starts from: the user profile, the eight
      default categories with ids "1" to "8", and every other collection
      empty. */
  lemma InitialStateContents()
    ensures InitialState.user.id == "1" && InitialState.user.currency == "$"
    ensures InitialState.categories == DefaultCategories
    ensures KeysOf(DefaultCategories, CategoryId) == ["1", "2", "3", "4", "5", "6", "7", "8"]
    ensures InitialState.budgets == [] && InitialState.expenses == [] && InitialState.incomes == []
    ensures InitialState.savingsGoals == [] && InitialState.investmentCalculations == []
    ensures InitialState.financialForecasts == [] && InitialState.financialHealthScores == []
  {
    var ks := KeysOf(DefaultCategories, CategoryId);
    assert ks == ["1", "2", "3", "4", "5", "6", "7", "8"];
  }

  /** One admissible action keeps every id unique. */
  lemma StepKeepsWellFormed(s: AppState, a: Action)
    requires WellFormed(s)
    requires Admissible(s, a)
    ensures WellFormed(Step(s, a))
  {
    match a
    case AddExpenseAction(e, newId, now) =>
      AppendFreshKeepsUnique(s.expenses, e.(id := newId), ExpenseId);
    case UpdateExpenseAction(id, p, now) =>
      ReplaceKeepsUnique(s.expenses, ExpenseId, id, PatchExpense, p);
    case DeleteExpenseAction(id, now) =>
      RemoveKeepsUnique(s.expenses, ExpenseId, id);
    case AddIncomeAction(i, newId, now) =>
      AppendFreshKeepsUnique(s.incomes, i.(id := newId), IncomeId);
    case UpdateIncomeAction(id, p, now) =>
      ReplaceKeepsUnique(s.incomes, IncomeId, id, PatchIncome, p);
    case DeleteIncomeAction(id, now) =>
      RemoveKeepsUnique(s.incomes, IncomeId, id);
    case AddBudgetAction(b, newId) =>
      AppendFreshKeepsUnique(s.budgets, b.(id := newId), BudgetId);
    case UpdateBudgetAction(id, p) =>
      ReplaceKeepsUnique(s.budgets, BudgetId, id, PatchBudget, p);
    case DeleteBudgetAction(id) =>
      RemoveKeepsUnique(s.budgets, BudgetId, id);
    case AddCategoryAction(c, newId) =>
      AppendFreshKeepsUnique(s.categories, c.(id := newId), CategoryId);
    case UpdateCategoryAction(id, p) =>
      ReplaceKeepsUnique(s.categories, CategoryId, id, PatchCategory, p);
    case DeleteCategoryAction(id) =>
      RemoveKeepsUnique(s.categories, CategoryId, id);
    case AddSavingsGoalAction(g, newId) =>
      AppendFreshKeepsUnique(s.savingsGoals, g.(id := newId), SavingsGoalId);
    case UpdateSavingsGoalAction(id, p) =>
      ReplaceKeepsUnique(s.savingsGoals, SavingsGoalId, id, PatchSavingsGoal, p);
    case DeleteSavingsGoalAction(id) =>
      RemoveKeepsUnique(s.savingsGoals, SavingsGoalId, id);
    case AddCalculationAction(c, newId, now) =>
      AppendFreshKeepsUnique(s.investmentCalculations, c.(id := newId, createdAt := now), CalculationId);
    case DeleteCalculationAction(id) =>
      RemoveKeepsUnique(s.investmentCalculations, CalculationId, id);
    case AddForecastAction(f, newId, now) =>
      AppendFreshKeepsUnique(s.financialForecasts, f.(id := newId, createdAt := now), ForecastId);
    case DeleteForecastAction(id) =>
      RemoveKeepsUnique(s.financialForecasts, ForecastId, id);
    case UpdateUserAction(p) =>
    case CalculateScoreAction(now) =>
  }

  /** An admissible session keeps every id unique. */
  lemma {:induction false} RunKeepsWellFormed(s: AppState, actions: seq<Action>)
    requires WellFormed(s)
    requires AdmissibleRun(s, actions)
    ensures WellFormed(Run(s, actions))
    decreases |actions|
  {
    if |actions| > 0 {
      var init := actions[..|actions| - 1];
      RunKeepsWellFormed(s, init);
      StepKeepsWellFormed(Run(s, init), actions[|actions| - 1]);
    }
  }

  /** One action appends exactly one score when it records one, and leaves
      the history alone otherwise; earlier entries never change. */
  lemma StepHistory(s: AppState, a: Action)
    ensures |Step(s, a).financialHealthScores|
         == |s.financialHealthScores| + (if RecordsScore(a) then 1 else 0)
    ensures Step(s, a).financialHealthScores[..|s.financialHealthScores|] == s.financialHealthScores
  {
  }

  /** Over a session the history keeps its old entries as a prefix and
      grows by one entry per scoring action. */
  lemma {:induction false} RunHistory(s: AppState, actions: seq<Action>)
    ensures |Run(s, actions).financialHealthScores|
         == |s.financialHealthScores| + ScoringActions(actions)
    ensures Run(s, actions).financialHealthScores[..|s.financialHealthScores|] == s.financialHealthScores
    decreases |actions|
  {
    if |actions| > 0 {
      var init := actions[..|actions| - 1];
      var mid := Run(s, init);
      RunHistory(s, init);
      StepHistory(mid, actions[|actions| - 1]);
      assert Run(s, actions).financialHealthScores[..|mid.financialHealthScores|] == mid.financialHealthScores;
      assert mid.financialHealthScores[..|s.financialHealthScores|] == s.financialHealthScores;
    }
  }
}

=== FILE: budget_overview.dfy ===
/** The monthly budget page: one row per category for the selected month,
    the overall progress bar, the add/edit dialog, deletion, and "copy
    last month". Row spending is recomputed from the expenses themselves,
    not read from the budgets' stored `spent`. */
module BudgetOverview {
  import opened Wrappers
  import opened Numeric
  import opened Text
  import opened Collections
  import opened Entities
  import opened Ledger
  import opened Store
  import opened Utils

  /** One category card. `id` is "" when the category has no budget for the month. */
  datatype BudgetRow = BudgetRow(
    id: string, categoryId: string, categoryName: string, categoryColor: string,
    amount: real, spent: real, progress: int, isOverBudget: bool)

  function RowAmount(row: BudgetRow): real { row.amount }
  function RowSpent(row: BudgetRow): real { row.spent }

  function OfCategory(categoryId: string): Budget -> bool {
    (b: Budget) => b.categoryId == categoryId
  }

  /** The budget a category's card shows: the first of the month's budgets for it. */
  function MonthBudgetOf(budgets: seq<Budget>, month: string, categoryId: string): (r: Option<Budget>)
    ensures r.Some? ==> r.value in budgets && r.value.month == month && r.value.categoryId == categoryId
    ensures r.None? <==> forall i :: 0 <= i < |budgets| ==> !(budgets[i].month == month && budgets[i].categoryId == categoryId)
  {
    var monthBudgets := BudgetsFor(budgets, month);
    match Find(monthBudgets, OfCategory(categoryId))
    case None =>
      assert forall i :: 0 <= i < |budgets| && budgets[i].month == month ==> budgets[i] in monthBudgets;
      None
    case Some(k) => Some(monthBudgets[k])
  }

  /** The card of one category: the budget's id and amount (or "" and 0),
      the month's spending in the category, and the progress and overspend
      flags, both off when the amount is zero. */
  function RowFor(budgets: seq<Budget>, expenses: seq<Expense>, month: string, c: Category): (row: BudgetRow)
    ensures row.categoryId == c.id && row.categoryName == c.name && row.categoryColor == c.color
    ensures row.spent == CategoryMonthSpend(expenses, c.id, month)
    ensures MonthBudgetOf(budgets, month, c.id).None? ==> row.id == "" && row.amount == 0.0
    ensures MonthBudgetOf(budgets, month, c.id).Some? ==>
      row.id == MonthBudgetOf(budgets, month, c.id).value.id
      && row.amount == MonthBudgetOf(budgets, month, c.id).value.amount
    ensures row.amount == 0.0 ==> row.progress == 0 && !row.isOverBudget
    ensures row.amount != 0.0 ==> row.progress == CalculatePercentage(row.spent, row.amount)
    ensures row.amount != 0.0 ==> (row.isOverBudget <==> row.spent > row.amount)
    ensures row.amount > 0.0 && row.spent >= 0.0 ==> 0 <= row.progress <= 100
    ensures row.amount > 0.0 && row.spent >= row.amount ==> row.progress == 100
  {
    var spent := CategoryMonthSpend(expenses, c.id, month);
    var budget := MonthBudgetOf(budgets, month, c.id);
    var amount := if budget.Some? then budget.value.amount else 0.0;
    ProgressInRange(spent, amount);
    BudgetRow(
      if budget.Some? then budget.value.id else "",
      c.id, c.name, c.color, amount, spent,
      if amount != 0.0 then CalculatePercentage(spent, amount) else 0,
      if amount != 0.0 then spent > amount else false)
  }

  lemma ProgressInRange(spent: real, amount: real)
    ensures amount > 0.0 && spent >= 0.0 ==> 0 <= CalculatePercentage(spent, amount) <= 100
    ensures amount > 0.0 && spent >= amount ==> CalculatePercentage(spent, amount) == 100
  {
    if amount > 0.0 && spent >= 0.0 {
      PercentageInRange(spent, amount);
    }
    if amount > 0.0 && spent >= amount {
      assert amount / amount == 1.0;
      PercentageMonotonic(amount, spent, amount);
    }
  }

  /** All cards, in category order. */
  function Rows(budgets: seq<Budget>, expenses: seq<Expense>, month: string, categories: seq<Category>): (rows: seq<BudgetRow>)
    ensures |rows| == |categories|
    ensures forall i :: 0 <= i < |categories| ==> rows[i] == RowFor(budgets, expenses, month, categories[i])
    decreases |categories|
  {
    if |categories| == 0 then []
    else
      Rows(budgets, expenses, month, categories[..|categories| - 1])
      + [RowFor(budgets, expenses, month, categories[|categories| - 1])]
  }

  function TotalBudget(rows: seq<BudgetRow>): real { SumBy(rows, RowAmount) }
  function TotalSpent(rows: seq<BudgetRow>): real { SumBy(rows, RowSpent) }

  /** Spending as a percentage of the total budget, unrounded and uncapped;
      zero without a positive total. */
  function OverallProgress(rows: seq<BudgetRow>): (p: real)
    ensures TotalBudget(rows) > 0.0 ==> p * TotalBudget(rows) == TotalSpent(rows) * 100.0
    ensures TotalBudget(rows) <= 0.0 ==> p == 0.0
  {
    var total := TotalBudget(rows);
    if total > 0.0 then TotalSpent(rows) / total * 100.0 else 0.0
  }

  predicate IsOverallOverBudget(rows: seq<BudgetRow>) {
    TotalSpent(rows) > TotalBudget(rows)
  }

  /** With a positive total budget, the page is over budget exactly when
      the progress passes 100%. */
  lemma OverBudgetIffProgressAbove100(rows: seq<BudgetRow>)
    requires TotalBudget(rows) > 0.0
    ensures IsOverallOverBudget(rows) <==> OverallProgress(rows) > 100.0
  {
    var t := TotalBudget(rows);
    var p := OverallProgress(rows);
    assert p * t == TotalSpent(rows) * 100.0;
    assert (p - 100.0) * t == (TotalSpent(rows) - t) * 100.0;
    PositiveProduct(p - 100.0, t);
    PositiveProduct(100.0 - p, t);
  }

  /** The card totals are group totals of the month's expenses by category. */
  lemma {:induction false} RowsSpentAsGroups(budgets: seq<Budget>, expenses: seq<Expense>, month: string,
                                             categories: seq<Category>)
    ensures TotalSpent(Rows(budgets, expenses, month, categories))
         == SumGroups(KeysOf(categories, CategoryId), ExpensesIn(expenses, month), ExpenseCategory, ExpenseAmount)
    decreases |categories|
  {
    if |categories| > 0 {
      var init := categories[..|categories| - 1];
      RowsSpentAsGroups(budgets, expenses, month, init);
      var rows := Rows(budgets, expenses, month, categories);
      assert rows[..|rows| - 1] == Rows(budgets, expenses, month, init);
      var ks := KeysOf(categories, CategoryId);
      assert ks[..|ks| - 1] == KeysOf(init, CategoryId);
    }
  }

  /** With distinct category ids and every expense of the month filed under
      a listed category, the cards' spending adds up to the month's total. */
  lemma RowsSpentAddUp(budgets: seq<Budget>, expenses: seq<Expense>, month: string, categories: seq<Category>)
    requires UniqueKeys(categories, CategoryId)
    requires forall i :: 0 <= i < |expenses| && StartsWith(expenses[i].date, month) ==>
      expenses[i].categoryId in KeysOf(categories, CategoryId)
    ensures TotalSpent(Rows(budgets, expenses, month, categories)) == MonthExpenseTotal(expenses, month)
  {
    RowsSpentAsGroups(budgets, expenses, month, categories);
    var inMonth := ExpensesIn(expenses, month);
    forall i | 0 <= i < |inMonth|
      ensures ExpenseCategory(inMonth[i]) in KeysOf(categories, CategoryId)
    {
      var j :| 0 <= j < |expenses| && expenses[j] == inMonth[i];
    }
    SumGroupsCover(KeysOf(categories, CategoryId), inMonth, ExpenseCategory, ExpenseAmount);
  }

  // --------------------------------------------------------------- dialog

  datatype BudgetForm = BudgetForm(categoryId: string, amount: real)

  /** Save in the dialog: ignored without a category or a positive amount;
      when editing, only the amount of the budgets with the edited id
      changes; otherwise a new budget for the selected month with nothing
      spent is appended. */
  function HandleAddBudget(s: AppState, form: BudgetForm, editing: Option<string>, month: string,
                           freshId: string): (r: AppState)
    ensures form.categoryId == "" || form.amount <= 0.0 ==> r == s
    ensures r.(budgets := s.budgets) == s
    ensures form.categoryId != "" && form.amount > 0.0 && editing.Some? ==>
      |r.budgets| == |s.budgets|
      && (forall i :: 0 <= i < |s.budgets| && s.budgets[i].id == editing.value ==>
            r.budgets[i] == s.budgets[i].(amount := form.amount))
      && (forall i :: 0 <= i < |s.budgets| && s.budgets[i].id != editing.value ==>
            r.budgets[i] == s.budgets[i])
    ensures form.categoryId != "" && form.amount > 0.0 && editing.None? ==>
      r.budgets == s.budgets + [Budget(freshId, form.categoryId, form.amount, month, 0.0)]
  {
    if form.categoryId == "" || form.amount <= 0.0 then s
    else if editing.Some? then
      UpdateBudget(s, editing.value, BudgetPatch(None, None, Some(form.amount), None, None))
    else
      AddBudget(s, Budget("", form.categoryId, form.amount, month, 0.0), freshId)
  }

  /** The trash button: a card without a budget (empty id) deletes nothing. */
  function HandleDeleteBudget(s: AppState, id: string): (r: AppState)
    ensures id == "" ==> r == s
    ensures r.(budgets := s.budgets) == s
    ensures id != "" ==> forall i :: 0 <= i < |r.budgets| ==> r.budgets[i].id != id
    ensures forall i :: 0 <= i < |s.budgets| && s.budgets[i].id != id ==> s.budgets[i] in r.budgets
  {
    if id != "" then DeleteBudget(s, id) else s
  }

  /** Adding a budget under an unused id and then pressing its trash
      button gives back the state from before the add. */
  lemma DeleteUndoesAddBudget(s: AppState, form: BudgetForm, month: string, freshId: string)
    requires form.categoryId != "" && form.amount > 0.0
    requires freshId != "" && freshId !in KeysOf(s.budgets, BudgetId)
    ensures HandleDeleteBudget(HandleAddBudget(s, form, None, month, freshId), freshId) == s
  {
    var b := Budget(freshId, form.categoryId, form.amount, month, 0.0);
    RemoveUndoesAppend(s.budgets, b, BudgetId);
  }

  // ------------------------------------------------------ copy last month

  function InSlot(month: string, categoryId: string): Budget -> bool {
    (b: Budget) => b.month == month && b.categoryId == categoryId
  }

  /** Some budget already covers this category in this month. */
  predicate HasBudget(budgets: seq<Budget>, month: string, categoryId: string) {
    Find(budgets, InSlot(month, categoryId)).Some?
  }

  /** The positions, in increasing order, of the candidates whose category
      `existing` does not yet cover in the month: the ones the `forEach`
      copies. */
  function UncoveredIndices(candidates: seq<Budget>, existing: seq<Budget>, month: string): (idx: seq<nat>)
    ensures forall k :: 0 <= k < |idx| ==>
      idx[k] < |candidates| && !HasBudget(existing, month, candidates[idx[k]].categoryId)
    ensures forall k, l :: 0 <= k < l < |idx| ==> idx[k] < idx[l]
    ensures forall j :: 0 <= j < |candidates| && !HasBudget(existing, month, candidates[j].categoryId) ==> j in idx
    ensures |idx| <= |candidates|
    decreases |candidates|
  {
    if |candidates| == 0 then []
    else
      var n := |candidates| - 1;
      var init := UncoveredIndices(candidates[..n], existing, month);
      if HasBudget(existing, month, candidates[n].categoryId) then init else init + [n]
  }

  /** The copy of candidate `c` under the id `id`: same category and
      amount, in the selected month, nothing spent. */
  function CopyOf(c: Budget, id: string, month: string): Budget {
    Budget(id, c.categoryId, c.amount, month, 0.0)
  }

  /** The `forEach` over the candidates: the `k`-th copy comes from the
      `k`-th uncovered candidate, each uncovered candidate once. */
  function CopiesInOrder(candidates: seq<Budget>, existing: seq<Budget>, month: string, ids: seq<string>): (r: seq<Budget>)
    requires |ids| == |candidates|
    ensures |r| == |UncoveredIndices(candidates, existing, month)|
    ensures forall k :: 0 <= k < |r| ==>
      var j := UncoveredIndices(candidates, existing, month)[k];
      r[k] == CopyOf(candidates[j], ids[j], month)
    decreases |candidates|
  {
    if |candidates| == 0 then []
    else
      var n := |candidates| - 1;
      var init := CopiesInOrder(candidates[..n], existing, month, ids[..n]);
      var idx := UncoveredIndices(candidates[..n], existing, month);
      assert forall k :: 0 <= k < |init| ==> init[k] == CopyOf(candidates[idx[k]], ids[idx[k]], month) by {
        forall k | 0 <= k < |init|
          ensures init[k] == CopyOf(candidates[idx[k]], ids[idx[k]], month)
        {
          assert candidates[..n][idx[k]] == candidates[idx[k]] && ids[..n][idx[k]] == ids[idx[k]];
        }
      }
      if HasBudget(existing, month, candidates[n].categoryId) then init
      else init + [CopyOf(candidates[n], ids[n], month)]
  }

  /** The copies "copy last month" adds: for each of last month's budgets
      in order, a zero-spent budget of the same category and amount in the
      selected month, unless `existing` (the list as it was when the button
      was pressed) already covers that category there. `ids[j]` is the id
      generated for the `j`-th candidate. */
  function Copies(candidates: seq<Budget>, existing: seq<Budget>, month: string, ids: seq<string>): (r: seq<Budget>)
    requires |ids| == |candidates|
    ensures |r| <= |candidates|
    ensures forall i :: 0 <= i < |r| ==>
      r[i].month == month && r[i].spent == 0.0 && !HasBudget(existing, month, r[i].categoryId)
    ensures forall i :: 0 <= i < |r| ==>
      exists j :: 0 <= j < |candidates| && r[i] == Budget(ids[j], candidates[j].categoryId, candidates[j].amount, month, 0.0)
    ensures forall j :: 0 <= j < |candidates| && !HasBudget(existing, month, candidates[j].categoryId) ==>
      Budget(ids[j], candidates[j].categoryId, candidates[j].amount, month, 0.0) in r
    ensures |r| == |UncoveredIndices(candidates, existing, month)|
    ensures forall k :: 0 <= k < |r| ==>
      var j := UncoveredIndices(candidates, existing, month)[k];
      r[k] == Budget(ids[j], candidates[j].categoryId, candidates[j].amount, month, 0.0)
  {
    var r := CopiesInOrder(candidates, existing, month, ids);
    var idx := UncoveredIndices(candidates, existing, month);
    forall i | 0 <= i < |r|
      ensures r[i] == Budget(ids[idx[i]], candidates[idx[i]].categoryId, candidates[idx[i]].amount, month, 0.0)
      ensures !HasBudget(existing, month, r[i].categoryId)
    {
    }
    forall j | 0 <= j < |candidates| && !HasBudget(existing, month, candidates[j].categoryId)
      ensures Budget(ids[j], candidates[j].categoryId, candidates[j].amount, month, 0.0) in r
    {
      var k :| 0 <= k < |idx| && idx[k] == j;
      assert r[k] == Budget(ids[j], candidates[j].categoryId, candidates[j].amount, month, 0.0);
    }
    r
  }

  /** "Copy last month": last month's budgets (of `lastMonth`, the month
      before the clock's) copied into the selected month where missing. */
  function CopyLastMonth(s: AppState, month: string, lastMonth: string, ids: seq<string>): (r: AppState)
    requires |ids| == |BudgetsFor(s.budgets, lastMonth)|
    ensures r.(budgets := s.budgets) == s
    ensures |s.budgets| <= |r.budgets|
    ensures r.budgets[..|s.budgets|] == s.budgets
    ensures forall i :: |s.budgets| <= i < |r.budgets| ==>
      r.budgets[i].month == month && r.budgets[i].spent == 0.0
      && !HasBudget(s.budgets, month, r.budgets[i].categoryId)
  {
    var added := Copies(BudgetsFor(s.budgets, lastMonth), s.budgets, month, ids);
    var budgets := s.budgets + added;
    assert budgets[..|s.budgets|] == s.budgets;
    forall i | |s.budgets| <= i < |budgets|
      ensures budgets[i].month == month && budgets[i].spent == 0.0
              && !HasBudget(s.budgets, month, budgets[i].categoryId)
    {
      assert budgets[i] == added[i - |s.budgets|];
    }
    s.(budgets := budgets)
  }

  /** When every candidate's category is already covered, nothing is copied. */
  lemma {:induction false} CopiesNothingWhenCovered(candidates: seq<Budget>, existing: seq<Budget>, month: string,
                                                    ids: seq<string>)
    requires |ids| == |candidates|
    requires forall j :: 0 <= j < |candidates| ==> HasBudget(existing, month, candidates[j].categoryId)
    ensures Copies(candidates, existing, month, ids) == []
    decreases |candidates|
  {
    if |candidates| > 0 {
      var n := |candidates| - 1;
      CopiesNothingWhenCovered(candidates[..n], existing, month, ids[..n]);
    }
  }

  /** A budget at a position covers its own slot. */
  lemma CoveredBy(budgets: seq<Budget>, i: nat)
    requires i < |budgets|
    ensures HasBudget(budgets, budgets[i].month, budgets[i].categoryId)
  {
    assert InSlot(budgets[i].month, budgets[i].categoryId)(budgets[i]);
  }

  /** Copying into the month being copied from adds nothing. */
  lemma CopySameMonthAddsNothing(s: AppState, month: string, ids: seq<string>)
    requires |ids| == |BudgetsFor(s.budgets, month)|
    ensures CopyLastMonth(s, month, month, ids) == s
  {
    var cands := BudgetsFor(s.budgets, month);
    forall j | 0 <= j < |cands|
      ensures HasBudget(s.budgets, month, cands[j].categoryId)
    {
      var i :| 0 <= i < |s.budgets| && s.budgets[i] == cands[j];
      CoveredBy(s.budgets, i);
    }
    CopiesNothingWhenCovered(cands, s.budgets, month, ids);
    assert s.budgets + [] == s.budgets;
  }

  /** The copies land in the selected month, so last month's budgets are
      the same after a copy. */
  lemma CopyKeepsLastMonth(s: AppState, month: string, lastMonth: string, ids: seq<string>)
    requires month != lastMonth
    requires |ids| == |BudgetsFor(s.budgets, lastMonth)|
    ensures BudgetsFor(CopyLastMonth(s, month, lastMonth, ids).budgets, lastMonth) == BudgetsFor(s.budgets, lastMonth)
  {
    var added := Copies(BudgetsFor(s.budgets, lastMonth), s.budgets, month, ids);
    assert CopyLastMonth(s, month, lastMonth, ids).budgets == s.budgets + added;
    FilterAppend(s.budgets, added, BudgetOfMonth(lastMonth));
    FilterNone(added, BudgetOfMonth(lastMonth));
    assert s.budgets + added == CopyLastMonth(s, month, lastMonth, ids).budgets;
    assert Filter(s.budgets, BudgetOfMonth(lastMonth)) + [] == Filter(s.budgets, BudgetOfMonth(lastMonth));
  }

  /** After a copy, every category last month had is covered in the
      selected month: it was already, or it has just been copied. */
  lemma CopyCovers(s: AppState, month: string, lastMonth: string, ids: seq<string>)
    requires |ids| == |BudgetsFor(s.budgets, lastMonth)|
    ensures forall j :: 0 <= j < |BudgetsFor(s.budgets, lastMonth)| ==>
      HasBudget(CopyLastMonth(s, month, lastMonth, ids).budgets, month, BudgetsFor(s.budgets, lastMonth)[j].categoryId)
  {
    var cands := BudgetsFor(s.budgets, lastMonth);
    var added := Copies(cands, s.budgets, month, ids);
    assert CopyLastMonth(s, month, lastMonth, ids).budgets == s.budgets + added;
    forall j | 0 <= j < |cands|
      ensures HasBudget(s.budgets + added, month, cands[j].categoryId)
    {
      if HasBudget(s.budgets, month, cands[j].categoryId) {
        CoveredStaysCovered(s.budgets, added, month, cands[j].categoryId);
      } else {
        CopyIsCovered(cands, s.budgets, month, ids, j);
      }
    }
  }

  /** Appending budgets never uncovers a slot. */
  lemma CoveredStaysCovered(budgets: seq<Budget>, added: seq<Budget>, month: string, categoryId: string)
    requires HasBudget(budgets, month, categoryId)
    ensures HasBudget(budgets + added, month, categoryId)
  {
    var i := Find(budgets, InSlot(month, categoryId)).value;
    assert (budgets + added)[i] == budgets[i];
    CoveredBy(budgets + added, i);
  }

  /** A candidate whose slot was free is covered by its own copy. */
  lemma CopyIsCovered(candidates: seq<Budget>, existing: seq<Budget>, month: string, ids: seq<string>, j: nat)
    requires |ids| == |candidates| && j < |candidates|
    requires !HasBudget(existing, month, candidates[j].categoryId)
    ensures HasBudget(existing + Copies(candidates, existing, month, ids), month, candidates[j].categoryId)
  {
    var added := Copies(candidates, existing, month, ids);
    var copy := Budget(ids[j], candidates[j].categoryId, candidates[j].amount, month, 0.0);
    assert copy in added;
    var k :| 0 <= k < |added| && added[k] == copy;
    assert (existing + added)[|existing| + k] == copy;
    CoveredBy(existing + added, |existing| + k);
  }

  /** Pressing "copy last month" a second time adds nothing: the first
      press covered every category last month had. */
  lemma CopyTwiceAddsNothing(s: AppState, month: string, lastMonth: string, ids: seq<string>, moreIds: seq<string>)
    requires month != lastMonth
    requires |ids| == |BudgetsFor(s.budgets, lastMonth)|
    requires |moreIds| == |BudgetsFor(CopyLastMonth(s, month, lastMonth, ids).budgets, lastMonth)|
    ensures CopyLastMonth(CopyLastMonth(s, month, lastMonth, ids), month, lastMonth, moreIds)
         == CopyLastMonth(s, month, lastMonth, ids)
  {
    var once := CopyLastMonth(s, month, lastMonth, ids);
    CopyKeepsLastMonth(s, month, lastMonth, ids);
    CopyCovers(s, month, lastMonth, ids);
    CopiesNothingWhenCovered(BudgetsFor(s.budgets, lastMonth), once.budgets, month, moreIds);
    assert once.budgets + [] == once.budgets;
  }
}

=== FILE: collections.dfy ===
/** Generic sequence operations behind the store and the views: `find`,
    `filter`, `reduce` with `+`, `map` over records with a matching id,
    and grouping by a key in first-occurrence order (the iteration order
    of an object used as a dictionary). Folds peel off the LAST element,
    as `reduce` adds it last. */
module Collections {
  import opened Wrappers

  /** `xs.findIndex(p)`, as an Option: the first position whose element satisfies `p`. */
  function Find<T>(xs: seq<T>, p: T -> bool): (r: Option<nat>)
    ensures r.Some? ==> r.value < |xs| && p(xs[r.value])
    ensures r.Some? ==> forall j :: 0 <= j < r.value ==> !p(xs[j])
    ensures r.None? <==> forall j :: 0 <= j < |xs| ==> !p(xs[j])
    decreases |xs|
  {
    if |xs| == 0 then None
    else if p(xs[0]) then Some(0)
    else match Find(xs[1..], p)
      case Some(i) => Some(i + 1)
      case None => None
  }

  /** `xs.filter(p)`. */
  function Filter<T>(xs: seq<T>, p: T -> bool): (r: seq<T>)
    ensures |r| <= |xs|
    ensures forall i :: 0 <= i < |r| ==> p(r[i]) && r[i] in xs
    ensures forall i :: 0 <= i < |xs| && p(xs[i]) ==> xs[i] in r
    decreases |xs|
  {
    if |xs| == 0 then []
    else
      var init := Filter(xs[..|xs| - 1], p);
      assert xs == xs[..|xs| - 1] + [xs[|xs| - 1]];
      if p(xs[|xs| - 1]) then init + [xs[|xs| - 1]] else init
  }

  /** `xs.reduce((sum, x) => sum + f(x), 0)`. */
  function SumBy<T>(xs: seq<T>, f: T -> real): real
    decreases |xs|
  {
    if |xs| == 0 then 0.0 else SumBy(xs[..|xs| - 1], f) + f(xs[|xs| - 1])
  }

  /** Reordering a sequence does not change its sum. */
  lemma {:induction false} SumByPermutation<T>(a: seq<T>, b: seq<T>, f: T -> real)
    requires multiset(a) == multiset(b)
    ensures SumBy(a, f) == SumBy(b, f)
    decreases |a|
  {
    if |a| > 0 {
      var init, x := a[..|a| - 1], a[|a| - 1];
      assert a == init + [x];
      assert multiset(a) == multiset(init) + multiset{x};
      assert x in multiset(b);
      var k :| 0 <= k < |b| && b[k] == x;
      var front, back := b[..k], b[k + 1..];
      assert b == front + [x] + back;
      assert multiset(b) == multiset(front) + multiset{x} + multiset(back);
      assert multiset(front + back) == multiset(front) + multiset(back);
      assert multiset(init) == multiset(a) - multiset{x};
      assert multiset(front) + multiset(back) == multiset(b) - multiset{x};
      SumByPermutation(init, front + back, f);
      SumByAppend(front, back, f);
      SumByAppend(front + [x], back, f);
      SumByAppend(front, [x], f);
      assert SumBy([x], f) == f(x) by {
        assert [x][..0] == [];
      }
    }
  }

  /** The key of every element, in order. */
  function KeysOf<T, K>(xs: seq<T>, key: T -> K): (r: seq<K>)
    ensures |r| == |xs|
    ensures forall i :: 0 <= i < |xs| ==> r[i] == key(xs[i])
  {
    seq(|xs|, i requires 0 <= i < |xs| => key(xs[i]))
  }

  predicate Distinct<K(==)>(ks: seq<K>) {
    forall i, j :: 0 <= i < j < |ks| ==> ks[i] != ks[j]
  }

  /** No two elements share a key: the store's convention for record ids. */
  predicate UniqueKeys<T, K(==)>(xs: seq<T>, key: T -> K) {
    Distinct(KeysOf(xs, key))
  }

  /** `xs.map(x => key(x) === k ? apply(x, p) : x)`: the store's update-by-id. */
  function ReplaceKey<T, K(==), P>(xs: seq<T>, key: T -> K, k: K, apply: (T, P) -> T, p: P): (r: seq<T>)
    ensures |r| == |xs|
    ensures forall i :: 0 <= i < |xs| && key(xs[i]) != k ==> r[i] == xs[i]
    ensures forall i :: 0 <= i < |xs| && key(xs[i]) == k ==> r[i] == apply(xs[i], p)
    ensures k !in KeysOf(xs, key) ==> r == xs
    decreases |xs|
  {
    if |xs| == 0 then []
    else
      var x := xs[|xs| - 1];
      var r := ReplaceKey(xs[..|xs| - 1], key, k, apply, p) + [if key(x) == k then apply(x, p) else x];
      assert k !in KeysOf(xs, key) ==> r == xs by {
        if k !in KeysOf(xs, key) {
          assert forall i :: 0 <= i < |xs| ==> KeysOf(xs, key)[i] != k;
        }
      }
      r
  }

  /** `xs.filter(x => key(x) !== k)`: the store's delete-by-id. */
  function RemoveKey<T, K(==)>(xs: seq<T>, key: T -> K, k: K): (r: seq<T>)
    ensures |r| <= |xs|
    ensures forall i :: 0 <= i < |r| ==> key(r[i]) != k && r[i] in xs
    ensures forall i :: 0 <= i < |xs| && key(xs[i]) != k ==> xs[i] in r
    ensures k !in KeysOf(xs, key) ==> r == xs
    decreases |xs|
  {
    if |xs| == 0 then []
    else
      var x := xs[|xs| - 1];
      var init := RemoveKey(xs[..|xs| - 1], key, k);
      assert xs == xs[..|xs| - 1] + [x];
      assert k !in KeysOf(xs, key) ==> k !in KeysOf(xs[..|xs| - 1], key) by {
        if k in KeysOf(xs[..|xs| - 1], key) {
          var i :| 0 <= i < |xs| - 1 && KeysOf(xs[..|xs| - 1], key)[i] == k;
          assert KeysOf(xs, key)[i] == k;
        }
      }
      assert k !in KeysOf(xs, key) ==> key(x) != k by {
        if key(x) == k {
          assert KeysOf(xs, key)[|xs| - 1] == k;
        }
      }
      if key(x) == k then init else init + [x]
  }

  /** Deleting by key works record by record: it distributes over
      concatenation, so the records that stay keep their relative order. */
  lemma {:induction false} RemoveKeyAppend<T, K>(xs: seq<T>, ys: seq<T>, key: T -> K, k: K)
    ensures RemoveKey(xs + ys, key, k) == RemoveKey(xs, key, k) + RemoveKey(ys, key, k)
    decreases |ys|
  {
    if |ys| == 0 {
      assert xs + ys == xs;
    } else {
      var y := ys[|ys| - 1];
      var init := ys[..|ys| - 1];
      assert (xs + ys)[..|xs + ys| - 1] == xs + init;
      assert (xs + ys)[|xs + ys| - 1] == y;
      RemoveKeyAppend(xs, init, key, k);
    }
  }

  /** The distinct keys of `xs` in order of first occurrence: the key order
      of a dictionary filled by `forEach` over `xs`. */
  function GroupKeys<T, K(==)>(xs: seq<T>, key: T -> K): (r: seq<K>)
    ensures Distinct(r)
    ensures forall i :: 0 <= i < |r| ==> r[i] in KeysOf(xs, key)
    ensures forall i :: 0 <= i < |xs| ==> key(xs[i]) in r
    decreases |xs|
  {
    if |xs| == 0 then []
    else
      var init := GroupKeys(xs[..|xs| - 1], key);
      var k := key(xs[|xs| - 1]);
      assert KeysOf(xs, key) == KeysOf(xs[..|xs| - 1], key) + [k];
      if k in init then init else init + [k]
  }

  /** The total of `val` over the elements whose key is `k`: one dictionary entry. */
  function GroupSum<T, K(==)>(xs: seq<T>, key: T -> K, k: K, val: T -> real): real
    decreases |xs|
  {
    if |xs| == 0 then 0.0
    else
      var x := xs[|xs| - 1];
      GroupSum(xs[..|xs| - 1], key, k, val) + (if key(x) == k then val(x) else 0.0)
  }

  /** The sum of the group totals of the keys `ks`. */
  function SumGroups<T, K(==)>(ks: seq<K>, xs: seq<T>, key: T -> K, val: T -> real): real
    decreases |ks|
  {
    if |ks| == 0 then 0.0
    else SumGroups(ks[..|ks| - 1], xs, key, val) + GroupSum(xs, key, ks[|ks| - 1], val)
  }

  // ---------------------------------------------------------------- lemmas

  lemma {:induction false} SumByAppend<T>(a: seq<T>, b: seq<T>, f: T -> real)
    ensures SumBy(a + b, f) == SumBy(a, f) + SumBy(b, f)
    decreases |b|
  {
    if |b| > 0 {
      var ab := a + b;
      assert ab[..|ab| - 1] == a + b[..|b| - 1];
      SumByAppend(a, b[..|b| - 1], f);
    } else {
      assert a + b == a;
    }
  }

  /** Sums only look at the summed values. */
  lemma {:induction false} SumByPointwise<T>(xs: seq<T>, f: T -> real, g: T -> real)
    requires forall i :: 0 <= i < |xs| ==> f(xs[i]) == g(xs[i])
    ensures SumBy(xs, f) == SumBy(xs, g)
    decreases |xs|
  {
    if |xs| > 0 {
      SumByPointwise(xs[..|xs| - 1], f, g);
    }
  }

  /** Filtering commutes with concatenation: it keeps the survivors in order. */
  lemma {:induction false} FilterAppend<T>(a: seq<T>, b: seq<T>, p: T -> bool)
    ensures Filter(a + b, p) == Filter(a, p) + Filter(b, p)
    decreases |b|
  {
    if |b| > 0 {
      var ab := a + b;
      assert ab[..|ab| - 1] == a + b[..|b| - 1];
      FilterAppend(a, b[..|b| - 1], p);
    } else {
      assert a + b == a;
    }
  }

  /** Two sequences that differ only at positions the filter rejects in
      both filter to the same survivors. */
  lemma {:induction false} FilterAgrees<T>(xs: seq<T>, ys: seq<T>, p: T -> bool)
    requires |xs| == |ys|
    requires forall i :: 0 <= i < |xs| ==> xs[i] == ys[i] || (!p(xs[i]) && !p(ys[i]))
    ensures Filter(xs, p) == Filter(ys, p)
    decreases |xs|
  {
    if |xs| > 0 {
      FilterAgrees(xs[..|xs| - 1], ys[..|ys| - 1], p);
    }
  }

  /** An element is kept by a filter exactly when it occurs and passes. */
  lemma FilterMembers<T>(xs: seq<T>, p: T -> bool)
    ensures forall x :: x in Filter(xs, p) <==> x in xs && p(x)
  {
    var r := Filter(xs, p);
    forall x | x in r
      ensures x in xs && p(x)
    {
      var i :| 0 <= i < |r| && r[i] == x;
    }
    forall x | x in xs && p(x)
      ensures x in r
    {
      var i :| 0 <= i < |xs| && xs[i] == x;
    }
  }

  /** A reordering has the same elements. */
  lemma PermutationMembers<T>(a: seq<T>, b: seq<T>)
    requires multiset(a) == multiset(b)
    ensures forall x :: x in a <==> x in b
  {
    assert forall x :: x in a <==> x in multiset(a);
    assert forall x :: x in b <==> x in multiset(b);
  }

  /** Two tests that agree on every element select the same elements. */
  lemma {:induction false} FilterSame<T>(xs: seq<T>, p: T -> bool, q: T -> bool)
    requires forall i :: 0 <= i < |xs| ==> p(xs[i]) == q(xs[i])
    ensures Filter(xs, p) == Filter(xs, q)
    decreases |xs|
  {
    if |xs| > 0 {
      FilterSame(xs[..|xs| - 1], p, q);
    }
  }

  /** Overwriting a rejected element with another rejected one leaves the
      filter's result unchanged. */
  lemma FilterIgnoresRejectedUpdate<T>(xs: seq<T>, k: nat, v: T, p: T -> bool)
    requires k < |xs| && !p(xs[k]) && !p(v)
    ensures Filter(xs[k := v], p) == Filter(xs, p)
  {
    FilterAgrees(xs[k := v], xs, p);
  }

  /** A filter that no element passes leaves nothing. */
  lemma {:induction false} FilterNone<T>(xs: seq<T>, p: T -> bool)
    requires forall i :: 0 <= i < |xs| ==> !p(xs[i])
    ensures Filter(xs, p) == []
    decreases |xs|
  {
    if |xs| > 0 {
      FilterNone(xs[..|xs| - 1], p);
    }
  }

  /** A filter that every element passes changes nothing. */
  lemma {:induction false} FilterKeepsAll<T>(xs: seq<T>, p: T -> bool)
    requires forall i :: 0 <= i < |xs| ==> p(xs[i])
    ensures Filter(xs, p) == xs
    decreases |xs|
  {
    if |xs| > 0 {
      FilterKeepsAll(xs[..|xs| - 1], p);
    }
  }

  /** Summing a filtered sequence is summing the whole one with the
      rejected elements counted as zero. */
  lemma {:induction false} SumFilter<T>(xs: seq<T>, p: T -> bool, f: T -> real, g: T -> real)
    requires forall i :: 0 <= i < |xs| ==> g(xs[i]) == (if p(xs[i]) then f(xs[i]) else 0.0)
    ensures SumBy(Filter(xs, p), f) == SumBy(xs, g)
    decreases |xs|
  {
    if |xs| > 0 {
      var x := xs[|xs| - 1];
      var init := xs[..|xs| - 1];
      SumFilter(init, p, f, g);
      if p(x) {
        var fi := Filter(init, p);
        assert (fi + [x])[..|fi + [x]| - 1] == fi;
      }
    }
  }

  /** A predicate and its negation split a sum in two. */
  lemma SumFilterSplit<T>(xs: seq<T>, p: T -> bool, q: T -> bool, f: T -> real)
    requires forall i :: 0 <= i < |xs| ==> q(xs[i]) == !p(xs[i])
    ensures SumBy(Filter(xs, p), f) + SumBy(Filter(xs, q), f) == SumBy(xs, f)
  {
    var g := x => if p(x) then f(x) else 0.0;
    var h := x => if q(x) then f(x) else 0.0;
    SumFilter(xs, p, f, g);
    SumFilter(xs, q, f, h);
    SumOfParts(xs, f, g, h);
  }

  lemma {:induction false} SumOfParts<T>(xs: seq<T>, f: T -> real, g: T -> real, h: T -> real)
    requires forall i :: 0 <= i < |xs| ==> f(xs[i]) == g(xs[i]) + h(xs[i])
    ensures SumBy(xs, g) + SumBy(xs, h) == SumBy(xs, f)
    decreases |xs|
  {
    if |xs| > 0 {
      SumOfParts(xs[..|xs| - 1], f, g, h);
    }
  }

  /** Adding one element to the grouped sequence adds its value to the group
      of its key, if that key is listed. */
  lemma {:induction false} SumGroupsSnoc<T, K>(ks: seq<K>, ys: seq<T>, x: T, key: T -> K, val: T -> real)
    requires Distinct(ks)
    ensures SumGroups(ks, ys + [x], key, val)
         == SumGroups(ks, ys, key, val) + (if key(x) in ks then val(x) else 0.0)
    decreases |ks|
  {
    var xs := ys + [x];
    assert xs[..|xs| - 1] == ys;
    if |ks| > 0 {
      var init := ks[..|ks| - 1];
      assert ks == init + [ks[|ks| - 1]];
      SumGroupsSnoc(init, ys, x, key, val);
    }
  }

  /** Group totals over a duplicate-free list of keys that covers every
      element add up to the plain total. */
  lemma {:induction false} SumGroupsCover<T, K>(ks: seq<K>, xs: seq<T>, key: T -> K, val: T -> real)
    requires Distinct(ks)
    requires forall i :: 0 <= i < |xs| ==> key(xs[i]) in ks
    ensures SumGroups(ks, xs, key, val) == SumBy(xs, val)
    decreases |xs|
  {
    if |xs| == 0 {
      SumGroupsEmpty(ks, xs, key, val);
    } else {
      var ys := xs[..|xs| - 1];
      var x := xs[|xs| - 1];
      assert xs == ys + [x];
      SumGroupsCover(ks, ys, key, val);
      SumGroupsSnoc(ks, ys, x, key, val);
    }
  }

  lemma {:induction false} SumGroupsEmpty<T, K>(ks: seq<K>, xs: seq<T>, key: T -> K, val: T -> real)
    requires |xs| == 0
    ensures SumGroups(ks, xs, key, val) == 0.0
    decreases |ks|
  {
    if |ks| > 0 {
      SumGroupsEmpty(ks[..|ks| - 1], xs, key, val);
    }
  }

  /** The dictionary built by grouping loses nothing: its entries add up to the total. */
  lemma GroupTotalsAddUp<T, K>(xs: seq<T>, key: T -> K, val: T -> real)
    ensures SumGroups(GroupKeys(xs, key), xs, key, val) == SumBy(xs, val)
  {
    var ks := GroupKeys(xs, key);
    forall i | 0 <= i < |xs|
      ensures key(xs[i]) in ks
    {
      assert KeysOf(xs, key)[i] == key(xs[i]);
    }
    SumGroupsCover(ks, xs, key, val);
  }

  /** Appending a record whose key is fresh keeps keys unique. */
  lemma AppendFreshKeepsUnique<T, K>(xs: seq<T>, x: T, key: T -> K)
    requires UniqueKeys(xs, key)
    requires key(x) !in KeysOf(xs, key)
    ensures UniqueKeys(xs + [x], key)
  {
    var ys := xs + [x];
    forall i, j | 0 <= i < j < |ys|
      ensures KeysOf(ys, key)[i] != KeysOf(ys, key)[j]
    {
      assert KeysOf(xs, key)[i] == key(ys[i]);
      if j < |xs| {
        assert KeysOf(xs, key)[j] == key(ys[j]);
      }
    }
  }

  /** An update that keeps every key keeps keys unique. */
  lemma ReplaceKeepsUnique<T, K, P>(xs: seq<T>, key: T -> K, k: K, apply: (T, P) -> T, p: P)
    requires UniqueKeys(xs, key)
    requires forall i :: 0 <= i < |xs| ==> key(apply(xs[i], p)) == key(xs[i])
    ensures KeysOf(ReplaceKey(xs, key, k, apply, p), key) == KeysOf(xs, key)
    ensures UniqueKeys(ReplaceKey(xs, key, k, apply, p), key)
  {
    var r := ReplaceKey(xs, key, k, apply, p);
    forall i | 0 <= i < |xs|
      ensures KeysOf(r, key)[i] == KeysOf(xs, key)[i]
    {
      if key(xs[i]) == k {
        assert r[i] == apply(xs[i], p);
      } else {
        assert r[i] == xs[i];
      }
    }
    assert KeysOf(r, key) == KeysOf(xs, key);
  }

  /** Deleting keeps keys unique. */
  lemma {:induction false} RemoveKeepsUnique<T, K>(xs: seq<T>, key: T -> K, k: K)
    requires UniqueKeys(xs, key)
    ensures UniqueKeys(RemoveKey(xs, key, k), key)
    decreases |xs|
  {
    if |xs| > 0 {
      var init := xs[..|xs| - 1];
      var x := xs[|xs| - 1];
      assert UniqueKeys(init, key) by {
        forall i, j | 0 <= i < j < |init|
          ensures KeysOf(init, key)[i] != KeysOf(init, key)[j]
        {
          assert KeysOf(xs, key)[i] != KeysOf(xs, key)[j];
        }
      }
      RemoveKeepsUnique(init, key, k);
      if key(x) != k {
        var r := RemoveKey(init, key, k);
        forall i | 0 <= i < |r|
          ensures KeysOf(r, key)[i] != key(x)
        {
          var j :| 0 <= j < |init| && init[j] == r[i];
          assert KeysOf(xs, key)[j] != KeysOf(xs, key)[|xs| - 1];
        }
        AppendFreshKeepsUnique(r, x, key);
      }
    }
  }

  /** Deleting by the key of a freshly appended record undoes the append. */
  lemma RemoveUndoesAppend<T, K>(xs: seq<T>, x: T, key: T -> K)
    requires key(x) !in KeysOf(xs, key)
    ensures RemoveKey(xs + [x], key, key(x)) == xs
  {
    var ys := xs + [x];
    assert ys[..|ys| - 1] == xs;
  }

  /** Deleting twice by the same key is deleting once. */
  lemma RemoveIdempotent<T, K>(xs: seq<T>, key: T -> K, k: K)
    ensures RemoveKey(RemoveKey(xs, key, k), key, k) == RemoveKey(xs, key, k)
  {
    var r := RemoveKey(xs, key, k);
    forall i | 0 <= i < |r|
      ensures KeysOf(r, key)[i] != k
    {
    }
  }

  /** Updating twice with the same patch is updating once, when the patch is idempotent. */
  lemma ReplaceIdempotent<T, K, P>(xs: seq<T>, key: T -> K, k: K, apply: (T, P) -> T, p: P)
    requires forall i :: 0 <= i < |xs| ==> apply(apply(xs[i], p), p) == apply(xs[i], p)
    ensures ReplaceKey(ReplaceKey(xs, key, k, apply, p), key, k, apply, p) == ReplaceKey(xs, key, k, apply, p)
  {
  }
}

=== FILE: dashboard.dfy ===
/** The dashboard: six months of income, spending and savings for the
    chart, the current month's cards, the spending breakdown by category,
    a simplified net worth, the latest health score, and a preview of the
    first three savings goals. The month `now` is the local calendar month
    the page reads from the clock. */
module Dashboard {
  import opened Wrappers
  import opened Text
  import opened Collections
  import opened Entities
  import opened Ledger
  import opened Store
  import opened Utils

  // ----------------------------------------------------------- the chart

  /** One point of the six-month chart; `month` is the "MM" part of the key. */
  datatype MonthRow = MonthRow(month: string, income: real, expenses: real, savings: real)

  function MonthRowFor(incomes: seq<Income>, expenses: seq<Expense>, key: string): (row: MonthRow)
    ensures row.income == MonthIncomeTotal(incomes, key)
    ensures row.expenses == MonthExpenseTotal(expenses, key)
    ensures row.income == row.savings + row.expenses
    ensures 7 <= |key| ==> row.month == key[5..7]
  {
    var income := MonthIncomeTotal(incomes, key);
    var spent := MonthExpenseTotal(expenses, key);
    MonthRow(Substring(key, 5, 7), income, spent, income - spent)
  }

  /** The chart: the six months ending with `now`, oldest first. */
  function MonthlyRows(incomes: seq<Income>, expenses: seq<Expense>, now: YearMonth): (rows: seq<MonthRow>)
    ensures |rows| == 6
    ensures forall i :: 0 <= i < 6 ==> rows[i] == MonthRowFor(incomes, expenses, MonthRange(6, now)[i])
  {
    var months := MonthRange(6, now);
    seq(6, i requires 0 <= i < 6 => MonthRowFor(incomes, expenses, months[i]))
  }

  /** The current month's cards. */
  datatype MonthStats = MonthStats(income: real, expenses: real, savings: real)

  function CurrentStats(incomes: seq<Income>, expenses: seq<Expense>, now: YearMonth): (st: MonthStats)
    ensures st.income == MonthIncomeTotal(incomes, MonthKey(now))
    ensures st.expenses == MonthExpenseTotal(expenses, MonthKey(now))
    ensures st.income == st.savings + st.expenses
  {
    var income := MonthIncomeTotal(incomes, MonthKey(now));
    var spent := MonthExpenseTotal(expenses, MonthKey(now));
    MonthStats(income, spent, income - spent)
  }

  /** The last point of the chart and the cards show the same month. */
  lemma ChartEndsWithCurrentMonth(incomes: seq<Income>, expenses: seq<Expense>, now: YearMonth)
    ensures MonthlyRows(incomes, expenses, now)[5].income == CurrentStats(incomes, expenses, now).income
    ensures MonthlyRows(incomes, expenses, now)[5].expenses == CurrentStats(incomes, expenses, now).expenses
    ensures MonthlyRows(incomes, expenses, now)[5].savings == CurrentStats(incomes, expenses, now).savings
  {
  }

  lemma FourDigitYear(y: int)
    requires 1000 <= y <= 9999
    ensures |IntToString(y)| == 4
  {
    assert NatToString(y) == NatToString(y / 10) + [DigitChar(y % 10)];
    assert NatToString(y / 10) == NatToString(y / 100) + [DigitChar(y / 10 % 10)];
    assert NatToString(y / 100) == NatToString(y / 1000) + [DigitChar(y / 100 % 10)];
    assert y / 1000 < 10;
  }

  /** For four-digit years every chart label is the two-digit number of its
      month, and the chart's months are consecutive and end with `now`. */
  lemma ChartLabels(incomes: seq<Income>, expenses: seq<Expense>, now: YearMonth)
    requires 1000 <= now.year && MonthIndex(now) - 5 >= 1000 * 12
    requires now.year <= 9999
    ensures forall i :: 0 <= i < 6 ==>
      var ym := MonthAt(MonthIndex(now) - (5 - i));
      MonthlyRows(incomes, expenses, now)[i].month == [DigitChar(ym.month / 10), DigitChar(ym.month % 10)]
  {
    var months := MonthRange(6, now);
    forall i | 0 <= i < 6
      ensures var ym := MonthAt(MonthIndex(now) - (5 - i));
        MonthlyRows(incomes, expenses, now)[i].month == [DigitChar(ym.month / 10), DigitChar(ym.month % 10)]
    {
      var ym := MonthAt(MonthIndex(now) - (5 - i));
      assert months[i] == MonthKey(ym);
      FourDigitYear(ym.year);
      var digits := [DigitChar(ym.month / 10), DigitChar(ym.month % 10)];
      assert months[i] == IntToString(ym.year) + "-" + digits;
      assert months[i][5..7] == digits;
    }
  }

  // ------------------------------------------------------- the breakdown

  /** One slice of the pie; a category id with no category is "Other" in grey. */
  datatype Slice = Slice(name: string, value: real, color: string)

  function SliceValue(sl: Slice): real { sl.value }

  function SliceFor(categories: seq<Category>, inMonth: seq<Expense>, categoryId: string): (sl: Slice)
    ensures sl.value == GroupSum(inMonth, ExpenseCategory, categoryId, ExpenseAmount)
    ensures FindCategory(categories, categoryId).None? ==> sl.name == "Other" && sl.color == "#888888"
    ensures FindCategory(categories, categoryId).Some? ==>
      sl.name == FindCategory(categories, categoryId).value.name
      && sl.color == FindCategory(categories, categoryId).value.color
  {
    var value := GroupSum(inMonth, ExpenseCategory, categoryId, ExpenseAmount);
    match FindCategory(categories, categoryId)
    case None => Slice("Other", value, "#888888")
    case Some(c) => Slice(c.name, value, c.color)
  }

  function Slices(categories: seq<Category>, inMonth: seq<Expense>, keys: seq<string>): (r: seq<Slice>)
    ensures |r| == |keys|
    ensures forall i :: 0 <= i < |keys| ==> r[i] == SliceFor(categories, inMonth, keys[i])
    decreases |keys|
  {
    if |keys| == 0 then []
    else Slices(categories, inMonth, keys[..|keys| - 1]) + [SliceFor(categories, inMonth, keys[|keys| - 1])]
  }

  /** The month's spending grouped by category, one slice per category id
      that occurs, in order of first occurrence. */
  function Breakdown(expenses: seq<Expense>, categories: seq<Category>, month: string): (r: seq<Slice>)
    ensures |r| == |GroupKeys(ExpensesIn(expenses, month), ExpenseCategory)|
    ensures |r| <= |ExpensesIn(expenses, month)|
    ensures forall i :: 0 <= i < |r| ==>
      r[i] == SliceFor(categories, ExpensesIn(expenses, month), GroupKeys(ExpensesIn(expenses, month), ExpenseCategory)[i])
  {
    var inMonth := ExpensesIn(expenses, month);
    var keys := GroupKeys(inMonth, ExpenseCategory);
    DistinctKeysFit(keys, inMonth);
    Slices(categories, inMonth, keys)
  }

  /** A list of distinct keys each taken from `xs` is no longer than `xs`. */
  lemma DistinctKeysFit(keys: seq<string>, xs: seq<Expense>)
    requires Distinct(keys)
    requires forall i :: 0 <= i < |keys| ==> keys[i] in KeysOf(xs, ExpenseCategory)
    ensures |keys| <= |xs|
  {
    var ks := set i | 0 <= i < |keys| :: keys[i];
    var all := set j | 0 <= j < |xs| :: xs[j].categoryId;
    assert ks <= all by {
      forall i | 0 <= i < |keys| ensures keys[i] in all {
        var j :| 0 <= j < |xs| && KeysOf(xs, ExpenseCategory)[j] == keys[i];
      }
    }
    DistinctCard(keys);
    ImageCard(xs);
    assert all == ks + (all - ks);
    assert |all| == |ks| + |all - ks|;
  }

  lemma {:induction false} DistinctCard(keys: seq<string>)
    requires Distinct(keys)
    ensures |set i | 0 <= i < |keys| :: keys[i]| == |keys|
    decreases |keys|
  {
    if |keys| > 0 {
      var init := keys[..|keys| - 1];
      DistinctCard(init);
      var a := set i | 0 <= i < |init| :: init[i];
      var b := set i | 0 <= i < |keys| :: keys[i];
      assert b == a + {keys[|keys| - 1]};
      assert keys[|keys| - 1] !in a;
    }
  }

  lemma {:induction false} ImageCard(xs: seq<Expense>)
    ensures |set j | 0 <= j < |xs| :: xs[j].categoryId| <= |xs|
    decreases |xs|
  {
    if |xs| > 0 {
      var init := xs[..|xs| - 1];
      ImageCard(init);
      var a := set j | 0 <= j < |init| :: init[j].categoryId;
      var b := set j | 0 <= j < |xs| :: xs[j].categoryId;
      assert b == a + {xs[|xs| - 1].categoryId};
    }
  }

  lemma {:induction false} SlicesAsGroups(categories: seq<Category>, inMonth: seq<Expense>, keys: seq<string>)
    ensures SumBy(Slices(categories, inMonth, keys), SliceValue)
         == SumGroups(keys, inMonth, ExpenseCategory, ExpenseAmount)
    decreases |keys|
  {
    if |keys| > 0 {
      var r := Slices(categories, inMonth, keys);
      assert r[..|r| - 1] == Slices(categories, inMonth, keys[..|keys| - 1]);
      SlicesAsGroups(categories, inMonth, keys[..|keys| - 1]);
    }
  }

  /** The pie loses nothing: its slices add up to the month's spending. */
  lemma BreakdownAddsUp(expenses: seq<Expense>, categories: seq<Category>, month: string)
    ensures SumBy(Breakdown(expenses, categories, month), SliceValue) == MonthExpenseTotal(expenses, month)
  {
    var inMonth := ExpensesIn(expenses, month);
    SlicesAsGroups(categories, inMonth, GroupKeys(inMonth, ExpenseCategory));
    GroupTotalsAddUp(inMonth, ExpenseCategory, ExpenseAmount);
  }

  // ------------------------------------------------ net worth and score

  /** All income ever, less all spending ever, plus what the goals hold. */
  function NetWorth(s: AppState): (r: real)
    ensures |s.incomes| == 0 && |s.expenses| == 0 ==> r == SumBy(s.savingsGoals, GoalCurrentAmount)
  {
    IncomeTotal(s.incomes) - ExpenseTotal(s.expenses) + SumBy(s.savingsGoals, GoalCurrentAmount)
  }

  /** An expense lowers the net worth by its amount, an income raises it by
      its amount, and neither the budgets nor the score history count. */
  lemma NetWorthMoves(s: AppState, e: Expense, i: Income, freshId: string, now: string)
    ensures NetWorth(AddExpense(s, e, freshId, now)) == NetWorth(s) - e.amount
    ensures NetWorth(AddIncome(s, i, freshId, now)) == NetWorth(s) + i.amount
  {
    ExpenseTotalSnoc(s.expenses, e.(id := freshId));
    IncomeTotalSnoc(s.incomes, i.(id := freshId));
  }

  /** The score card: the latest recorded score, or 0 before any. */
  function DisplayedScore(scores: seq<HealthScore>): (r: int)
    ensures |scores| == 0 ==> r == 0
    ensures |scores| > 0 ==> r == scores[|scores| - 1].score
  {
    if |scores| > 0 then scores[|scores| - 1].score else 0
  }

  /** The status badge appears only for a positive score. */
  function ScoreBadge(score: int): (r: Option<HealthStatus>)
    ensures r.Some? <==> score > 0
    ensures r.Some? ==> r.value == GetFinancialHealthStatus(score)
  {
    if score > 0 then Some(GetFinancialHealthStatus(score)) else None
  }

  /** Opening the dashboard records a score only when there is none yet. */
  function Refresh(s: AppState, stamp: string): (r: AppState)
    ensures |s.financialHealthScores| > 0 ==> r == s
    ensures |r.financialHealthScores| > 0
    ensures r.(financialHealthScores := s.financialHealthScores) == s
  {
    if |s.financialHealthScores| == 0 then RecordHealthScore(s, stamp) else s
  }

  /** After opening the dashboard the score shown is the one just computed
      when the history was empty, and the latest one otherwise; opening it
      again changes nothing. */
  lemma RefreshShowsScore(s: AppState, stamp: string, later: string)
    ensures |s.financialHealthScores| == 0 ==>
      DisplayedScore(Refresh(s, stamp).financialHealthScores) == CurrentScore(s, stamp).score
    ensures |s.financialHealthScores| > 0 ==>
      DisplayedScore(Refresh(s, stamp).financialHealthScores) == DisplayedScore(s.financialHealthScores)
    ensures Refresh(Refresh(s, stamp), later) == Refresh(s, stamp)
  {
  }

  // --------------------------------------------------------- goal preview

  datatype GoalPreview = GoalPreview(name: string, currentAmount: real, targetAmount: real,
                                     progress: int, remaining: real)

  function PreviewOf(g: SavingsGoal): (p: GoalPreview)
    ensures p.name == g.name && p.currentAmount == g.currentAmount && p.targetAmount == g.targetAmount
    ensures p.progress == CalculatePercentage(g.currentAmount, g.targetAmount)
    ensures p.progress <= 100
    ensures g.targetAmount == 0.0 ==> p.progress == 0
    ensures p.remaining + g.currentAmount == g.targetAmount
  {
    GoalPreview(g.name, g.currentAmount, g.targetAmount,
                CalculatePercentage(g.currentAmount, g.targetAmount), g.targetAmount - g.currentAmount)
  }

  /** The first three goals. */
  function GoalsPreview(goals: seq<SavingsGoal>): (r: seq<GoalPreview>)
    ensures |r| == if |goals| < 3 then |goals| else 3
    ensures forall i :: 0 <= i < |r| ==> r[i] == PreviewOf(goals[i])
  {
    var shown := if |goals| < 3 then goals else goals[..3];
    seq(|shown|, i requires 0 <= i < |shown| => PreviewOf(shown[i]))
  }

  /** "View all" is offered exactly when the preview leaves goals out. */
  lemma ViewAllWhenTruncated(goals: seq<SavingsGoal>)
    ensures |goals| > 3 <==> |GoalsPreview(goals)| < |goals|
  {
  }
}

=== FILE: entities.dfy ===
/** The records of the ledger store, and the partial updates (`Partial<T>`)
    the store merges into them. A patch field is `None` when the key is
    absent from the update object; for the record's optional fields a
    present key may carry `undefined`, so those patch fields are
    `Option<Option<T>>` and `Some(None)` clears the field. */
module Entities {
  import opened Wrappers

  datatype Theme = Light | Dark

  datatype Frequency = Daily | Weekly | Monthly | Yearly

  /** The `type` of an investment calculation (`type` is a Dafny keyword, hence `kind`). */
  datatype CalculationKind = Sip | Lumpsum | Retirement

  datatype User = User(
    id: string, name: string, email: string, currency: string,
    theme: Theme, notifications: bool, monthlyAlerts: bool)

  datatype Category = Category(id: string, name: string, icon: string, color: string)

  /** A spending ceiling for one category in one month ("YYYY-MM"). */
  datatype Budget = Budget(id: string, categoryId: string, amount: real, month: string, spent: real)

  datatype Expense = Expense(
    id: string, amount: real, date: string, categoryId: string,
    notes: Option<string>, isRecurring: bool, recurringFrequency: Option<Frequency>,
    isOneTime: bool, isPlanned: bool, receiptImage: Option<string>)

  datatype Income = Income(
    id: string, amount: real, date: string, source: string,
    notes: Option<string>, isRecurring: bool, recurringFrequency: Option<Frequency>)

  datatype SavingsGoal = SavingsGoal(
    id: string, name: string, targetAmount: real, currentAmount: real,
    monthlyDeposit: real, startDate: string, targetDate: string, icon: string, color: string)

  datatype InvestmentCalculation = InvestmentCalculation(
    id: string, kind: CalculationKind, amount: real, duration: real,
    interestRate: real, result: real, createdAt: string)

  datatype FinancialForecast = FinancialForecast(
    id: string, name: string, incomeGrowth: real, inflation: real, investmentReturns: real,
    additionalSavings: real, additionalInvestment: real, years: real, createdAt: string)

  /** One entry of the append-only score history. */
  datatype HealthScore = HealthScore(
    score: int, date: string, savingsRatio: real, budgetAdherence: real,
    debtRatio: real, investmentRatio: real)

  // ------------------------------------------------------------------ ids

  function CategoryId(c: Category): string { c.id }
  function BudgetId(b: Budget): string { b.id }
  function ExpenseId(e: Expense): string { e.id }
  function IncomeId(i: Income): string { i.id }
  function SavingsGoalId(g: SavingsGoal): string { g.id }
  function CalculationId(c: InvestmentCalculation): string { c.id }
  function ForecastId(f: FinancialForecast): string { f.id }

  // -------------------------------------------------------------- patches

  /** One key of a spread `{ ...record, ...patch }`: the patch wins when it has the key. */
  function Merge<T>(current: T, patch: Option<T>): T {
    patch.GetOr(current)
  }

  datatype UserPatch = UserPatch(
    id: Option<string>, name: Option<string>, email: Option<string>, currency: Option<string>,
    theme: Option<Theme>, notifications: Option<bool>, monthlyAlerts: Option<bool>)

  datatype CategoryPatch = CategoryPatch(
    id: Option<string>, name: Option<string>, icon: Option<string>, color: Option<string>)

  datatype BudgetPatch = BudgetPatch(
    id: Option<string>, categoryId: Option<string>, amount: Option<real>,
    month: Option<string>, spent: Option<real>)

  datatype ExpensePatch = ExpensePatch(
    id: Option<string>, amount: Option<real>, date: Option<string>, categoryId: Option<string>,
    notes: Option<Option<string>>, isRecurring: Option<bool>,
    recurringFrequency: Option<Option<Frequency>>, isOneTime: Option<bool>,
    isPlanned: Option<bool>, receiptImage: Option<Option<string>>)

  datatype IncomePatch = IncomePatch(
    id: Option<string>, amount: Option<real>, date: Option<string>, source: Option<string>,
    notes: Option<Option<string>>, isRecurring: Option<bool>,
    recurringFrequency: Option<Option<Frequency>>)

  datatype SavingsGoalPatch = SavingsGoalPatch(
    id: Option<string>, name: Option<string>, targetAmount: Option<real>,
    currentAmount: Option<real>, monthlyDeposit: Option<real>, startDate: Option<string>,
    targetDate: Option<string>, icon: Option<string>, color: Option<string>)

  function PatchUser(u: User, p: UserPatch): User {
    User(Merge(u.id, p.id), Merge(u.name, p.name), Merge(u.email, p.email),
         Merge(u.currency, p.currency), Merge(u.theme, p.theme),
         Merge(u.notifications, p.notifications), Merge(u.monthlyAlerts, p.monthlyAlerts))
  }

  function PatchCategory(c: Category, p: CategoryPatch): Category {
    Category(Merge(c.id, p.id), Merge(c.name, p.name), Merge(c.icon, p.icon), Merge(c.color, p.color))
  }

  function PatchBudget(b: Budget, p: BudgetPatch): Budget {
    Budget(Merge(b.id, p.id), Merge(b.categoryId, p.categoryId), Merge(b.amount, p.amount),
           Merge(b.month, p.month), Merge(b.spent, p.spent))
  }

  function PatchExpense(e: Expense, p: ExpensePatch): Expense {
    Expense(Merge(e.id, p.id), Merge(e.amount, p.amount), Merge(e.date, p.date),
            Merge(e.categoryId, p.categoryId), Merge(e.notes, p.notes),
            Merge(e.isRecurring, p.isRecurring), Merge(e.recurringFrequency, p.recurringFrequency),
            Merge(e.isOneTime, p.isOneTime), Merge(e.isPlanned, p.isPlanned),
            Merge(e.receiptImage, p.receiptImage))
  }

  function PatchIncome(i: Income, p: IncomePatch): Income {
    Income(Merge(i.id, p.id), Merge(i.amount, p.amount), Merge(i.date, p.date),
           Merge(i.source, p.source), Merge(i.notes, p.notes),
           Merge(i.isRecurring, p.isRecurring), Merge(i.recurringFrequency, p.recurringFrequency))
  }

  function PatchSavingsGoal(g: SavingsGoal, p: SavingsGoalPatch): SavingsGoal {
    SavingsGoal(Merge(g.id, p.id), Merge(g.name, p.name), Merge(g.targetAmount, p.targetAmount),
                Merge(g.currentAmount, p.currentAmount), Merge(g.monthlyDeposit, p.monthlyDeposit),
                Merge(g.startDate, p.startDate), Merge(g.targetDate, p.targetDate),
                Merge(g.icon, p.icon), Merge(g.color, p.color))
  }

  /** The empty update `{}`. */
  const NoExpenseChange := ExpensePatch(None, None, None, None, None, None, None, None, None, None)

  /** An expense patch only moves the fields it supplies, an empty patch
      changes nothing, and applying a patch twice is applying it once. */
  lemma ExpensePatchLaws(e: Expense, p: ExpensePatch)
    ensures PatchExpense(e, NoExpenseChange) == e
    ensures PatchExpense(PatchExpense(e, p), p) == PatchExpense(e, p)
    ensures p.amount.None? ==> PatchExpense(e, p).amount == e.amount
    ensures p.date.None? ==> PatchExpense(e, p).date == e.date
    ensures p.categoryId.None? ==> PatchExpense(e, p).categoryId == e.categoryId
    ensures p.id.None? ==> PatchExpense(e, p).id == e.id
    ensures p.notes.None? ==> PatchExpense(e, p).notes == e.notes
    ensures p.isRecurring.None? ==> PatchExpense(e, p).isRecurring == e.isRecurring
    ensures p.recurringFrequency.None? ==> PatchExpense(e, p).recurringFrequency == e.recurringFrequency
    ensures p.isOneTime.None? ==> PatchExpense(e, p).isOneTime == e.isOneTime
    ensures p.isPlanned.None? ==> PatchExpense(e, p).isPlanned == e.isPlanned
    ensures p.receiptImage.None? ==> PatchExpense(e, p).receiptImage == e.receiptImage
  {
  }
}

=== FILE: expense_tracker.dfy ===
/** The expense and income tracker: both lists filtered by the chosen
    month (and, for expenses, the chosen category) and sorted, and the two
    dialogs. A frequency is saved only for a recurring record. */
module ExpenseTracker {
  import opened Wrappers
  import opened Text
  import opened Collections
  import opened Sorting
  import opened Entities
  import opened Ledger
  import opened Store

  datatype Tab = ExpensesTab | IncomeTab

  // -------------------------------------------------------------- filters

  /** The expense filters: the month key when a month is picked, the
      category when one is chosen. */
  predicate ExpenseShown(month: Option<string>, category: string, e: Expense) {
    (month.None? || StartsWith(e.date, month.value)) && (category == "" || e.categoryId == category)
  }

  function ExpenseFilter(month: Option<string>, category: string): Expense -> bool {
    (e: Expense) => ExpenseShown(month, category, e)
  }

  /** The income filter: the month only. */
  predicate IncomeShown(month: Option<string>, i: Income) {
    month.None? || StartsWith(i.date, month.value)
  }

  function IncomeFilter(month: Option<string>): Income -> bool {
    (i: Income) => IncomeShown(month, i)
  }

  function ListedExpenses(expenses: seq<Expense>, month: Option<string>, category: string, st: SortState): (r: seq<Expense>)
    ensures multiset(r) == multiset(Filter(expenses, ExpenseFilter(month, category)))
    ensures Sorted(st, ExpenseDate, ExpenseAmount, r)
    ensures forall i :: 0 <= i < |r| ==> r[i] in expenses && ExpenseShown(month, category, r[i])
    ensures forall i :: 0 <= i < |expenses| && ExpenseShown(month, category, expenses[i]) ==> expenses[i] in r
  {
    var shown := Filter(expenses, ExpenseFilter(month, category));
    var r := Sort(st, ExpenseDate, ExpenseAmount, shown);
    PermutationMembers(r, shown);
    FilterMembers(expenses, ExpenseFilter(month, category));
    r
  }

  function ListedIncomes(incomes: seq<Income>, month: Option<string>, st: SortState): (r: seq<Income>)
    ensures multiset(r) == multiset(Filter(incomes, IncomeFilter(month)))
    ensures Sorted(st, IncomeDate, IncomeAmount, r)
    ensures forall i :: 0 <= i < |r| ==> r[i] in incomes && IncomeShown(month, r[i])
    ensures forall i :: 0 <= i < |incomes| && IncomeShown(month, incomes[i]) ==> incomes[i] in r
  {
    var shown := Filter(incomes, IncomeFilter(month));
    var r := Sort(st, IncomeDate, IncomeAmount, shown);
    PermutationMembers(r, shown);
    FilterMembers(incomes, IncomeFilter(month));
    r
  }

  /** Without filters both lists hold every record; the category filter
      never hides an income. */
  lemma NoFiltersListAll(expenses: seq<Expense>, incomes: seq<Income>, category: string, st: SortState)
    ensures multiset(ListedExpenses(expenses, None, "", st)) == multiset(expenses)
    ensures multiset(ListedIncomes(incomes, None, st)) == multiset(incomes)
  {
    FilterKeepsAll(expenses, ExpenseFilter(None, ""));
    FilterKeepsAll(incomes, IncomeFilter(None));
  }

  /** Under the month filter alone, the listed expenses add up to that
      month's total. */
  lemma ListedMonthTotal(expenses: seq<Expense>, month: string, st: SortState)
    ensures ExpenseTotal(ListedExpenses(expenses, Some(month), "", st)) == MonthExpenseTotal(expenses, month)
  {
    var shown := Filter(expenses, ExpenseFilter(Some(month), ""));
    FilterSame(expenses, ExpenseFilter(Some(month), ""), ExpenseInMonth(month));
    SumByPermutation(ListedExpenses(expenses, Some(month), "", st), shown, ExpenseAmount);
  }

  // -------------------------------------------------------------- dialogs

  datatype ExpenseForm = ExpenseForm(
    amount: real, date: string, categoryId: string, notes: string, isRecurring: bool,
    recurringFrequency: Frequency, isOneTime: bool, isPlanned: bool)

  datatype IncomeForm = IncomeForm(
    amount: real, date: string, source: string, notes: string, isRecurring: bool,
    recurringFrequency: Frequency)

  /** `isRecurring ? frequency : undefined`. */
  function SavedFrequency(isRecurring: bool, f: Frequency): (r: Option<Frequency>)
    ensures r.Some? <==> isRecurring
    ensures r.Some? ==> r.value == f
  {
    if isRecurring then Some(f) else None
  }

  function ExpenseDraft(form: ExpenseForm): Expense {
    Expense("", form.amount, form.date, form.categoryId, Some(form.notes), form.isRecurring,
            SavedFrequency(form.isRecurring, form.recurringFrequency), form.isOneTime, form.isPlanned, None)
  }

  /** The update carries the frequency key even when it is `undefined`, so
      it clears a stored frequency; the receipt is left alone. */
  function ExpenseUpdate(form: ExpenseForm): ExpensePatch {
    ExpensePatch(None, Some(form.amount), Some(form.date), Some(form.categoryId), Some(Some(form.notes)),
                 Some(form.isRecurring), Some(SavedFrequency(form.isRecurring, form.recurringFrequency)),
                 Some(form.isOneTime), Some(form.isPlanned), None)
  }

  function IncomeDraft(form: IncomeForm): Income {
    Income("", form.amount, form.date, form.source, Some(form.notes), form.isRecurring,
           SavedFrequency(form.isRecurring, form.recurringFrequency))
  }

  function IncomeUpdate(form: IncomeForm): IncomePatch {
    IncomePatch(None, Some(form.amount), Some(form.date), Some(form.source), Some(Some(form.notes)),
                Some(form.isRecurring), Some(SavedFrequency(form.isRecurring, form.recurringFrequency)))
  }

  /** A recurring flag and a frequency that agree. */
  predicate FrequencyConsistent(isRecurring: bool, f: Option<Frequency>) {
    f.Some? <==> isRecurring
  }

  /** Save on the expense dialog: ignored without a positive amount or a
      category; an update of the edited expense when something is being
      edited on the expenses tab; an add otherwise (even with an income
      open for editing on the other tab). */
  function HandleAddExpense(s: AppState, form: ExpenseForm, editing: Option<string>, tab: Tab,
                            freshId: string, now: string): (r: AppState)
    ensures form.amount <= 0.0 || form.categoryId == "" ==> r == s
    ensures form.amount > 0.0 && form.categoryId != "" && !(editing.Some? && tab == ExpensesTab) ==>
      r.expenses == s.expenses + [ExpenseDraft(form).(id := freshId)]
    ensures form.amount > 0.0 && form.categoryId != "" && editing.Some? && tab == ExpensesTab ==>
      |r.expenses| == |s.expenses|
      && (forall i :: 0 <= i < |s.expenses| && s.expenses[i].id != editing.value ==> r.expenses[i] == s.expenses[i])
      && (forall i :: 0 <= i < |s.expenses| && s.expenses[i].id == editing.value ==>
            r.expenses[i] == s.expenses[i].(amount := form.amount, date := form.date,
              categoryId := form.categoryId, notes := Some(form.notes), isRecurring := form.isRecurring,
              recurringFrequency := SavedFrequency(form.isRecurring, form.recurringFrequency),
              isOneTime := form.isOneTime, isPlanned := form.isPlanned))
    ensures r.incomes == s.incomes
  {
    if form.amount <= 0.0 || form.categoryId == "" then s
    else if editing.Some? && tab == ExpensesTab then UpdateExpense(s, editing.value, ExpenseUpdate(form), now)
    else AddExpense(s, ExpenseDraft(form), freshId, now)
  }

  /** Save on the income dialog: ignored without a positive amount or a
      source; otherwise the same update-or-add choice on the income tab. */
  function HandleAddIncome(s: AppState, form: IncomeForm, editing: Option<string>, tab: Tab,
                           freshId: string, now: string): (r: AppState)
    ensures form.amount <= 0.0 || form.source == "" ==> r == s
    ensures form.amount > 0.0 && form.source != "" && !(editing.Some? && tab == IncomeTab) ==>
      r.incomes == s.incomes + [IncomeDraft(form).(id := freshId)]
    ensures form.amount > 0.0 && form.source != "" && editing.Some? && tab == IncomeTab ==>
      |r.incomes| == |s.incomes|
      && (forall i :: 0 <= i < |s.incomes| && s.incomes[i].id != editing.value ==> r.incomes[i] == s.incomes[i])
      && (forall i :: 0 <= i < |s.incomes| && s.incomes[i].id == editing.value ==>
            r.incomes[i] == s.incomes[i].(amount := form.amount, date := form.date, source := form.source,
              notes := Some(form.notes), isRecurring := form.isRecurring,
              recurringFrequency := SavedFrequency(form.isRecurring, form.recurringFrequency)))
    ensures r.expenses == s.expenses && r.budgets == s.budgets
  {
    if form.amount <= 0.0 || form.source == "" then s
    else if editing.Some? && tab == IncomeTab then UpdateIncome(s, editing.value, IncomeUpdate(form), now)
    else AddIncome(s, IncomeDraft(form), freshId, now)
  }

  /** The expense the dialog adds carries a frequency exactly when it is
      recurring. */
  lemma AddedExpenseFrequency(s: AppState, form: ExpenseForm, editing: Option<string>, tab: Tab,
                              freshId: string, now: string)
    ensures var r := HandleAddExpense(s, form, editing, tab, freshId, now);
      forall i :: |s.expenses| <= i < |r.expenses| ==>
        FrequencyConsistent(r.expenses[i].isRecurring, r.expenses[i].recurringFrequency)
  {
    var r := HandleAddExpense(s, form, editing, tab, freshId, now);
    if form.amount > 0.0 && form.categoryId != "" && !(editing.Some? && tab == ExpensesTab) {
      assert r.expenses == s.expenses + [ExpenseDraft(form).(id := freshId)];
    }
  }

  /** The expense the dialog updates carries a frequency exactly when it is
      recurring afterwards, even if it had one before. */
  lemma EditedExpenseFrequency(s: AppState, form: ExpenseForm, editing: Option<string>, tab: Tab,
                               freshId: string, now: string)
    requires form.amount > 0.0 && form.categoryId != "" && editing.Some? && tab == ExpensesTab
    ensures var r := HandleAddExpense(s, form, editing, tab, freshId, now);
      forall i :: 0 <= i < |s.expenses| && s.expenses[i].id == editing.value ==>
        FrequencyConsistent(r.expenses[i].isRecurring, r.expenses[i].recurringFrequency)
  {
    var r := HandleAddExpense(s, form, editing, tab, freshId, now);
    var u := UpdateExpense(s, editing.value, ExpenseUpdate(form), now);
    assert r.expenses == u.expenses;
    forall i | 0 <= i < |s.expenses| && s.expenses[i].id == editing.value
      ensures FrequencyConsistent(r.expenses[i].isRecurring, r.expenses[i].recurringFrequency)
    {
      assert r.expenses[i] == PatchExpense(s.expenses[i], ExpenseUpdate(form));
    }
  }

  /** The income the dialog adds carries a frequency exactly when it is
      recurring. */
  lemma AddedIncomeFrequency(s: AppState, form: IncomeForm, editing: Option<string>, tab: Tab,
                             freshId: string, now: string)
    ensures var r := HandleAddIncome(s, form, editing, tab, freshId, now);
      forall i :: |s.incomes| <= i < |r.incomes| ==>
        FrequencyConsistent(r.incomes[i].isRecurring, r.incomes[i].recurringFrequency)
  {
    var r := HandleAddIncome(s, form, editing, tab, freshId, now);
    if form.amount > 0.0 && form.source != "" && !(editing.Some? && tab == IncomeTab) {
      assert r.incomes == s.incomes + [IncomeDraft(form).(id := freshId)];
    }
  }

  /** The income the dialog updates carries a frequency exactly when it is
      recurring afterwards. */
  lemma EditedIncomeFrequency(s: AppState, form: IncomeForm, editing: Option<string>, tab: Tab,
                              freshId: string, now: string)
    requires form.amount > 0.0 && form.source != "" && editing.Some? && tab == IncomeTab
    ensures var r := HandleAddIncome(s, form, editing, tab, freshId, now);
      forall i :: 0 <= i < |s.incomes| && s.incomes[i].id == editing.value ==>
        FrequencyConsistent(r.incomes[i].isRecurring, r.incomes[i].recurringFrequency)
  {
    var r := HandleAddIncome(s, form, editing, tab, freshId, now);
    var u := UpdateIncome(s, editing.value, IncomeUpdate(form), now);
    assert r.incomes == u.incomes;
    forall i | 0 <= i < |s.incomes| && s.incomes[i].id == editing.value
      ensures FrequencyConsistent(r.incomes[i].isRecurring, r.incomes[i].recurringFrequency)
    {
      assert r.incomes[i] == PatchIncome(s.incomes[i], IncomeUpdate(form));
    }
  }
}

=== FILE: ledger.dfy ===
/** Month-scoped and lifetime aggregates over the store's records: the
    filter-and-sum code the store's score and every page repeat. A record
    belongs to month "YYYY-MM" when its date string starts with that key. */
module Ledger {
  import opened Wrappers
  import opened Text
  import opened Collections
  import opened Entities

  /** The month key of a stored date: its first seven characters, the
      "YYYY-MM" part. The app takes `new Date(date).toISOString()` first;
      on a `YYYY-MM-DD` date or a UTC (`...Z`) timestamp the two agree, and
      the re-parse through `Date` is not modelled. */
  function MonthKeyOf(date: string): (r: string)
    ensures 7 <= |date| ==> |r| == 7 && StartsWith(date, r)
    ensures |date| < 7 ==> r == date
  {
    Substring(date, 0, 7)
  }

  function ExpenseAmount(e: Expense): real { e.amount }
  function IncomeAmount(i: Income): real { i.amount }
  function ExpenseCategory(e: Expense): string { e.categoryId }
  function ExpenseDate(e: Expense): string { e.date }
  function IncomeDate(i: Income): string { i.date }
  function BudgetAmount(b: Budget): real { b.amount }
  function BudgetSpent(b: Budget): real { b.spent }
  function GoalCurrentAmount(g: SavingsGoal): real { g.currentAmount }

  function ExpenseInMonth(month: string): Expense -> bool {
    (e: Expense) => StartsWith(e.date, month)
  }

  function IncomeInMonth(month: string): Income -> bool {
    (i: Income) => StartsWith(i.date, month)
  }

  function BudgetOfMonth(month: string): Budget -> bool {
    (b: Budget) => b.month == month
  }

  /** `expenses.filter(e => e.date.startsWith(month))`. */
  function ExpensesIn(xs: seq<Expense>, month: string): (r: seq<Expense>)
    ensures forall i :: 0 <= i < |r| ==> r[i] in xs && StartsWith(r[i].date, month)
    ensures forall i :: 0 <= i < |xs| && StartsWith(xs[i].date, month) ==> xs[i] in r
  {
    Filter(xs, ExpenseInMonth(month))
  }

  /** `incomes.filter(i => i.date.startsWith(month))`. */
  function IncomesIn(xs: seq<Income>, month: string): (r: seq<Income>)
    ensures forall i :: 0 <= i < |r| ==> r[i] in xs && StartsWith(r[i].date, month)
    ensures forall i :: 0 <= i < |xs| && StartsWith(xs[i].date, month) ==> xs[i] in r
  {
    Filter(xs, IncomeInMonth(month))
  }

  /** `budgets.filter(b => b.month === month)`. */
  function BudgetsFor(xs: seq<Budget>, month: string): (r: seq<Budget>)
    ensures forall i :: 0 <= i < |r| ==> r[i] in xs && r[i].month == month
    ensures forall i :: 0 <= i < |xs| && xs[i].month == month ==> xs[i] in r
  {
    Filter(xs, BudgetOfMonth(month))
  }

  function ExpenseTotal(xs: seq<Expense>): real { SumBy(xs, ExpenseAmount) }
  function IncomeTotal(xs: seq<Income>): real { SumBy(xs, IncomeAmount) }

  function MonthExpenseTotal(xs: seq<Expense>, month: string): real {
    ExpenseTotal(ExpensesIn(xs, month))
  }

  function MonthIncomeTotal(xs: seq<Income>, month: string): real {
    IncomeTotal(IncomesIn(xs, month))
  }

  /** The spend of one category in one month, from the expenses themselves. */
  function CategoryMonthSpend(xs: seq<Expense>, categoryId: string, month: string): real {
    GroupSum(ExpensesIn(xs, month), ExpenseCategory, categoryId, ExpenseAmount)
  }

  function HasId(id: string): Category -> bool {
    (c: Category) => c.id == id
  }

  /** `categories.find(c => c.id === id)`: the first category with the id. */
  function FindCategory(categories: seq<Category>, id: string): (r: Option<Category>)
    ensures r.Some? ==> r.value in categories && r.value.id == id
    ensures r.None? <==> forall i :: 0 <= i < |categories| ==> categories[i].id != id
  {
    match Find(categories, HasId(id))
    case None => None
    case Some(k) => Some(categories[k])
  }

  // ---------------------------------------------------------------- lemmas

  /** A new expense moves the month total of its own month only. */
  lemma MonthExpenseTotalSnoc(xs: seq<Expense>, e: Expense, month: string)
    ensures MonthExpenseTotal(xs + [e], month)
         == MonthExpenseTotal(xs, month) + (if StartsWith(e.date, month) then e.amount else 0.0)
  {
    FilterAppend(xs, [e], ExpenseInMonth(month));
    SumByAppend(ExpensesIn(xs, month), ExpensesIn([e], month), ExpenseAmount);
    assert [e][..0] == [];
  }

  /** A new income moves the month total of its own month only. */
  lemma MonthIncomeTotalSnoc(xs: seq<Income>, i: Income, month: string)
    ensures MonthIncomeTotal(xs + [i], month)
         == MonthIncomeTotal(xs, month) + (if StartsWith(i.date, month) then i.amount else 0.0)
  {
    FilterAppend(xs, [i], IncomeInMonth(month));
    SumByAppend(IncomesIn(xs, month), IncomesIn([i], month), IncomeAmount);
    assert [i][..0] == [];
  }

  /** Lifetime totals are additive. */
  lemma ExpenseTotalSnoc(xs: seq<Expense>, e: Expense)
    ensures ExpenseTotal(xs + [e]) == ExpenseTotal(xs) + e.amount
  {
    assert (xs + [e])[..|xs|] == xs;
  }

  lemma IncomeTotalSnoc(xs: seq<Income>, i: Income)
    ensures IncomeTotal(xs + [i]) == IncomeTotal(xs) + i.amount
  {
    assert (xs + [i])[..|xs|] == xs;
  }
}

=== FILE: numeric.dfy ===
/** The JavaScript number operations the ledger relies on, over exact reals. */
module Numeric {

  /** `Math.round`: the nearest integer, with halves rounded towards +infinity. */
  function Round(x: real): (r: int)
    ensures r as real <= x + 0.5 < r as real + 1.0
  {
    (x + 0.5).Floor
  }

  /** `Math.ceil`: the least integer not below `x`. */
  function Ceil(x: real): (r: int)
    ensures x <= r as real < x + 1.0
  {
    -((-x).Floor)
  }

  /** `Math.min` of two numbers. */
  function Min(a: real, b: real): (r: real)
    ensures r <= a && r <= b
    ensures r == a || r == b
  {
    if a <= b then a else b
  }

  /** `Math.max` of two numbers. */
  function Max(a: real, b: real): (r: real)
    ensures a <= r && b <= r
    ensures r == a || r == b
  {
    if a <= b then b else a
  }

  /** A positive factor keeps the sign of the other. */
  lemma PositiveProduct(a: real, b: real)
    requires b > 0.0
    ensures a > 0.0 <==> a * b > 0.0
  {
  }

  lemma RoundMonotonic(x: real, y: real)
    requires x <= y
    ensures Round(x) <= Round(y)
  {
  }

  lemma RoundOfInteger(n: int)
    ensures Round(n as real) == n
  {
  }
}

=== FILE: one_time_expenses.dfy ===
/** The one-time expenses page: the filtered and sorted list, planned
    against unplanned totals, the per-category chart with its closing
    "Total" row, and the add/edit dialog, which always saves a one-time,
    non-recurring expense. */
module OneTimeExpenses {
  import opened Wrappers
  import opened Collections
  import opened Sorting
  import opened Entities
  import opened Ledger
  import opened Store

  predicate IsOneTime(e: Expense) { e.isOneTime }
  predicate IsPlanned(e: Expense) { e.isPlanned }
  predicate IsUnplanned(e: Expense) { !e.isPlanned }

  /** The list's filters: planned-or-not when chosen, the category when chosen. */
  predicate PassesFilters(planned: Option<bool>, category: string, e: Expense) {
    (planned.None? || e.isPlanned == planned.value) && (category == "" || e.categoryId == category)
  }

  function Passes(planned: Option<bool>, category: string): Expense -> bool {
    (e: Expense) => PassesFilters(planned, category, e)
  }

  function OneTime(expenses: seq<Expense>): seq<Expense> {
    Filter(expenses, IsOneTime)
  }

  /** The one-time expenses passing the filters, in stored order. */
  function Shown(expenses: seq<Expense>, planned: Option<bool>, category: string): (r: seq<Expense>)
    ensures forall x :: x in r <==> x in expenses && x.isOneTime && PassesFilters(planned, category, x)
  {
    FilterMembers(OneTime(expenses), Passes(planned, category));
    FilterMembers(expenses, IsOneTime);
    Filter(OneTime(expenses), Passes(planned, category))
  }

  /** The listed records: the one-time expenses passing the filters, sorted. */
  function Listed(expenses: seq<Expense>, planned: Option<bool>, category: string, st: SortState): (r: seq<Expense>)
    ensures multiset(r) == multiset(Filter(OneTime(expenses), Passes(planned, category)))
    ensures Sorted(st, ExpenseDate, ExpenseAmount, r)
    ensures forall i :: 0 <= i < |r| ==>
      r[i] in expenses && r[i].isOneTime && PassesFilters(planned, category, r[i])
    ensures forall i :: 0 <= i < |expenses| && expenses[i].isOneTime && PassesFilters(planned, category, expenses[i]) ==>
      expenses[i] in r
  {
    var shown := Shown(expenses, planned, category);
    var r := Sort(st, ExpenseDate, ExpenseAmount, shown);
    PermutationMembers(r, shown);
    r
  }

  /** With no filters every one-time expense is listed. */
  lemma NoFiltersListsAll(expenses: seq<Expense>, st: SortState)
    ensures multiset(Listed(expenses, None, "", st)) == multiset(OneTime(expenses))
  {
    FilterKeepsAll(OneTime(expenses), Passes(None, ""));
  }

  // --------------------------------------------------------------- totals

  function PlannedTotal(expenses: seq<Expense>): real {
    ExpenseTotal(Filter(OneTime(expenses), IsPlanned))
  }

  function UnplannedTotal(expenses: seq<Expense>): real {
    ExpenseTotal(Filter(OneTime(expenses), IsUnplanned))
  }

  /** Planned and unplanned together are all the one-time spending. */
  lemma PlannedPlusUnplanned(expenses: seq<Expense>)
    ensures PlannedTotal(expenses) + UnplannedTotal(expenses) == ExpenseTotal(OneTime(expenses))
  {
    SumFilterSplit(OneTime(expenses), IsPlanned, IsUnplanned, ExpenseAmount);
  }

  function PlannedPart(e: Expense): real { if e.isPlanned then e.amount else 0.0 }
  function UnplannedPart(e: Expense): real { if e.isPlanned then 0.0 else e.amount }

  /** One bar of the chart. */
  datatype ChartRow = ChartRow(name: string, planned: real, unplanned: real)

  function RowPlanned(row: ChartRow): real { row.planned }
  function RowUnplanned(row: ChartRow): real { row.unplanned }

  function CategoryRow(categories: seq<Category>, oneTime: seq<Expense>, categoryId: string): (row: ChartRow)
    ensures row.planned == GroupSum(oneTime, ExpenseCategory, categoryId, PlannedPart)
    ensures row.unplanned == GroupSum(oneTime, ExpenseCategory, categoryId, UnplannedPart)
    ensures FindCategory(categories, categoryId).None? ==> row.name == "Other"
    ensures FindCategory(categories, categoryId).Some? ==> row.name == FindCategory(categories, categoryId).value.name
  {
    var name := match FindCategory(categories, categoryId)
      case None => "Other"
      case Some(c) => c.name;
    ChartRow(name, GroupSum(oneTime, ExpenseCategory, categoryId, PlannedPart),
             GroupSum(oneTime, ExpenseCategory, categoryId, UnplannedPart))
  }

  function CategoryRows(categories: seq<Category>, oneTime: seq<Expense>, keys: seq<string>): (rows: seq<ChartRow>)
    ensures |rows| == |keys|
    ensures forall i :: 0 <= i < |keys| ==> rows[i] == CategoryRow(categories, oneTime, keys[i])
    decreases |keys|
  {
    if |keys| == 0 then []
    else CategoryRows(categories, oneTime, keys[..|keys| - 1]) + [CategoryRow(categories, oneTime, keys[|keys| - 1])]
  }

  /** The chart: one row per category id among the one-time expenses, then
      the "Total" row. The rows follow the ids' first occurrence, where
      `Object.entries` would put integer-like ids first in numeric order. */
  function Chart(expenses: seq<Expense>, categories: seq<Category>): (rows: seq<ChartRow>)
    ensures |rows| == |GroupKeys(OneTime(expenses), ExpenseCategory)| + 1
    ensures forall i :: 0 <= i < |rows| - 1 ==>
      rows[i] == CategoryRow(categories, OneTime(expenses), GroupKeys(OneTime(expenses), ExpenseCategory)[i])
    ensures rows[|rows| - 1] == ChartRow("Total", PlannedTotal(expenses), UnplannedTotal(expenses))
  {
    var oneTime := OneTime(expenses);
    CategoryRows(categories, oneTime, GroupKeys(oneTime, ExpenseCategory))
      + [ChartRow("Total", PlannedTotal(expenses), UnplannedTotal(expenses))]
  }

  lemma {:induction false} CategoryRowsAsGroups(categories: seq<Category>, oneTime: seq<Expense>, keys: seq<string>)
    ensures SumBy(CategoryRows(categories, oneTime, keys), RowPlanned)
         == SumGroups(keys, oneTime, ExpenseCategory, PlannedPart)
    ensures SumBy(CategoryRows(categories, oneTime, keys), RowUnplanned)
         == SumGroups(keys, oneTime, ExpenseCategory, UnplannedPart)
    decreases |keys|
  {
    if |keys| > 0 {
      var rows := CategoryRows(categories, oneTime, keys);
      assert rows[..|rows| - 1] == CategoryRows(categories, oneTime, keys[..|keys| - 1]);
      CategoryRowsAsGroups(categories, oneTime, keys[..|keys| - 1]);
    }
  }

  /** Summed over the category rows, the planned and unplanned columns give
      the two totals the "Total" row shows. */
  lemma ChartColumnsAddUp(expenses: seq<Expense>, categories: seq<Category>)
    ensures var rows := Chart(expenses, categories);
      SumBy(rows[..|rows| - 1], RowPlanned) == rows[|rows| - 1].planned
      && SumBy(rows[..|rows| - 1], RowUnplanned) == rows[|rows| - 1].unplanned
  {
    var oneTime := OneTime(expenses);
    var keys := GroupKeys(oneTime, ExpenseCategory);
    var rows := Chart(expenses, categories);
    assert rows[..|rows| - 1] == CategoryRows(categories, oneTime, keys);
    CategoryRowsAsGroups(categories, oneTime, keys);
    GroupTotalsAddUp(oneTime, ExpenseCategory, PlannedPart);
    GroupTotalsAddUp(oneTime, ExpenseCategory, UnplannedPart);
    SumFilter(oneTime, IsPlanned, ExpenseAmount, PlannedPart);
    SumFilter(oneTime, IsUnplanned, ExpenseAmount, UnplannedPart);
  }

  // --------------------------------------------------------------- dialog

  datatype OneTimeForm = OneTimeForm(
    amount: real, date: string, categoryId: string, notes: string, isPlanned: bool, receiptImage: string)

  /** The record the dialog adds: one-time, not recurring, no frequency. */
  function DraftOf(form: OneTimeForm): Expense {
    Expense("", form.amount, form.date, form.categoryId, Some(form.notes), false, None, true,
            form.isPlanned, Some(form.receiptImage))
  }

  /** The update the dialog sends: every form field, the two flags, and no frequency key. */
  function PatchOf(form: OneTimeForm): ExpensePatch {
    ExpensePatch(None, Some(form.amount), Some(form.date), Some(form.categoryId), Some(Some(form.notes)),
                 Some(false), None, Some(true), Some(form.isPlanned), Some(Some(form.receiptImage)))
  }

  /** Save: ignored without a positive amount or a category; otherwise the
      edited expense is updated, or a new one added. Either way the saved
      record is one-time and not recurring. */
  function HandleSave(s: AppState, form: OneTimeForm, editing: Option<string>, freshId: string, now: string): (r: AppState)
    ensures form.amount <= 0.0 || form.categoryId == "" ==> r == s
    ensures form.amount > 0.0 && form.categoryId != "" && editing.None? ==>
      r.expenses == s.expenses + [Expense(freshId, form.amount, form.date, form.categoryId, Some(form.notes),
                                          false, None, true, form.isPlanned, Some(form.receiptImage))]
    ensures form.amount > 0.0 && form.categoryId != "" && editing.Some? ==>
      |r.expenses| == |s.expenses|
      && (forall i :: 0 <= i < |s.expenses| && s.expenses[i].id == editing.value ==>
            r.expenses[i] == s.expenses[i].(amount := form.amount, date := form.date,
              categoryId := form.categoryId, notes := Some(form.notes), isRecurring := false,
              isOneTime := true, isPlanned := form.isPlanned, receiptImage := Some(form.receiptImage)))
      && (forall i :: 0 <= i < |s.expenses| && s.expenses[i].id != editing.value ==> r.expenses[i] == s.expenses[i])
  {
    if form.amount <= 0.0 || form.categoryId == "" then s
    else if editing.Some? then
      UpdateExpense(s, editing.value, PatchOf(form), now)
    else
      AddExpense(s, DraftOf(form), freshId, now)
  }

  /** A newly added expense shows up in the unfiltered list. */
  lemma AddedIsListed(s: AppState, form: OneTimeForm, freshId: string, now: string, st: SortState)
    requires form.amount > 0.0 && form.categoryId != ""
    ensures HandleSave(s, form, None, freshId, now).expenses[|s.expenses|]
            in Listed(HandleSave(s, form, None, freshId, now).expenses, None, "", st)
  {
    var r := HandleSave(s, form, None, freshId, now);
    assert r.expenses[|s.expenses|].isOneTime;
  }
}

=== FILE: savings_goals.dfy ===
/** The savings-goals page. It keeps its own list of goals, separate from
    the store's, with numeric ids and a goal category of its own. */
module SavingsGoals {
  import opened Wrappers
  import opened Numeric
  import opened Collections

  // ----------------------------------------------------------- categories

  datatype GoalCategory = GoalCategory(id: string, name: string, icon: string, color: string)

  const GoalCategories: seq<GoalCategory> := [
    GoalCategory("emergency", "Emergency Fund", "\U{1F6E1}\U{FE0F}", "bg-red-100 text-red-800"),
    GoalCategory("vacation", "Vacation", "\U{1F3D6}\U{FE0F}", "bg-blue-100 text-blue-800"),
    GoalCategory("car", "Car", "\U{1F697}", "bg-green-100 text-green-800"),
    GoalCategory("home", "Home", "\U{1F3E0}", "bg-purple-100 text-purple-800"),
    GoalCategory("wedding", "Wedding", "\U{1F492}", "bg-pink-100 text-pink-800"),
    GoalCategory("education", "Education", "\U{1F4DA}", "bg-yellow-100 text-yellow-800"),
    GoalCategory("business", "Business", "\U{1F4BC}", "bg-indigo-100 text-indigo-800"),
    GoalCategory("other", "Other", "\U{1F3AF}", "bg-gray-100 text-gray-800")
  ]

  function CategoryHasId(id: string): GoalCategory -> bool {
    (c: GoalCategory) => c.id == id
  }

  /** The first category with that id, or the last category when none has it. */
  function FindOrLast(categories: seq<GoalCategory>, id: string): (r: GoalCategory)
    requires |categories| > 0
    ensures r in categories
    ensures (exists i :: 0 <= i < |categories| && categories[i].id == id) ==> r.id == id
    ensures (forall i :: 0 <= i < |categories| ==> categories[i].id != id) ==> r == categories[|categories| - 1]
  {
    match Find(categories, CategoryHasId(id))
    case Some(i) => categories[i]
    case None => categories[|categories| - 1]
  }

  /** The category with that id, or the last one ("other") when none has it. */
  function GetCategoryInfo(id: string): (r: GoalCategory)
    ensures r in GoalCategories
    ensures (exists i :: 0 <= i < |GoalCategories| && GoalCategories[i].id == id) ==> r.id == id
    ensures (forall i :: 0 <= i < |GoalCategories| ==> GoalCategories[i].id != id) ==> r.id == "other"
  {
    var other := GoalCategories[|GoalCategories| - 1];
    assert other.id == "other";
    FindOrLast(GoalCategories, id)
  }

  // ------------------------------------------------------------- numbers

  /** A JavaScript number as far as this page can produce one: a division
      by a zero target gives an infinity or NaN. */
  datatype Number = Finite(value: real) | PositiveInfinity | NegativeInfinity | NotANumber

  /** `current / target` under JavaScript division. */
  function Divide(current: real, target: real): (r: Number)
    ensures target != 0.0 ==> r == Finite(current / target)
    ensures target == 0.0 ==> (r == PositiveInfinity <==> current > 0.0)
    ensures target == 0.0 ==> (r == NegativeInfinity <==> current < 0.0)
    ensures target == 0.0 ==> (r == NotANumber <==> current == 0.0)
  {
    if target != 0.0 then Finite(current / target)
    else if current > 0.0 then PositiveInfinity
    else if current < 0.0 then NegativeInfinity
    else NotANumber
  }

  /** `Math.min(x * 100, 100)`: NaN stays NaN, the infinities are
      clamped or kept. */
  function ProgressOf(x: Number): (r: Number)
    ensures r.Finite? ==> r.value <= 100.0
    ensures r == NotANumber <==> x == NotANumber
    ensures r == NegativeInfinity <==> x == NegativeInfinity
  {
    match x
    case Finite(v) => Finite(Min(v * 100.0, 100.0))
    case PositiveInfinity => Finite(100.0)
    case NegativeInfinity => NegativeInfinity
    case NotANumber => NotANumber
  }

  /** The progress bar value: the percentage saved, capped at 100. */
  function CalculateProgress(current: real, target: real): (r: Number)
    ensures r.Finite? ==> r.value <= 100.0
    ensures target != 0.0 ==> r.Finite?
    ensures target != 0.0 && r.value < 100.0 ==> r.value * target == current * 100.0
    ensures target > 0.0 ==> (r == Finite(100.0) <==> current >= target)
    ensures target == 0.0 && current == 0.0 ==> r == NotANumber
  {
    var r := ProgressOf(Divide(current, target));
    if target > 0.0 then
      assert current >= target <==> current / target >= 1.0 by {
        PositiveScale(current / target, target);
      }
      r
    else r
  }

  /** Dividing by and multiplying with a positive number. */
  lemma PositiveScale(q: real, t: real)
    requires t > 0.0
    ensures q * t >= t <==> q >= 1.0
  {
    if q >= 1.0 {
      assert q * t - t == (q - 1.0) * t;
    } else {
      assert t - q * t == (1.0 - q) * t;
    }
  }

  /** More saved never shows less progress. */
  lemma ProgressMonotonic(c1: real, c2: real, target: real)
    requires target > 0.0 && c1 <= c2
    ensures CalculateProgress(c1, target).value <= CalculateProgress(c2, target).value
  {
    assert c1 / target <= c2 / target by {
      assert c2 / target - c1 / target == (c2 - c1) / target;
    }
  }

  /** Months still needed: unbounded without a contribution. */
  datatype MonthsToGoal = Infinity | Months(count: int)

  /** The least whole number of months whose contributions cover what is
      still missing. */
  function CalculateMonthsToGoal(current: real, target: real, monthly: real): (r: MonthsToGoal)
    ensures r == Infinity <==> monthly <= 0.0
    ensures r.Months? ==> r.count as real * monthly >= target - current
    ensures r.Months? ==> (r.count - 1) as real * monthly < target - current
  {
    if monthly <= 0.0 then Infinity
    else
      var n := Ceil((target - current) / monthly);
      CeilCovers(target - current, monthly);
      Months(n)
  }

  /** `ceil(d / m)` months of `m` cover `d`, one fewer does not. */
  lemma CeilCovers(d: real, m: real)
    requires m > 0.0
    ensures Ceil(d / m) as real * m >= d
    ensures (Ceil(d / m) - 1) as real * m < d
  {
    var q := d / m;
    var n := Ceil(q);
    assert q * m == d;
    assert n as real * m - d == (n as real - q) * m;
    assert d - (n - 1) as real * m == (q - (n - 1) as real) * m;
    assert q - (n - 1) as real > 0.0;
    PositiveProduct(q - (n - 1) as real, m);
    assert (q - (n - 1) as real) * m > 0.0;
    assert (n - 1) as real * m < d;
  }

  /** No fewer months reach the goal. */
  lemma MonthsToGoalIsLeast(current: real, target: real, monthly: real, k: int)
    requires monthly > 0.0
    requires k as real * monthly >= target - current
    ensures CalculateMonthsToGoal(current, target, monthly).count <= k
  {
    var m := CalculateMonthsToGoal(current, target, monthly);
    assert m.Months?;
    var n := m.count;
    var gap := (k - (n - 1)) as real;
    var reached, short := k as real * monthly, (n - 1) as real * monthly;
    assert short < target - current <= reached;
    assert gap * monthly == reached - short;
    PositiveProduct(gap, monthly);
  }

  /** What the card says under the progress bar. */
  datatype MonthsLabel = NoMonthlyContribution | LessThanOneMonth | MonthsToGo(count: int)

  function MonthsLabelOf(m: MonthsToGoal): (r: MonthsLabel)
    ensures r == NoMonthlyContribution <==> m == Infinity
    ensures r == LessThanOneMonth <==> m.Months? && m.count <= 1
    ensures r.MonthsToGo? ==> m == Months(r.count) && r.count > 1
  {
    match m
    case Infinity => NoMonthlyContribution
    case Months(n) => if n <= 1 then LessThanOneMonth else MonthsToGo(n)
  }

  /** The projected completion, as the number of months to add to the start
      date; absent exactly when no money goes in each month. */
  function ProjectedOffset(current: real, target: real, monthly: real): (r: Option<int>)
    ensures r.None? <==> CalculateMonthsToGoal(current, target, monthly) == Infinity
    ensures r.None? <==> monthly <= 0.0
  {
    match CalculateMonthsToGoal(current, target, monthly)
    case Infinity => None
    case Months(n) => Some(n)
  }

  // ---------------------------------------------------------------- goals

  datatype Goal = Goal(
    id: int, name: string, category: string, targetAmount: real, currentAmount: real,
    monthlyContribution: real, startDate: string, targetDate: string, priority: string)

  function GoalId(g: Goal): int { g.id }
  function GoalTarget(g: Goal): real { g.targetAmount }
  function GoalCurrent(g: Goal): real { g.currentAmount }
  function GoalMonthly(g: Goal): real { g.monthlyContribution }

  const InitialGoals: seq<Goal> := [
    Goal(1, "Emergency Fund", "emergency", 10000.0, 6500.0, 500.0, "2024-01-01", "2024-12-31", "high"),
    Goal(2, "Hawaii Vacation", "vacation", 5000.0, 1800.0, 300.0, "2024-01-01", "2024-08-15", "medium"),
    Goal(3, "New Car Down Payment", "car", 15000.0, 8500.0, 800.0, "2023-06-01", "2024-06-01", "high")
  ]

  function TotalSavingsGoals(goals: seq<Goal>): real { SumBy(goals, GoalTarget) }
  function TotalCurrentSavings(goals: seq<Goal>): real { SumBy(goals, GoalCurrent) }
  function TotalMonthlyContributions(goals: seq<Goal>): real { SumBy(goals, GoalMonthly) }

  /** The summary cards over the demo goals, and what their cards show. */
  lemma InitialGoalsSummary()
    ensures TotalSavingsGoals(InitialGoals) == 30000.0
    ensures TotalCurrentSavings(InitialGoals) == 16800.0
    ensures TotalMonthlyContributions(InitialGoals) == 1600.0
    ensures CalculateMonthsToGoal(6500.0, 10000.0, 500.0) == Months(7)
    ensures CalculateProgress(1800.0, 5000.0) == Finite(36.0)
  {
    var g := InitialGoals;
    assert g[..2][..1] == g[..1] && g[..1][..0] == [];
    assert SumBy(g[..1], GoalTarget) == 10000.0 && SumBy(g[..1], GoalCurrent) == 6500.0
        && SumBy(g[..1], GoalMonthly) == 500.0;
    assert SumBy(g[..2], GoalTarget) == 15000.0 && SumBy(g[..2], GoalCurrent) == 8300.0
        && SumBy(g[..2], GoalMonthly) == 800.0;
    assert Ceil(3500.0 / 500.0) == 7;
  }

  /** The add dialog: text fields as typed, plus the numbers the page
      parses from the two amount fields. */
  datatype GoalForm = GoalForm(
    name: string, category: string, targetAmount: string, monthlyContribution: string,
    targetDate: Option<string>, priority: string)

  /** Create: ignored when any of the four required fields is empty;
      otherwise one new goal with nothing saved yet, starting today, due on
      the picked date or a year from today. */
  function HandleAddGoal(goals: seq<Goal>, form: GoalForm, target: real, monthly: real,
                         newId: int, today: string, inAYear: string): (r: seq<Goal>)
    ensures form.name == "" || form.category == "" || form.targetAmount == "" || form.monthlyContribution == "" ==> r == goals
    ensures form.name != "" && form.category != "" && form.targetAmount != "" && form.monthlyContribution != "" ==>
      |r| == |goals| + 1 && r[..|goals|] == goals
      && r[|goals|].id == newId && r[|goals|].name == form.name && r[|goals|].category == form.category
      && r[|goals|].currentAmount == 0.0 && r[|goals|].targetAmount == target
      && r[|goals|].monthlyContribution == monthly && r[|goals|].startDate == today
      && r[|goals|].targetDate == (if form.targetDate.Some? then form.targetDate.value else inAYear)
      && r[|goals|].priority == form.priority
  {
    if form.name == "" || form.category == "" || form.targetAmount == "" || form.monthlyContribution == "" then goals
    else
      var goal := Goal(newId, form.name, form.category, target, 0.0, monthly, today,
                       form.targetDate.GetOr(inAYear), form.priority);
      var r := goals + [goal];
      assert r[..|goals|] == goals;
      r
  }

  /** Delete: every goal with that id goes, every other goal stays. */
  function HandleDeleteGoal(goals: seq<Goal>, id: int): (r: seq<Goal>)
    ensures forall i :: 0 <= i < |r| ==> r[i].id != id && r[i] in goals
    ensures forall i :: 0 <= i < |goals| && goals[i].id != id ==> goals[i] in r
  {
    RemoveKey(goals, GoalId, id)
  }

  /** Adding a goal grows the target and monthly totals by its amounts and
      leaves the saved total alone. */
  lemma AddGoalTotals(goals: seq<Goal>, form: GoalForm, target: real, monthly: real,
                      newId: int, today: string, inAYear: string)
    requires form.name != "" && form.category != "" && form.targetAmount != "" && form.monthlyContribution != ""
    ensures var r := HandleAddGoal(goals, form, target, monthly, newId, today, inAYear);
      TotalSavingsGoals(r) == TotalSavingsGoals(goals) + target
      && TotalCurrentSavings(r) == TotalCurrentSavings(goals)
      && TotalMonthlyContributions(r) == TotalMonthlyContributions(goals) + monthly
  {
    var r := HandleAddGoal(goals, form, target, monthly, newId, today, inAYear);
    assert r == goals + [r[|goals|]];
  }

  /** Deleting a goal just added with an unused id gives the list back. */
  lemma DeleteUndoesAddGoal(goals: seq<Goal>, form: GoalForm, target: real, monthly: real,
                            newId: int, today: string, inAYear: string)
    requires newId !in KeysOf(goals, GoalId)
    ensures HandleDeleteGoal(HandleAddGoal(goals, form, target, monthly, newId, today, inAYear), newId) == goals
  {
    var r := HandleAddGoal(goals, form, target, monthly, newId, today, inAYear);
    if r != goals {
      assert r == goals + [r[|goals|]];
      RemoveUndoesAppend(goals, r[|goals|], GoalId);
    }
  }
}

=== FILE: savings_overview.dfy ===
/** The savings page: twelve months of savings, lifetime savings and
    savings ratio, the savings-versus-spending pie, and the tips derived
    from them. */
module SavingsOverview {
  import opened Wrappers
  import opened Numeric
  import opened Text
  import opened Collections
  import opened Entities
  import opened Ledger
  import opened Utils

  /** One month of the trend; `month` and `year` are the "MM" and "YYYY" parts of the key. */
  datatype SavingsRow = SavingsRow(month: string, year: string, savings: real, income: real, expenses: real)

  function RowSavings(row: SavingsRow): real { row.savings }

  function SavingsRowFor(incomes: seq<Income>, expenses: seq<Expense>, key: string): (row: SavingsRow)
    ensures row.income == MonthIncomeTotal(incomes, key)
    ensures row.expenses == MonthExpenseTotal(expenses, key)
    ensures row.income == row.savings + row.expenses
    ensures 7 <= |key| ==> row.month == key[5..7] && row.year == key[..4]
  {
    var income := MonthIncomeTotal(incomes, key);
    var spent := MonthExpenseTotal(expenses, key);
    SavingsRow(Substring(key, 5, 7), Substring(key, 0, 4), income - spent, income, spent)
  }

  /** The twelve months ending with `now`, oldest first. */
  function MonthlySavings(incomes: seq<Income>, expenses: seq<Expense>, now: YearMonth): (rows: seq<SavingsRow>)
    ensures |rows| == 12
    ensures forall i :: 0 <= i < 12 ==> rows[i] == SavingsRowFor(incomes, expenses, MonthRange(12, now)[i])
  {
    var months := MonthRange(12, now);
    seq(12, i requires 0 <= i < 12 => SavingsRowFor(incomes, expenses, months[i]))
  }

  /** The "Monthly Average" card. */
  function AverageMonthlySavings(rows: seq<SavingsRow>): (avg: real)
    ensures |rows| == 0 ==> avg == 0.0
    ensures |rows| > 0 ==> avg * |rows| as real == SumBy(rows, RowSavings)
  {
    if |rows| > 0 then SumBy(rows, RowSavings) / |rows| as real else 0.0
  }

  // ------------------------------------------------------ lifetime figures

  /** Lifetime savings: every income less every expense. */
  function TotalSavings(incomes: seq<Income>, expenses: seq<Expense>): (r: real)
    ensures r + ExpenseTotal(expenses) == IncomeTotal(incomes)
  {
    IncomeTotal(incomes) - ExpenseTotal(expenses)
  }

  /** Lifetime savings as a percentage of lifetime income; 0 without income. */
  function SavingsRatio(incomes: seq<Income>, expenses: seq<Expense>): (r: real)
    ensures IncomeTotal(incomes) <= 0.0 ==> r == 0.0
    ensures IncomeTotal(incomes) > 0.0 ==> r * IncomeTotal(incomes) == TotalSavings(incomes, expenses) * 100.0
  {
    var income := IncomeTotal(incomes);
    if income > 0.0 then TotalSavings(incomes, expenses) / income * 100.0 else 0.0
  }

  datatype PieSlice = PieSlice(name: string, value: real, color: string)

  /** The pie: savings (never below zero) against lifetime spending. */
  function SavingsVsSpending(incomes: seq<Income>, expenses: seq<Expense>): (pie: seq<PieSlice>)
    ensures |pie| == 2
    ensures pie[0].name == "Savings" && pie[1].name == "Spending"
    ensures pie[0].value >= 0.0
    ensures pie[0].value >= TotalSavings(incomes, expenses)
    ensures TotalSavings(incomes, expenses) >= 0.0 ==> pie[0].value == TotalSavings(incomes, expenses)
    ensures TotalSavings(incomes, expenses) < 0.0 ==> pie[0].value == 0.0
    ensures pie[1].value == ExpenseTotal(expenses)
  {
    [PieSlice("Savings", Max(0.0, TotalSavings(incomes, expenses)), "#10b981"),
     PieSlice("Spending", ExpenseTotal(expenses), "#ef4444")]
  }

  /** The wording of a savings rate, on the card and in the table. */
  datatype RateBand = ExcellentRate | GoodRate | NeedsImprovement

  function BandOf(rate: real): (b: RateBand)
    ensures b == ExcellentRate <==> rate >= 20.0
    ensures b == GoodRate <==> 10.0 <= rate < 20.0
    ensures b == NeedsImprovement <==> rate < 10.0
  {
    if rate >= 20.0 then ExcellentRate else if rate >= 10.0 then GoodRate else NeedsImprovement
  }

  /** A table row's rate: the month's savings as a percentage of its income, 0 without income. */
  function MonthRate(row: SavingsRow): (r: real)
    ensures row.income <= 0.0 ==> r == 0.0
    ensures row.income > 0.0 ==> r * row.income == row.savings * 100.0
  {
    if row.income > 0.0 then row.savings / row.income * 100.0 else 0.0
  }

  // ------------------------------------------------------------------ tips

  datatype Tip =
    | AimForTwenty
    | AutomateTransfers
    | LowRate
    | GreatRate
    | Declining
    | TopCategory(categoryName: string)
  {
    function Text(): string {
      match this
      case AimForTwenty => "Aim to save at least 20% of your monthly income."
      case AutomateTransfers => "Set up automatic transfers to your savings account on payday."
      case LowRate => "Your savings rate is below 10%. Try to reduce non-essential expenses."
      case GreatRate => "Great job! You're saving more than 20% of your income."
      case Declining => "Your savings have been declining for the last 3 months. Review your spending habits."
      case TopCategory(name) =>
        "Your highest spending category is " + name + ". Consider setting a budget for this category."
    }
  }

  /** The last three months' savings fall strictly. */
  predicate DecliningTrend(rows: seq<SavingsRow>)
    requires |rows| >= 3
  {
    var n := |rows|;
    rows[n - 3].savings > rows[n - 2].savings && rows[n - 2].savings > rows[n - 1].savings
  }

  /** The position of the first largest value: what a stable descending
      sort puts first. */
  function FirstMaxIndex(vals: seq<real>): (m: nat)
    requires |vals| > 0
    ensures m < |vals|
    ensures forall j :: 0 <= j < |vals| ==> vals[j] <= vals[m]
    ensures forall j :: 0 <= j < m ==> vals[j] < vals[m]
    decreases |vals|
  {
    if |vals| == 1 then 0
    else
      var m := FirstMaxIndex(vals[..|vals| - 1]);
      if vals[|vals| - 1] > vals[m] then |vals| - 1 else m
  }

  /** Lifetime spending per category id, in order of first occurrence. */
  function CategoryTotals(expenses: seq<Expense>, keys: seq<string>): (vals: seq<real>)
    ensures |vals| == |keys|
    ensures forall i :: 0 <= i < |keys| ==> vals[i] == GroupSum(expenses, ExpenseCategory, keys[i], ExpenseAmount)
  {
    seq(|keys|, i requires 0 <= i < |keys| => GroupSum(expenses, ExpenseCategory, keys[i], ExpenseAmount))
  }

  /** The category id with the largest lifetime spending (the first of
      equals), if anything was spent at all. */
  function TopCategoryId(expenses: seq<Expense>): (r: Option<string>)
    ensures r.None? <==> |expenses| == 0
    ensures r.Some? ==> r.value in GroupKeys(expenses, ExpenseCategory)
  {
    var keys := GroupKeys(expenses, ExpenseCategory);
    if |expenses| == 0 then None
    else
      assert ExpenseCategory(expenses[0]) in keys;
      Some(keys[FirstMaxIndex(CategoryTotals(expenses, keys))])
  }

  /** The top-category tip: only when something was spent and the top
      category id still names a category. */
  function TopTip(expenses: seq<Expense>, categories: seq<Category>): (t: Option<Tip>)
    ensures t.Some? ==> TopCategoryId(expenses).Some? && t.value.TopCategory?
    ensures t.Some? <==> TopCategoryId(expenses).Some? && FindCategory(categories, TopCategoryId(expenses).value).Some?
    ensures t.Some? ==> exists k :: 0 <= k < |categories| && categories[k].id == TopCategoryId(expenses).value
                                     && categories[k].name == t.value.categoryName
  {
    match TopCategoryId(expenses)
    case None => None
    case Some(id) =>
      match FindCategory(categories, id)
      case None => None
      case Some(c) =>
        var k :| 0 <= k < |categories| && categories[k] == c;
        Some(TopCategory(c.name))
  }

  /** The tip list from its optional parts, in order: the two fixed tips,
      the rate tip, the trend tip, the category tip. */
  function AssembleTips(rate: Option<Tip>, trend: Option<Tip>, top: Option<Tip>): (tips: seq<Tip>)
    requires rate.Some? ==> rate.value == LowRate || rate.value == GreatRate
    requires trend.Some? ==> trend.value == Declining
    requires top.Some? ==> top.value.TopCategory?
    ensures |tips| >= 2 && tips[0] == AimForTwenty && tips[1] == AutomateTransfers
    ensures LowRate in tips <==> rate == Some(LowRate)
    ensures GreatRate in tips <==> rate == Some(GreatRate)
    ensures Declining in tips <==> trend.Some?
    ensures top.Some? ==> tips[|tips| - 1] == top.value
    ensures top.None? ==> forall i :: 0 <= i < |tips| ==> !tips[i].TopCategory?
    ensures |tips| == 2 + |OptionToSeq(rate)| + |OptionToSeq(trend)| + |OptionToSeq(top)|
    ensures rate.Some? ==> tips[2] == rate.value
    ensures trend.Some? ==> tips[2 + |OptionToSeq(rate)|] == trend.value
  {
    TipListMembers(rate, trend, top);
    TipListEnds(rate, trend, top);
    TipListNoCategory(rate, trend, top);
    TipList(rate, trend, top)
  }

  function TipList(rate: Option<Tip>, trend: Option<Tip>, top: Option<Tip>): seq<Tip> {
    [AimForTwenty, AutomateTransfers] + OptionToSeq(rate) + OptionToSeq(trend) + OptionToSeq(top)
  }

  lemma TipListMembers(rate: Option<Tip>, trend: Option<Tip>, top: Option<Tip>)
    requires rate.Some? ==> rate.value == LowRate || rate.value == GreatRate
    requires trend.Some? ==> trend.value == Declining
    requires top.Some? ==> top.value.TopCategory?
    ensures LowRate in TipList(rate, trend, top) <==> rate == Some(LowRate)
    ensures GreatRate in TipList(rate, trend, top) <==> rate == Some(GreatRate)
    ensures Declining in TipList(rate, trend, top) <==> trend.Some?
  {
    TipsMembership(rate, trend, top);
  }

  lemma TipListEnds(rate: Option<Tip>, trend: Option<Tip>, top: Option<Tip>)
    ensures |TipList(rate, trend, top)| >= 2
    ensures TipList(rate, trend, top)[0] == AimForTwenty && TipList(rate, trend, top)[1] == AutomateTransfers
    ensures top.Some? ==> TipList(rate, trend, top)[|TipList(rate, trend, top)| - 1] == top.value
  {
    TipsMembership(rate, trend, top);
  }

  lemma TipListNoCategory(rate: Option<Tip>, trend: Option<Tip>, top: Option<Tip>)
    requires rate.Some? ==> rate.value == LowRate || rate.value == GreatRate
    requires trend.Some? ==> trend.value == Declining
    ensures top.None? ==> forall i :: 0 <= i < |TipList(rate, trend, top)| ==> !TipList(rate, trend, top)[i].TopCategory?
  {
    var tips := TipList(rate, trend, top);
    TipsMembership(rate, trend, top);
    forall i | 0 <= i < |tips| && top.None?
      ensures !tips[i].TopCategory?
    {
      assert tips[i] in tips;
    }
  }

  lemma TipsMembership(rate: Option<Tip>, trend: Option<Tip>, top: Option<Tip>)
    ensures var tips := TipList(rate, trend, top);
      (forall t :: t in tips <==> t == AimForTwenty || t == AutomateTransfers || rate == Some(t) || trend == Some(t) || top == Some(t))
      && (top.Some? ==> tips[|tips| - 1] == top.value)
  {
  }

  function OptionToSeq(o: Option<Tip>): (r: seq<Tip>)
    ensures forall t :: t in r <==> o == Some(t)
    ensures |r| <= 1
  {
    if o.Some? then [o.value] else []
  }

  /** The tips, in order: the two fixed ones, the rate tip (below 10% or at
      least 20%), the declining-trend tip, and the top-category tip when
      that category still exists. */
  function Tips(rows: seq<SavingsRow>, ratio: real, expenses: seq<Expense>, categories: seq<Category>): (tips: seq<Tip>)
    requires |rows| >= 3
    ensures |tips| >= 2 && tips[0] == AimForTwenty && tips[1] == AutomateTransfers
    ensures LowRate in tips <==> ratio < 10.0
    ensures GreatRate in tips <==> ratio >= 20.0
    ensures Declining in tips <==> DecliningTrend(rows)
    ensures TopTip(expenses, categories).Some? ==> tips[|tips| - 1] == TopTip(expenses, categories).value
    ensures TopTip(expenses, categories).None? ==> forall i :: 0 <= i < |tips| ==> !tips[i].TopCategory?
    ensures |tips| == 2 + (if ratio < 10.0 || ratio >= 20.0 then 1 else 0) + (if DecliningTrend(rows) then 1 else 0)
                        + (if TopTip(expenses, categories).Some? then 1 else 0)
    ensures ratio < 10.0 ==> tips[2] == LowRate
    ensures ratio >= 20.0 ==> tips[2] == GreatRate
    ensures DecliningTrend(rows) ==> tips[if ratio < 10.0 || ratio >= 20.0 then 3 else 2] == Declining
  {
    var rate := if ratio < 10.0 then Some(LowRate) else if ratio >= 20.0 then Some(GreatRate) else None;
    var trend := if DecliningTrend(rows) then Some(Declining) else None;
    var top := TopTip(expenses, categories);
    assert top.Some? ==> top.value.TopCategory?;
    var tips := AssembleTips(rate, trend, top);
    assert LowRate in tips <==> rate == Some(LowRate);
    assert GreatRate in tips <==> rate == Some(GreatRate);
    tips
  }

  // ---------------------------------------------------------------- lemmas

  /** The two rate tips never appear together. */
  lemma RateTipsExclusive(rows: seq<SavingsRow>, ratio: real, expenses: seq<Expense>, categories: seq<Category>)
    requires |rows| >= 3
    ensures !(LowRate in Tips(rows, ratio, expenses, categories) && GreatRate in Tips(rows, ratio, expenses, categories))
  {
  }

  /** The top-category tip, when given, names a category whose lifetime
      spending no other category id exceeds. */
  lemma TopCategoryIsMaximal(expenses: seq<Expense>)
    requires TopCategoryId(expenses).Some?
    ensures forall k :: k in GroupKeys(expenses, ExpenseCategory) ==>
      GroupSum(expenses, ExpenseCategory, k, ExpenseAmount)
        <= GroupSum(expenses, ExpenseCategory, TopCategoryId(expenses).value, ExpenseAmount)
  {
    var keys := GroupKeys(expenses, ExpenseCategory);
    var vals := CategoryTotals(expenses, keys);
    forall k | k in keys
      ensures GroupSum(expenses, ExpenseCategory, k, ExpenseAmount) <= vals[FirstMaxIndex(vals)]
    {
      var j :| 0 <= j < |keys| && keys[j] == k;
      assert vals[j] == GroupSum(expenses, ExpenseCategory, k, ExpenseAmount);
    }
  }

  /** The declining tip reads the last three of the twelve months. */
  lemma DecliningReadsLastQuarter(incomes: seq<Income>, expenses: seq<Expense>, now: YearMonth)
    ensures DecliningTrend(MonthlySavings(incomes, expenses, now)) <==>
      var months := MonthRange(12, now);
      TotalSavingsIn(incomes, expenses, months[9]) > TotalSavingsIn(incomes, expenses, months[10])
      && TotalSavingsIn(incomes, expenses, months[10]) > TotalSavingsIn(incomes, expenses, months[11])
  {
  }

  function TotalSavingsIn(incomes: seq<Income>, expenses: seq<Expense>, month: string): real {
    MonthIncomeTotal(incomes, month) - MonthExpenseTotal(expenses, month)
  }
}

=== FILE: sorting.dfy ===
/** The list sorting shared by the expense, income and one-time lists: a
    comparator chosen by field name ("date" compares the date strings,
    "amount" the amounts, any other field compares equal) and a direction,
    applied by a stable sort (`Array.prototype.sort` is stable). */
module Sorting {
  import opened Collections

  datatype Direction = Asc | Desc

  /** The list's sort state: which field, and which direction. */
  datatype SortState = SortState(field: string, direction: Direction)

  /** Code-unit lexicographic order on strings. On ISO dates (`YYYY-MM-DD`)
      it agrees with `a.localeCompare(b) <= 0`. */
  predicate StrLe(a: string, b: string)
    decreases |a|
  {
    |a| == 0 || (0 < |b| && (a[0] < b[0] || (a[0] == b[0] && StrLe(a[1..], b[1..]))))
  }

  lemma {:induction false} StrLeTotal(a: string, b: string)
    ensures StrLe(a, b) || StrLe(b, a)
    decreases |a|
  {
    if 0 < |a| && 0 < |b| && a[0] == b[0] {
      StrLeTotal(a[1..], b[1..]);
    }
  }

  lemma {:induction false} StrLeTransitive(a: string, b: string, c: string)
    requires StrLe(a, b) && StrLe(b, c)
    ensures StrLe(a, c)
    decreases |a|
  {
    if 0 < |a| && a[0] == b[0] && b[0] == c[0] {
      StrLeTransitive(a[1..], b[1..], c[1..]);
    }
  }

  /** The comparator of the source lists, read as "compare(a, b) <= 0":
      a row with date `d1` and amount `a1` may precede one with `d2`, `a2`. */
  predicate RowLe(st: SortState, d1: string, a1: real, d2: string, a2: real) {
    if st.field == "date" then
      (if st.direction == Asc then StrLe(d1, d2) else StrLe(d2, d1))
    else if st.field == "amount" then
      (if st.direction == Asc then a1 <= a2 else a2 <= a1)
    else
      true
  }

  predicate Precedes<T>(st: SortState, date: T -> string, amount: T -> real, x: T, y: T) {
    RowLe(st, date(x), amount(x), date(y), amount(y))
  }

  predicate Sorted<T>(st: SortState, date: T -> string, amount: T -> real, xs: seq<T>) {
    forall i, j :: 0 <= i < j < |xs| ==> Precedes(st, date, amount, xs[i], xs[j])
  }

  lemma RowLeTotal<T>(st: SortState, date: T -> string, amount: T -> real, x: T, y: T)
    ensures Precedes(st, date, amount, x, y) || Precedes(st, date, amount, y, x)
  {
    StrLeTotal(date(x), date(y));
  }

  lemma RowLeTransitive<T>(st: SortState, date: T -> string, amount: T -> real, x: T, y: T, z: T)
    requires Precedes(st, date, amount, x, y) && Precedes(st, date, amount, y, z)
    ensures Precedes(st, date, amount, x, z)
  {
    if st.field == "date" {
      if st.direction == Asc {
        StrLeTransitive(date(x), date(y), date(z));
      } else {
        StrLeTransitive(date(z), date(y), date(x));
      }
    }
  }

  /** Places `x` before the first element it may precede, so that it stays
      ahead of the elements it ties with. */
  function Insert<T>(st: SortState, date: T -> string, amount: T -> real, x: T, ys: seq<T>): (r: seq<T>)
    requires Sorted(st, date, amount, ys)
    ensures multiset(r) == multiset(ys) + multiset{x}
    ensures |r| == |ys| + 1
    ensures Sorted(st, date, amount, r)
    decreases |ys|
  {
    if |ys| == 0 then [x]
    else if Precedes(st, date, amount, x, ys[0]) then
      assert forall j :: 1 <= j < |ys| ==> Precedes(st, date, amount, ys[0], ys[j]);
      InsertFrontSorted(st, date, amount, x, ys);
      [x] + ys
    else
      var rest := Insert(st, date, amount, x, ys[1..]);
      RowLeTotal(st, date, amount, x, ys[0]);
      assert ys == [ys[0]] + ys[1..];
      InsertBehindSorted(st, date, amount, ys[0], x, ys[1..], rest);
      [ys[0]] + rest
  }

  lemma InsertFrontSorted<T>(st: SortState, date: T -> string, amount: T -> real, x: T, ys: seq<T>)
    requires Sorted(st, date, amount, ys)
    requires 0 < |ys| && Precedes(st, date, amount, x, ys[0])
    ensures Sorted(st, date, amount, [x] + ys)
  {
    var r := [x] + ys;
    forall i, j | 0 <= i < j < |r|
      ensures Precedes(st, date, amount, r[i], r[j])
    {
      if i == 0 && j > 1 {
        RowLeTransitive(st, date, amount, x, ys[0], ys[j - 1]);
      }
    }
  }

  lemma InsertBehindSorted<T>(st: SortState, date: T -> string, amount: T -> real, y: T, x: T, ys: seq<T>, rest: seq<T>)
    requires Sorted(st, date, amount, [y] + ys)
    requires Precedes(st, date, amount, y, x)
    requires Sorted(st, date, amount, rest)
    requires multiset(rest) == multiset(ys) + multiset{x}
    ensures Sorted(st, date, amount, [y] + rest)
  {
    var r := [y] + rest;
    forall i, j | 0 <= i < j < |r|
      ensures Precedes(st, date, amount, r[i], r[j])
    {
      if i == 0 {
        var e := rest[j - 1];
        assert r[j] == e;
        assert e in multiset(rest);
        if e != x {
          assert e in multiset(ys);
          var k :| 0 <= k < |ys| && ys[k] == e;
          var yys := [y] + ys;
          assert yys[0] == y && yys[k + 1] == e;
          assert Precedes(st, date, amount, yys[0], yys[k + 1]);
        }
      } else {
        assert r[i] == rest[i - 1] && r[j] == rest[j - 1];
      }
    }
  }

  /** The sorted list: a stable insertion sort under the list's comparator. */
  function Sort<T>(st: SortState, date: T -> string, amount: T -> real, xs: seq<T>): (r: seq<T>)
    ensures |r| == |xs|
    ensures multiset(r) == multiset(xs)
    ensures Sorted(st, date, amount, r)
    decreases |xs|
  {
    if |xs| == 0 then []
    else
      assert xs == [xs[0]] + xs[1..];
      Insert(st, date, amount, xs[0], Sort(st, date, amount, xs[1..]))
  }

  /** A field the comparator does not know ties every pair, and the stable
      sort then keeps the list as it was. */
  lemma {:induction false} SortUnknownFieldKeepsOrder<T>(st: SortState, date: T -> string, amount: T -> real, xs: seq<T>)
    requires st.field != "date" && st.field != "amount"
    ensures Sort(st, date, amount, xs) == xs
    decreases |xs|
  {
    if |xs| > 0 {
      SortUnknownFieldKeepsOrder(st, date, amount, xs[1..]);
      assert xs == [xs[0]] + xs[1..];
    }
  }

  /** The elements that tie with `e`: each may precede the other. */
  function TiesWith<T>(st: SortState, date: T -> string, amount: T -> real, e: T): T -> bool {
    (x: T) => Precedes(st, date, amount, x, e) && Precedes(st, date, amount, e, x)
  }

  /** Inserting `x` puts it ahead of every element it ties with and leaves
      the order among the others alone. */
  lemma {:induction false} InsertKeepsTies<T>(st: SortState, date: T -> string, amount: T -> real, x: T, ys: seq<T>, e: T)
    requires Sorted(st, date, amount, ys)
    ensures Filter(Insert(st, date, amount, x, ys), TiesWith(st, date, amount, e))
         == Filter([x], TiesWith(st, date, amount, e)) + Filter(ys, TiesWith(st, date, amount, e))
    decreases |ys|
  {
    var p := TiesWith(st, date, amount, e);
    if |ys| == 0 {
      assert Insert(st, date, amount, x, ys) == [x];
      assert [x] + ys == [x];
    } else if Precedes(st, date, amount, x, ys[0]) {
      FilterAppend([x], ys, p);
    } else {
      var rest := Insert(st, date, amount, x, ys[1..]);
      InsertKeepsTies(st, date, amount, x, ys[1..], e);
      FilterAppend([ys[0]], rest, p);
      assert ys == [ys[0]] + ys[1..];
      FilterAppend([ys[0]], ys[1..], p);
      if p(x) && p(ys[0]) {
        RowLeTransitive(st, date, amount, x, e, ys[0]);
      }
    }
  }

  /** The sort is stable: the elements that tie with any `e` come out in
      the order they went in. */
  lemma {:induction false} SortKeepsTies<T>(st: SortState, date: T -> string, amount: T -> real, xs: seq<T>, e: T)
    ensures Filter(Sort(st, date, amount, xs), TiesWith(st, date, amount, e)) == Filter(xs, TiesWith(st, date, amount, e))
    decreases |xs|
  {
    if |xs| > 0 {
      SortKeepsTies(st, date, amount, xs[1..], e);
      InsertKeepsTies(st, date, amount, xs[0], Sort(st, date, amount, xs[1..]), e);
      assert xs == [xs[0]] + xs[1..];
      FilterAppend([xs[0]], xs[1..], TiesWith(st, date, amount, e));
    }
  }

  /** `handleSort`: the same field flips the direction, a new field starts descending. */
  function HandleSort(st: SortState, field: string): (r: SortState)
    ensures r.field == field
    ensures st.field == field ==> r.direction != st.direction
    ensures st.field != field ==> r.direction == Desc
  {
    if st.field == field then
      SortState(field, if st.direction == Asc then Desc else Asc)
    else
      SortState(field, Desc)
  }

  /** Clicking the same column twice restores the sort state. */
  lemma HandleSortTwice(st: SortState)
    ensures HandleSort(HandleSort(st, st.field), st.field) == st
  {
  }
}

=== FILE: store.dfy ===
/** The ledger store: one immutable snapshot of every collection, and its
    mutators as pure snapshot-to-snapshot functions. Fresh ids and the
    clock ("now", an ISO timestamp) are parameters. Expense and income
    mutators end by appending one health-score record computed from the
    snapshot they produced; adding an expense also charges the matching
    budget of the expense's month. */
module Store {
  import opened Wrappers
  import opened Numeric
  import opened Text
  import opened Collections
  import opened Entities
  import opened Ledger

  datatype AppState = AppState(
    user: User,
    categories: seq<Category>,
    budgets: seq<Budget>,
    expenses: seq<Expense>,
    incomes: seq<Income>,
    savingsGoals: seq<SavingsGoal>,
    investmentCalculations: seq<InvestmentCalculation>,
    financialForecasts: seq<FinancialForecast>,
    financialHealthScores: seq<HealthScore>)

  const DefaultCategories: seq<Category> := [
    Category("1", "Food", "utensils", "#ef4444"),
    Category("2", "Transport", "car", "#f97316"),
    Category("3", "Rent", "home", "#eab308"),
    Category("4", "Utilities", "bolt", "#22c55e"),
    Category("5", "Entertainment", "film", "#3b82f6"),
    Category("6", "Shopping", "shopping-bag", "#a855f7"),
    Category("7", "Health", "heart", "#ec4899"),
    Category("8", "Education", "book", "#06b6d4")
  ]

  const InitialState := AppState(
    User("1", "Nidhchay", "nidhchay@example.com", "$", Light, true, true),
    DefaultCategories, [], [], [], [], [], [], [])

  // --------------------------------------------------------- health score

  /** Placeholder inputs: the store tracks neither debt nor investments. */
  const DebtRatio: real := 0.8
  const InvestmentRatio: real := 0.6

  /** `(income - expenses) / income` when there is income, otherwise 0. */
  function SavingsRatio(income: real, expenses: real): (r: real)
    ensures income <= 0.0 ==> r == 0.0
    ensures income > 0.0 ==> r * income == income - expenses
    ensures income > 0.0 && 0.0 <= expenses ==> r <= 1.0
    ensures income > 0.0 && expenses <= income ==> 0.0 <= r
  {
    if income > 0.0 then (income - expenses) / income else 0.0
  }

  /** How well the month's budgets held: 1 without budgets or without a
      positive total, else `min(1, (total - spent) / total + 0.5)`. */
  function BudgetAdherence(monthBudgets: seq<Budget>): (r: real)
    ensures r <= 1.0
    ensures |monthBudgets| == 0 ==> r == 1.0
    ensures SumBy(monthBudgets, BudgetAmount) <= 0.0 ==> r == 1.0
    ensures (SumBy(monthBudgets, BudgetAmount) > 0.0
             && SumBy(monthBudgets, BudgetSpent) <= SumBy(monthBudgets, BudgetAmount)) ==> r >= 0.5
    ensures SumBy(monthBudgets, BudgetAmount) > 0.0 ==>
      (r == 1.0 <==> SumBy(monthBudgets, BudgetSpent) * 2.0 <= SumBy(monthBudgets, BudgetAmount))
    ensures SumBy(monthBudgets, BudgetAmount) > 0.0 && r != 1.0 ==>
      (r - 0.5) * SumBy(monthBudgets, BudgetAmount)
      == SumBy(monthBudgets, BudgetAmount) - SumBy(monthBudgets, BudgetSpent)
  {
    if |monthBudgets| == 0 then 1.0
    else
      var total := SumBy(monthBudgets, BudgetAmount);
      var spent := SumBy(monthBudgets, BudgetSpent);
      if total > 0.0 then
        var q := (total - spent) / total;
        assert q * total == total - spent;
        assert q >= 0.0 <== spent <= total;
        assert q >= 0.5 <==> spent * 2.0 <= total by {
          PositiveProduct(q - 0.5, total);
          assert (q - 0.5) * total == total - spent - 0.5 * total;
        }
        Min(1.0, q + 0.5)
      else 1.0
  }

  /** The score of `month` for a snapshot, time-stamped `stamp`: built only
      from that month's incomes, expenses and budgets. */
  function HealthScoreFor(incomes: seq<Income>, expenses: seq<Expense>, budgets: seq<Budget>,
                          month: string, stamp: string): (h: HealthScore)
    ensures h.score == Round((h.savingsRatio * 0.4 + h.budgetAdherence * 0.3
                              + h.debtRatio * 0.15 + h.investmentRatio * 0.15) * 100.0)
    ensures h.savingsRatio == SavingsRatio(MonthIncomeTotal(incomes, month), MonthExpenseTotal(expenses, month))
    ensures h.budgetAdherence == BudgetAdherence(BudgetsFor(budgets, month))
    ensures h.debtRatio == 0.8 && h.investmentRatio == 0.6
    ensures h.budgetAdherence <= 1.0
    ensures MonthIncomeTotal(incomes, month) <= 0.0 ==> h.savingsRatio == 0.0
    ensures |BudgetsFor(budgets, month)| == 0 ==> h.budgetAdherence == 1.0
    ensures h.date == stamp
  {
    var ratio := SavingsRatio(MonthIncomeTotal(incomes, month), MonthExpenseTotal(expenses, month));
    var adherence := BudgetAdherence(BudgetsFor(budgets, month));
    HealthScore(
      Round((ratio * 0.4 + adherence * 0.3 + DebtRatio * 0.15 + InvestmentRatio * 0.15) * 100.0),
      stamp, ratio, adherence, DebtRatio, InvestmentRatio)
  }

  /** The score of the snapshot for the month of `now` (its first 7 characters). */
  function CurrentScore(s: AppState, now: string): HealthScore {
    HealthScoreFor(s.incomes, s.expenses, s.budgets, MonthKeyOf(now), now)
  }

  /** `calculateFinancialHealthScore`: appends the score of the current
      month and changes nothing else. */
  function RecordHealthScore(s: AppState, now: string): (r: AppState)
    ensures |r.financialHealthScores| == |s.financialHealthScores| + 1
    ensures r.financialHealthScores[..|s.financialHealthScores|] == s.financialHealthScores
    ensures r.financialHealthScores[|s.financialHealthScores|] == CurrentScore(s, now)
    ensures r.(financialHealthScores := s.financialHealthScores) == s
  {
    s.(financialHealthScores := s.financialHealthScores + [CurrentScore(s, now)])
  }

  // --------------------------------------------------- budget side effect

  /** A budget an expense of `categoryId` dated `date` counts against:
      same category, and the month of the date. */
  predicate Charges(b: Budget, categoryId: string, date: string) {
    b.categoryId == categoryId && b.month == MonthKeyOf(date)
  }

  function ChargedBy(categoryId: string, date: string): Budget -> bool {
    (b: Budget) => Charges(b, categoryId, date)
  }

  /** The budget `addExpense` finds: the first one the expense counts
      against, looked up only for a non-empty category. */
  function ChargedBudget(budgets: seq<Budget>, categoryId: string, date: string): (r: Option<nat>)
    ensures r.Some? ==> r.value < |budgets| && Charges(budgets[r.value], categoryId, date) && categoryId != ""
    ensures r.Some? ==> forall j :: 0 <= j < r.value ==> !Charges(budgets[j], categoryId, date)
    ensures r.None? <==> categoryId == "" || forall j :: 0 <= j < |budgets| ==> !Charges(budgets[j], categoryId, date)
  {
    if categoryId == "" then None else Find(budgets, ChargedBy(categoryId, date))
  }

  function AddSpent(b: Budget, amount: real): Budget {
    b.(spent := b.spent + amount)
  }

  /** The budget update of `addExpense`: every budget carrying the id of the
      found budget gets the amount added to `spent`. */
  function ChargeBudgets(budgets: seq<Budget>, categoryId: string, date: string, amount: real): (r: seq<Budget>)
    ensures |r| == |budgets|
    ensures ChargedBudget(budgets, categoryId, date).None? ==> r == budgets
    ensures forall i :: 0 <= i < |budgets| ==>
      r[i] == budgets[i] || r[i] == budgets[i].(spent := budgets[i].spent + amount)
    ensures KeysOf(r, BudgetId) == KeysOf(budgets, BudgetId)
  {
    match ChargedBudget(budgets, categoryId, date)
    case None => budgets
    case Some(k) =>
      var r := ReplaceKey(budgets, BudgetId, budgets[k].id, AddSpent, amount);
      assert forall i :: 0 <= i < |budgets| ==> r[i].id == budgets[i].id;
      r
  }

  /** With unique budget ids, only the first matching budget's `spent`
      rises, by the expense amount; every other budget is unchanged. */
  lemma ChargeFirstMatchOnly(budgets: seq<Budget>, categoryId: string, date: string, amount: real, k: nat)
    requires UniqueKeys(budgets, BudgetId)
    requires ChargedBudget(budgets, categoryId, date) == Some(k)
    ensures ChargeBudgets(budgets, categoryId, date, amount)
         == budgets[k := budgets[k].(spent := budgets[k].spent + amount)]
  {
    var r := ChargeBudgets(budgets, categoryId, date, amount);
    forall i | 0 <= i < |budgets| && i != k
      ensures r[i] == budgets[i]
    {
      if i < k {
        assert KeysOf(budgets, BudgetId)[i] != KeysOf(budgets, BudgetId)[k];
      } else {
        assert KeysOf(budgets, BudgetId)[k] != KeysOf(budgets, BudgetId)[i];
      }
    }
  }

  // ------------------------------------------------------------- expenses

  /** `addExpense`: append the draft under the fresh id, charge the
      matching budget, then record a score. The draft's own id is ignored
      (its type omits the id). */
  function AddExpense(s: AppState, draft: Expense, freshId: string, now: string): (r: AppState)
    ensures r.expenses == s.expenses + [draft.(id := freshId)]
    ensures r.budgets == ChargeBudgets(s.budgets, draft.categoryId, draft.date, draft.amount)
    ensures r.financialHealthScores
         == s.financialHealthScores + [CurrentScore(r, now)]
    ensures r.(expenses := s.expenses, budgets := s.budgets,
               financialHealthScores := s.financialHealthScores) == s
  {
    RecordHealthScore(s.(expenses := s.expenses + [draft.(id := freshId)],
                         budgets := ChargeBudgets(s.budgets, draft.categoryId, draft.date, draft.amount)), now)
  }

  /** `updateExpense`: merge the patch into the expenses with that id, then record a score. */
  function UpdateExpense(s: AppState, id: string, patch: ExpensePatch, now: string): (r: AppState)
    ensures |r.expenses| == |s.expenses|
    ensures forall i :: 0 <= i < |s.expenses| && s.expenses[i].id != id ==> r.expenses[i] == s.expenses[i]
    ensures forall i :: 0 <= i < |s.expenses| && s.expenses[i].id == id ==>
      r.expenses[i] == PatchExpense(s.expenses[i], patch)
    ensures id !in KeysOf(s.expenses, ExpenseId) ==> r.expenses == s.expenses
    ensures r.financialHealthScores
         == s.financialHealthScores + [CurrentScore(r, now)]
    ensures r.(expenses := s.expenses, financialHealthScores := s.financialHealthScores) == s
  {
    RecordHealthScore(s.(expenses := ReplaceKey(s.expenses, ExpenseId, id, PatchExpense, patch)), now)
  }

  /** `deleteExpense`: drop the expenses with that id (budgets keep their
      `spent`), then record a score. */
  function DeleteExpense(s: AppState, id: string, now: string): (r: AppState)
    ensures forall i :: 0 <= i < |r.expenses| ==> r.expenses[i].id != id && r.expenses[i] in s.expenses
    ensures forall i :: 0 <= i < |s.expenses| && s.expenses[i].id != id ==> s.expenses[i] in r.expenses
    ensures id !in KeysOf(s.expenses, ExpenseId) ==> r.expenses == s.expenses
    ensures r.financialHealthScores
         == s.financialHealthScores + [CurrentScore(r, now)]
    ensures r.(expenses := s.expenses, financialHealthScores := s.financialHealthScores) == s
  {
    RecordHealthScore(s.(expenses := RemoveKey(s.expenses, ExpenseId, id)), now)
  }

  // -------------------------------------------------------------- incomes

  function AddIncome(s: AppState, draft: Income, freshId: string, now: string): (r: AppState)
    ensures r.incomes == s.incomes + [draft.(id := freshId)]
    ensures r.financialHealthScores
         == s.financialHealthScores + [CurrentScore(r, now)]
    ensures r.(incomes := s.incomes, financialHealthScores := s.financialHealthScores) == s
  {
    RecordHealthScore(s.(incomes := s.incomes + [draft.(id := freshId)]), now)
  }

  function UpdateIncome(s: AppState, id: string, patch: IncomePatch, now: string): (r: AppState)
    ensures |r.incomes| == |s.incomes|
    ensures forall i :: 0 <= i < |s.incomes| && s.incomes[i].id != id ==> r.incomes[i] == s.incomes[i]
    ensures forall i :: 0 <= i < |s.incomes| && s.incomes[i].id == id ==>
      r.incomes[i] == PatchIncome(s.incomes[i], patch)
    ensures id !in KeysOf(s.incomes, IncomeId) ==> r.incomes == s.incomes
    ensures r.financialHealthScores
         == s.financialHealthScores + [CurrentScore(r, now)]
    ensures r.(incomes := s.incomes, financialHealthScores := s.financialHealthScores) == s
  {
    RecordHealthScore(s.(incomes := ReplaceKey(s.incomes, IncomeId, id, PatchIncome, patch)), now)
  }

  function DeleteIncome(s: AppState, id: string, now: string): (r: AppState)
    ensures forall i :: 0 <= i < |r.incomes| ==> r.incomes[i].id != id && r.incomes[i] in s.incomes
    ensures forall i :: 0 <= i < |s.incomes| && s.incomes[i].id != id ==> s.incomes[i] in r.incomes
    ensures r.financialHealthScores
         == s.financialHealthScores + [CurrentScore(r, now)]
    ensures r.(incomes := s.incomes, financialHealthScores := s.financialHealthScores) == s
  {
    RecordHealthScore(s.(incomes := RemoveKey(s.incomes, IncomeId, id)), now)
  }

  // ------------------------------------------------------ other collections

  function AddBudget(s: AppState, draft: Budget, freshId: string): (r: AppState)
    ensures r.budgets == s.budgets + [draft.(id := freshId)]
    ensures r.(budgets := s.budgets) == s
  {
    s.(budgets := s.budgets + [draft.(id := freshId)])
  }

  function UpdateBudget(s: AppState, id: string, patch: BudgetPatch): (r: AppState)
    ensures |r.budgets| == |s.budgets|
    ensures forall i :: 0 <= i < |s.budgets| && s.budgets[i].id != id ==> r.budgets[i] == s.budgets[i]
    ensures forall i :: 0 <= i < |s.budgets| && s.budgets[i].id == id ==>
      r.budgets[i] == PatchBudget(s.budgets[i], patch)
    ensures id !in KeysOf(s.budgets, BudgetId) ==> r.budgets == s.budgets
    ensures r.(budgets := s.budgets) == s
  {
    s.(budgets := ReplaceKey(s.budgets, BudgetId, id, PatchBudget, patch))
  }

  function DeleteBudget(s: AppState, id: string): (r: AppState)
    ensures forall i :: 0 <= i < |r.budgets| ==> r.budgets[i].id != id && r.budgets[i] in s.budgets
    ensures forall i :: 0 <= i < |s.budgets| && s.budgets[i].id != id ==> s.budgets[i] in r.budgets
    ensures r.(budgets := s.budgets) == s
  {
    s.(budgets := RemoveKey(s.budgets, BudgetId, id))
  }

  function AddCategory(s: AppState, draft: Category, freshId: string): (r: AppState)
    ensures r.categories == s.categories + [draft.(id := freshId)]
    ensures r.(categories := s.categories) == s
  {
    s.(categories := s.categories + [draft.(id := freshId)])
  }

  function UpdateCategory(s: AppState, id: string, patch: CategoryPatch): (r: AppState)
    ensures |r.categories| == |s.categories|
    ensures forall i :: 0 <= i < |s.categories| && s.categories[i].id != id ==> r.categories[i] == s.categories[i]
    ensures forall i :: 0 <= i < |s.categories| && s.categories[i].id == id ==>
      r.categories[i] == PatchCategory(s.categories[i], patch)
    ensures id !in KeysOf(s.categories, CategoryId) ==> r.categories == s.categories
    ensures r.(categories := s.categories) == s
  {
    s.(categories := ReplaceKey(s.categories, CategoryId, id, PatchCategory, patch))
  }

  /** `deleteCategory`: budgets and expenses that refer to it are left as they are. */
  function DeleteCategory(s: AppState, id: string): (r: AppState)
    ensures forall i :: 0 <= i < |r.categories| ==> r.categories[i].id != id && r.categories[i] in s.categories
    ensures forall i :: 0 <= i < |s.categories| && s.categories[i].id != id ==> s.categories[i] in r.categories
    ensures r.(categories := s.categories) == s
  {
    s.(categories := RemoveKey(s.categories, CategoryId, id))
  }

  function AddSavingsGoal(s: AppState, draft: SavingsGoal, freshId: string): (r: AppState)
    ensures r.savingsGoals == s.savingsGoals + [draft.(id := freshId)]
    ensures r.(savingsGoals := s.savingsGoals) == s
  {
    s.(savingsGoals := s.savingsGoals + [draft.(id := freshId)])
  }

  function UpdateSavingsGoal(s: AppState, id: string, patch: SavingsGoalPatch): (r: AppState)
    ensures |r.savingsGoals| == |s.savingsGoals|
    ensures forall i :: 0 <= i < |s.savingsGoals| && s.savingsGoals[i].id != id ==> r.savingsGoals[i] == s.savingsGoals[i]
    ensures forall i :: 0 <= i < |s.savingsGoals| && s.savingsGoals[i].id == id ==>
      r.savingsGoals[i] == PatchSavingsGoal(s.savingsGoals[i], patch)
    ensures id !in KeysOf(s.savingsGoals, SavingsGoalId) ==> r.savingsGoals == s.savingsGoals
    ensures r.(savingsGoals := s.savingsGoals) == s
  {
    s.(savingsGoals := ReplaceKey(s.savingsGoals, SavingsGoalId, id, PatchSavingsGoal, patch))
  }

  function DeleteSavingsGoal(s: AppState, id: string): (r: AppState)
    ensures forall i :: 0 <= i < |r.savingsGoals| ==> r.savingsGoals[i].id != id && r.savingsGoals[i] in s.savingsGoals
    ensures forall i :: 0 <= i < |s.savingsGoals| && s.savingsGoals[i].id != id ==> s.savingsGoals[i] in r.savingsGoals
    ensures r.(savingsGoals := s.savingsGoals) == s
  {
    s.(savingsGoals := RemoveKey(s.savingsGoals, SavingsGoalId, id))
  }

  /** `addInvestmentCalculation`: the record is stamped with `now`. */
  function AddInvestmentCalculation(s: AppState, draft: InvestmentCalculation, freshId: string, now: string): (r: AppState)
    ensures r.investmentCalculations == s.investmentCalculations + [draft.(id := freshId, createdAt := now)]
    ensures r.(investmentCalculations := s.investmentCalculations) == s
  {
    s.(investmentCalculations := s.investmentCalculations + [draft.(id := freshId, createdAt := now)])
  }

  function DeleteInvestmentCalculation(s: AppState, id: string): (r: AppState)
    ensures forall i :: 0 <= i < |r.investmentCalculations| ==>
      r.investmentCalculations[i].id != id && r.investmentCalculations[i] in s.investmentCalculations
    ensures forall i :: 0 <= i < |s.investmentCalculations| && s.investmentCalculations[i].id != id ==>
      s.investmentCalculations[i] in r.investmentCalculations
    ensures r.(investmentCalculations := s.investmentCalculations) == s
  {
    s.(investmentCalculations := RemoveKey(s.investmentCalculations, CalculationId, id))
  }

  /** `addFinancialForecast`: the record is stamped with `now`. */
  function AddFinancialForecast(s: AppState, draft: FinancialForecast, freshId: string, now: string): (r: AppState)
    ensures r.financialForecasts == s.financialForecasts + [draft.(id := freshId, createdAt := now)]
    ensures r.(financialForecasts := s.financialForecasts) == s
  {
    s.(financialForecasts := s.financialForecasts + [draft.(id := freshId, createdAt := now)])
  }

  function DeleteFinancialForecast(s: AppState, id: string): (r: AppState)
    ensures forall i :: 0 <= i < |r.financialForecasts| ==>
      r.financialForecasts[i].id != id && r.financialForecasts[i] in s.financialForecasts
    ensures forall i :: 0 <= i < |s.financialForecasts| && s.financialForecasts[i].id != id ==>
      s.financialForecasts[i] in r.financialForecasts
    ensures r.(financialForecasts := s.financialForecasts) == s
  {
    s.(financialForecasts := RemoveKey(s.financialForecasts, ForecastId, id))
  }

  /** `updateUser`: merge the patch into the single profile. */
  function UpdateUser(s: AppState, patch: UserPatch): (r: AppState)
    ensures r.user == PatchUser(s.user, patch)
    ensures r.(user := s.user) == s
  {
    s.(user := PatchUser(s.user, patch))
  }

  // ---------------------------------------------------------------- lemmas

  /** 5000 earned and 3750 spent this month, no budgets: a savings ratio
      of 0.25, full adherence, and a score of 61. */
  lemma ScoreExample(incomes: seq<Income>, expenses: seq<Expense>, budgets: seq<Budget>,
                     month: string, stamp: string)
    requires MonthIncomeTotal(incomes, month) == 5000.0
    requires MonthExpenseTotal(expenses, month) == 3750.0
    requires |BudgetsFor(budgets, month)| == 0
    ensures HealthScoreFor(incomes, expenses, budgets, month, stamp).savingsRatio == 0.25
    ensures HealthScoreFor(incomes, expenses, budgets, month, stamp).score == 61
  {
  }

  /** With no negative spending the score never exceeds 91 (a perfect
      savings ratio and adherence, with the fixed debt and investment
      parts); with spending within income and budgets not overspent it
      never drops below 36. */
  lemma ScoreBounds(incomes: seq<Income>, expenses: seq<Expense>, budgets: seq<Budget>,
                    month: string, stamp: string)
    requires 0.0 <= MonthExpenseTotal(expenses, month)
    ensures HealthScoreFor(incomes, expenses, budgets, month, stamp).score <= 91
    ensures MonthExpenseTotal(expenses, month) <= MonthIncomeTotal(incomes, month)
            && SumBy(BudgetsFor(budgets, month), BudgetSpent) <= SumBy(BudgetsFor(budgets, month), BudgetAmount)
            ==> HealthScoreFor(incomes, expenses, budgets, month, stamp).score >= 36
  {
  }

  /** The score is not clamped to 0..100: spending three times the month's
      income drives it below zero. */
  lemma ScoreCanBeNegative(incomes: seq<Income>, expenses: seq<Expense>, budgets: seq<Budget>,
                           month: string, stamp: string)
    requires MonthIncomeTotal(incomes, month) > 0.0
    requires MonthExpenseTotal(expenses, month) >= 3.0 * MonthIncomeTotal(incomes, month)
    ensures HealthScoreFor(incomes, expenses, budgets, month, stamp).score < 0
  {
    var income := MonthIncomeTotal(incomes, month);
    var ratio := SavingsRatio(income, MonthExpenseTotal(expenses, month));
    var margin := ratio + 2.0;
    assert margin * income == ratio * income + 2.0 * income;
    assert margin * income <= 0.0;
    PositiveProduct(margin, income);
    assert margin <= 0.0;
    var h := HealthScoreFor(incomes, expenses, budgets, month, stamp);
    assert h.savingsRatio == ratio <= -2.0;
    assert (h.savingsRatio * 0.4 + h.budgetAdherence * 0.3 + h.debtRatio * 0.15
            + h.investmentRatio * 0.15) * 100.0 <= -29.0;
  }

  /** An expense dated in another month than the score's leaves the
      recorded score what it was before: its amount is outside the month's
      total, and (with unique budget ids) the budget it charges belongs to
      its own month. */
  lemma AddExpenseOtherMonthKeepsScore(s: AppState, draft: Expense, freshId: string, now: string)
    requires UniqueKeys(s.budgets, BudgetId)
    requires 7 <= |draft.date| && 7 <= |now|
    requires MonthKeyOf(draft.date) != MonthKeyOf(now)
    ensures AddExpense(s, draft, freshId, now).financialHealthScores[|s.financialHealthScores|]
         == CurrentScore(s, now)
  {
    var r := AddExpense(s, draft, freshId, now);
    var month := MonthKeyOf(now);
    var e := draft.(id := freshId);
    assert !StartsWith(e.date, month) by {
      assert e.date[..7] == MonthKeyOf(draft.date);
    }
    MonthExpenseTotalSnoc(s.expenses, e, month);
    ChargeKeepsOtherMonths(s.budgets, draft.categoryId, draft.date, draft.amount, month);
    assert r.budgets == ChargeBudgets(s.budgets, draft.categoryId, draft.date, draft.amount);
    assert r.incomes == s.incomes;
  }

  /** With unique budget ids, charging an expense leaves the budgets of
      every other month exactly as they were. */
  lemma ChargeKeepsOtherMonths(budgets: seq<Budget>, categoryId: string, date: string, amount: real,
                               month: string)
    requires UniqueKeys(budgets, BudgetId)
    requires MonthKeyOf(date) != month
    ensures BudgetsFor(ChargeBudgets(budgets, categoryId, date, amount), month) == BudgetsFor(budgets, month)
  {
    match ChargedBudget(budgets, categoryId, date)
    case None =>
    case Some(k) =>
      ChargeFirstMatchOnly(budgets, categoryId, date, amount, k);
      assert budgets[k].month != month;
      FilterIgnoresRejectedUpdate(budgets, k, budgets[k].(spent := budgets[k].spent + amount), BudgetOfMonth(month));
  }

  /** Adding an expense moves the current month's expense total by its
      amount exactly when it is dated in that month. */
  lemma AddExpenseMonthTotal(s: AppState, draft: Expense, freshId: string, now: string)
    ensures MonthExpenseTotal(AddExpense(s, draft, freshId, now).expenses, MonthKeyOf(now))
         == MonthExpenseTotal(s.expenses, MonthKeyOf(now))
            + (if StartsWith(draft.date, MonthKeyOf(now)) then draft.amount else 0.0)
  {
    MonthExpenseTotalSnoc(s.expenses, draft.(id := freshId), MonthKeyOf(now));
  }

  /** Deleting the expense just added under a fresh id restores the
      expense list, but not the budget charge, and both steps leave a
      score behind. */
  lemma DeleteUndoesAddExpense(s: AppState, draft: Expense, freshId: string, now: string, later: string)
    requires freshId !in KeysOf(s.expenses, ExpenseId)
    ensures DeleteExpense(AddExpense(s, draft, freshId, now), freshId, later).expenses == s.expenses
    ensures DeleteExpense(AddExpense(s, draft, freshId, now), freshId, later).budgets
         == ChargeBudgets(s.budgets, draft.categoryId, draft.date, draft.amount)
    ensures |DeleteExpense(AddExpense(s, draft, freshId, now), freshId, later).financialHealthScores|
         == |s.financialHealthScores| + 2
  {
    RemoveUndoesAppend(s.expenses, draft.(id := freshId), ExpenseId);
  }

  /** Deleting the income just added under a fresh id restores everything
      but the score history, which has grown by two. */
  lemma DeleteUndoesAddIncome(s: AppState, draft: Income, freshId: string, now: string, later: string)
    requires freshId !in KeysOf(s.incomes, IncomeId)
    ensures DeleteIncome(AddIncome(s, draft, freshId, now), freshId, later)
              .(financialHealthScores := s.financialHealthScores) == s
    ensures |DeleteIncome(AddIncome(s, draft, freshId, now), freshId, later).financialHealthScores|
         == |s.financialHealthScores| + 2
  {
    RemoveUndoesAppend(s.incomes, draft.(id := freshId), IncomeId);
  }

  /** For the collections whose mutators record no score, deleting what was
      just added under a fresh id gives back the state exactly. */
  lemma DeleteUndoesAddElsewhere(s: AppState, b: Budget, c: Category, g: SavingsGoal,
                                 ic: InvestmentCalculation, f: FinancialForecast,
                                 freshId: string, now: string)
    ensures freshId !in KeysOf(s.budgets, BudgetId) ==>
      DeleteBudget(AddBudget(s, b, freshId), freshId) == s
    ensures freshId !in KeysOf(s.categories, CategoryId) ==>
      DeleteCategory(AddCategory(s, c, freshId), freshId) == s
    ensures freshId !in KeysOf(s.savingsGoals, SavingsGoalId) ==>
      DeleteSavingsGoal(AddSavingsGoal(s, g, freshId), freshId) == s
    ensures freshId !in KeysOf(s.investmentCalculations, CalculationId) ==>
      DeleteInvestmentCalculation(AddInvestmentCalculation(s, ic, freshId, now), freshId) == s
    ensures freshId !in KeysOf(s.financialForecasts, ForecastId) ==>
      DeleteFinancialForecast(AddFinancialForecast(s, f, freshId, now), freshId) == s
  {
    if freshId !in KeysOf(s.budgets, BudgetId) {
      RemoveUndoesAppend(s.budgets, b.(id := freshId), BudgetId);
    }
    if freshId !in KeysOf(s.categories, CategoryId) {
      RemoveUndoesAppend(s.categories, c.(id := freshId), CategoryId);
    }
    if freshId !in KeysOf(s.savingsGoals, SavingsGoalId) {
      RemoveUndoesAppend(s.savingsGoals, g.(id := freshId), SavingsGoalId);
    }
    if freshId !in KeysOf(s.investmentCalculations, CalculationId) {
      RemoveUndoesAppend(s.investmentCalculations, ic.(id := freshId, createdAt := now), CalculationId);
    }
    if freshId !in KeysOf(s.financialForecasts, ForecastId) {
      RemoveUndoesAppend(s.financialForecasts, f.(id := freshId, createdAt := now), ForecastId);
    }
  }

  /** Applying the same expense patch twice leaves the same expenses as
      applying it once. */
  lemma UpdateExpenseIdempotent(s: AppState, id: string, patch: ExpensePatch, now: string, later: string)
    ensures UpdateExpense(UpdateExpense(s, id, patch, now), id, patch, later).expenses
         == UpdateExpense(s, id, patch, now).expenses
  {
    var once := UpdateExpense(s, id, patch, now);
    var twice := UpdateExpense(once, id, patch, later);
    forall i | 0 <= i < |s.expenses|
      ensures twice.expenses[i] == once.expenses[i]
    {
      if s.expenses[i].id == id {
        ExpensePatchLaws(s.expenses[i], patch);
      }
    }
  }

  /** An empty patch leaves the expenses as they were. */
  lemma UpdateExpenseNoChange(s: AppState, id: string, now: string)
    ensures UpdateExpense(s, id, NoExpenseChange, now).expenses == s.expenses
  {
    var r := UpdateExpense(s, id, NoExpenseChange, now);
    forall i | 0 <= i < |s.expenses|
      ensures r.expenses[i] == s.expenses[i]
    {
      ExpensePatchLaws(s.expenses[i], NoExpenseChange);
    }
  }
}

=== FILE: text.dfy ===
/** String operations used by the ledger: prefix tests, clamped substrings,
    and decimal rendering of integers (template-literal interpolation and
    `padStart`), with the parser that inverts the rendering. */
module Text {

  /** `s.startsWith(prefix)`. */
  predicate StartsWith(s: string, prefix: string) {
    |prefix| <= |s| && s[..|prefix|] == prefix
  }

  /** `s.substring(from, to)` for `from <= to`: both bounds are clamped to the length. */
  function Substring(s: string, from: nat, to: nat): (r: string)
    requires from <= to
    ensures |r| <= to - from
    ensures to <= |s| ==> r == s[from..to]
    ensures |s| <= from ==> r == []
  {
    var hi := if to <= |s| then to else |s|;
    var lo := if from <= hi then from else hi;
    s[lo..hi]
  }

  predicate IsDigit(c: char) {
    '0' <= c <= '9'
  }

  predicate AllDigits(s: string) {
    forall i :: 0 <= i < |s| ==> IsDigit(s[i])
  }

  function DigitChar(d: nat): (c: char)
    requires d <= 9
    ensures IsDigit(c)
  {
    (48 + d) as char
  }

  function DigitValue(c: char): (d: nat)
    requires IsDigit(c)
    ensures d <= 9
  {
    c as int - 48
  }

  /** The decimal numeral of a natural number, without leading zeros. */
  function NatToString(n: nat): (r: string)
    ensures 1 <= |r|
    ensures AllDigits(r)
    ensures n < 10 <==> |r| == 1
    decreases n
  {
    if n < 10 then [DigitChar(n)] else NatToString(n / 10) + [DigitChar(n % 10)]
  }

  /** `${n}` for an integer `n`. */
  function IntToString(n: int): (r: string)
    ensures 1 <= |r|
    ensures n < 0 <==> r[0] == '-'
  {
    if n < 0 then "-" + NatToString(-n) else NatToString(n)
  }

  /** `s.padStart(2, '0')`. */
  function PadStart2(s: string): (r: string)
    ensures |s| < 2 ==> |r| == 2
    ensures |s| >= 2 ==> r == s
    ensures |r| - |s| >= 0 && r[|r| - |s|..] == s
    ensures forall i :: 0 <= i < |r| - |s| ==> r[i] == '0'
  {
    if |s| >= 2 then s else seq(2 - |s|, _ => '0') + s
  }

  /** The value of a decimal numeral; leading zeros are allowed. */
  function ParseNat(s: string): nat
    requires AllDigits(s)
    decreases |s|
  {
    if |s| == 0 then 0 else ParseNat(s[..|s| - 1]) * 10 + DigitValue(s[|s| - 1])
  }

  /** True when `s` is an optional minus sign followed by at least one digit. */
  predicate IsIntNumeral(s: string) {
    if 0 < |s| && s[0] == '-' then 2 <= |s| && AllDigits(s[1..]) else 1 <= |s| && AllDigits(s)
  }

  function ParseInt(s: string): int
    requires IsIntNumeral(s)
  {
    if s[0] == '-' then -(ParseNat(s[1..]) as int) else ParseNat(s)
  }

  lemma {:induction false} ParseNatToString(n: nat)
    ensures ParseNat(NatToString(n)) == n
    decreases n
  {
    if n >= 10 {
      var s := NatToString(n / 10) + [DigitChar(n % 10)];
      assert s[..|s| - 1] == NatToString(n / 10);
      ParseNatToString(n / 10);
    }
  }

  /** Parsing inverts rendering: `IntToString` is injective. */
  lemma ParseIntToString(n: int)
    ensures IsIntNumeral(IntToString(n))
    ensures ParseInt(IntToString(n)) == n
  {
    var s := IntToString(n);
    if n < 0 {
      var d := NatToString(-n);
      assert s == "-" + d;
      assert s[1..] == d;
      ParseNatToString(-n);
    } else {
      var d := NatToString(n);
      assert s == d;
      assert IsDigit(d[0]);
      ParseNatToString(n);
    }
  }

  /** Leading zeros do not change a numeral's value. */
  lemma {:induction false} ParseNatLeadingZeros(zeros: string, s: string)
    requires AllDigits(s)
    requires forall i :: 0 <= i < |zeros| ==> zeros[i] == '0'
    ensures AllDigits(zeros + s)
    ensures ParseNat(zeros + s) == ParseNat(s)
    decreases |s|
  {
    var t := zeros + s;
    if |s| == 0 {
      assert t == zeros;
      ZerosParseToZero(zeros);
    } else {
      assert t[..|t| - 1] == zeros + s[..|s| - 1];
      ParseNatLeadingZeros(zeros, s[..|s| - 1]);
    }
  }

  lemma {:induction false} ZerosParseToZero(zeros: string)
    requires forall i :: 0 <= i < |zeros| ==> zeros[i] == '0'
    ensures AllDigits(zeros)
    ensures ParseNat(zeros) == 0
    decreases |zeros|
  {
    if |zeros| > 0 {
      ZerosParseToZero(zeros[..|zeros| - 1]);
    }
  }
}

=== FILE: utils.dfy ===
/** The pure helpers of the ledger's utility library: the capped percentage,
    the health-status thresholds, and month keys ("YYYY-MM"). The clock is a
    parameter: "now" is the calendar month the caller reads from it. */
module Utils {
  import opened Wrappers
  import opened Numeric
  import opened Text
  import opened Collections

  // ------------------------------------------------------------ percentage

  /** `calculatePercentage(current, target)`: how far `current` is towards
      `target`, in whole percent, never more than 100. */
  function CalculatePercentage(current: real, target: real): (r: int)
    ensures target == 0.0 ==> r == 0
    ensures r <= 100
    ensures target != 0.0 && Round(current / target * 100.0) <= 100 ==> r == Round(current / target * 100.0)
    ensures target != 0.0 && current / target >= 1.0 ==> r == 100
  {
    if target == 0.0 then 0
    else
      var pct := Round(current / target * 100.0);
      if pct < 100 then pct else 100
  }

  /** For a positive target and a non-negative current value the percentage
      is a whole number in [0, 100]. */
  lemma PercentageInRange(current: real, target: real)
    requires target > 0.0 && current >= 0.0
    ensures 0 <= CalculatePercentage(current, target) <= 100
  {
    assert current / target >= 0.0;
  }

  /** Spending more never shows less progress. */
  lemma PercentageMonotonic(c1: real, c2: real, target: real)
    requires target > 0.0 && c1 <= c2
    ensures CalculatePercentage(c1, target) <= CalculatePercentage(c2, target)
  {
    assert c1 / target <= c2 / target by {
      assert c2 / target - c1 / target == (c2 - c1) / target;
    }
    RoundMonotonic(c1 / target * 100.0, c2 / target * 100.0);
  }

  // ---------------------------------------------------------- health status

  datatype HealthStatus = Excellent | Good | Fair | NeedsAttention {

    function Label(): string {
      match this
      case Excellent => "Excellent"
      case Good => "Good"
      case Fair => "Fair"
      case NeedsAttention => "Needs Attention"
    }

    function Color(): string {
      match this
      case Excellent => "bg-green-500"
      case Good => "bg-blue-500"
      case Fair => "bg-yellow-500"
      case NeedsAttention => "bg-red-500"
    }

    /** Position on the scale, from worst (0) to best (3). */
    function Rank(): nat {
      match this
      case NeedsAttention => 0
      case Fair => 1
      case Good => 2
      case Excellent => 3
    }
  }

  /** `getFinancialHealthStatus(score)`: the band the score falls in. */
  function GetFinancialHealthStatus(score: int): (r: HealthStatus)
    ensures r == Excellent <==> 80 <= score
    ensures r == Good <==> 60 <= score < 80
    ensures r == Fair <==> 40 <= score < 60
    ensures r == NeedsAttention <==> score < 40
  {
    if score >= 80 then Excellent
    else if score >= 60 then Good
    else if score >= 40 then Fair
    else NeedsAttention
  }

  /** A higher score never lands in a worse band. */
  lemma StatusMonotonic(s1: int, s2: int)
    requires s1 <= s2
    ensures GetFinancialHealthStatus(s1).Rank() <= GetFinancialHealthStatus(s2).Rank()
  {
  }

  // ------------------------------------------------------------ month keys

  type MonthNumber = m: int | 1 <= m <= 12 witness 1

  /** A calendar month as `Date` reports it: full year, and month 1..12. */
  datatype YearMonth = YearMonth(year: int, month: MonthNumber)

  /** Months counted from January of year 0. */
  function MonthIndex(ym: YearMonth): int {
    ym.year * 12 + ym.month - 1
  }

  /** The month with a given index; `Date.setMonth` normalises out-of-range
      months the same way, carrying into the year. */
  function MonthAt(index: int): (ym: YearMonth)
    ensures MonthIndex(ym) == index
  {
    YearMonth(index / 12, index % 12 + 1)
  }

  lemma MonthAtIndex(ym: YearMonth)
    ensures MonthAt(MonthIndex(ym)) == ym
  {
  }

  /** The key of the month `ym`: the year, a dash, and the month as two
      digits. */
  function MonthKey(ym: YearMonth): (r: string)
    ensures |r| == |IntToString(ym.year)| + 3
    ensures r[..|r| - 3] == IntToString(ym.year) && r[|r| - 3] == '-'
    ensures IsDigit(r[|r| - 2]) && IsDigit(r[|r| - 1])
    ensures r[|r| - 2] == '1' <==> ym.month >= 10
  {
    IntToString(ym.year) + "-" + [DigitChar(ym.month / 10), DigitChar(ym.month % 10)]
  }

  /** The key is `${year}-${String(month).padStart(2, '0')}`, the string
      `getCurrentMonth` builds for the month `ym`. */
  lemma MonthKeyPadsMonth(ym: YearMonth)
    ensures MonthKey(ym) == IntToString(ym.year) + "-" + PadStart2(NatToString(ym.month))
  {
    PaddedMonthDigits(ym.month);
  }

  lemma PaddedMonthDigits(m: MonthNumber)
    ensures PadStart2(NatToString(m)) == [DigitChar(m / 10), DigitChar(m % 10)]
  {
    var mm := NatToString(m);
    if m < 10 {
      assert mm == [DigitChar(m)];
      assert seq(1, _ => '0') == [DigitChar(0)];
      assert PadStart2(mm) == [DigitChar(0)] + mm;
    } else {
      assert m / 10 == 1;
      assert NatToString(1) == [DigitChar(1)];
      assert mm == [DigitChar(1)] + [DigitChar(m % 10)];
    }
  }

  /** Reads a month key back: the year before the last '-', and two digits 01..12 after it. */
  function ParseMonthKey(k: string): Option<YearMonth> {
    if |k| < 4 || k[|k| - 3] != '-' then None
    else
      var y := k[..|k| - 3];
      var mm := k[|k| - 2..];
      if !IsIntNumeral(y) || !AllDigits(mm) then None
      else
        var m := ParseNat(mm);
        if 1 <= m <= 12 then Some(YearMonth(ParseInt(y), m)) else None
  }

  /** Month keys can be read back, so distinct months have distinct keys. */
  lemma MonthKeyRoundTrip(ym: YearMonth)
    ensures ParseMonthKey(MonthKey(ym)) == Some(ym)
  {
    var y := IntToString(ym.year);
    var mm := [DigitChar(ym.month / 10), DigitChar(ym.month % 10)];
    KeyParts(y, mm);
    ParseIntToString(ym.year);
    TwoDigitsParse(ym.month / 10, ym.month % 10);
  }

  /** The pieces of `year + "-" + mm` sit where the parser looks for them. */
  lemma KeyParts(y: string, mm: string)
    requires |mm| == 2
    ensures var k := y + "-" + mm;
      |k| >= 3 && k[|k| - 3] == '-' && k[..|k| - 3] == y && k[|k| - 2..] == mm
  {
    var k := y + "-" + mm;
    assert k[..|k| - 3] == y;
    assert k[|k| - 2..] == mm;
  }

  lemma TwoDigitsParse(hi: nat, lo: nat)
    requires hi <= 9 && lo <= 9
    ensures ParseNat([DigitChar(hi), DigitChar(lo)]) == hi * 10 + lo
  {
    var mm := [DigitChar(hi), DigitChar(lo)];
    var first := [DigitChar(hi)];
    assert mm[..|mm| - 1] == first;
    assert first[..|first| - 1] == [];
    assert ParseNat(first) == DigitValue(DigitChar(hi)) == hi;
    assert ParseNat(mm) == ParseNat(first) * 10 + DigitValue(DigitChar(lo));
  }

  lemma MonthKeyInjective(a: YearMonth, b: YearMonth)
    requires MonthKey(a) == MonthKey(b)
    ensures a == b
  {
    MonthKeyRoundTrip(a);
    MonthKeyRoundTrip(b);
  }

  /** `getMonthRange(n)`: the keys of the `n` months ending with the month
      `now`, oldest first. */
  function MonthRange(n: nat, now: YearMonth): (r: seq<string>)
    ensures |r| == n
    ensures 0 < n ==> r[n - 1] == MonthKey(now)
  {
    MonthAtIndex(now);
    seq(n, i requires 0 <= i < n => MonthKey(MonthAt(MonthIndex(now) - (n - 1 - i))))
  }

  /** The months of a range are consecutive calendar months in ascending
      order, each key readable and all of them distinct. */
  lemma MonthRangeConsecutive(n: nat, now: YearMonth)
    ensures forall i :: 0 <= i < n ==> ParseMonthKey(MonthRange(n, now)[i]).Some?
    ensures forall i :: 0 <= i < n ==>
      MonthIndex(ParseMonthKey(MonthRange(n, now)[i]).value) == MonthIndex(now) - (n - 1 - i)
    ensures forall i :: 0 < i < n ==>
      MonthIndex(ParseMonthKey(MonthRange(n, now)[i]).value)
        == MonthIndex(ParseMonthKey(MonthRange(n, now)[i - 1]).value) + 1
    ensures Distinct(MonthRange(n, now))
  {
    var r := MonthRange(n, now);
    forall i | 0 <= i < n
      ensures ParseMonthKey(r[i]).Some?
      ensures MonthIndex(ParseMonthKey(r[i]).value) == MonthIndex(now) - (n - 1 - i)
    {
      MonthRangeEntry(n, now, i);
    }
    forall i, j | 0 <= i < j < n
      ensures r[i] != r[j]
    {
      MonthRangeEntry(n, now, i);
      MonthRangeEntry(n, now, j);
    }
  }

  lemma MonthRangeEntry(n: nat, now: YearMonth, i: nat)
    requires i < n
    ensures ParseMonthKey(MonthRange(n, now)[i]) == Some(MonthAt(MonthIndex(now) - (n - 1 - i)))
  {
    var ym := MonthAt(MonthIndex(now) - (n - 1 - i));
    assert MonthRange(n, now)[i] == MonthKey(ym);
    MonthKeyRoundTrip(ym);
  }
}

=== FILE: wrappers.dfy ===
/** Optional values: the model's stand-in for JavaScript's `undefined`
    and for the result of `Array.prototype.find`. */
module Wrappers {

  datatype Option<+T> = None | Some(value: T) {

    /** Returns the value in Some, or a default for None (JavaScript's `x ?? d`). */
    function GetOr(default: T): T {
      match this
      case Some(v) => v
      case None => default
    }
  }
}
